=== FILE: README.md ===
# Bates advisor core, modelled in Dafny

This project models the deterministic core of the Bates Technical College
student-advisor agent. That core is the code that sits between the
language-model agents and the storage back ends. It has four parts:

- **Sessions and memory.** `StudentProfile` keeps capped histories, newest
  last. `BatesMemoryBank` keeps per-student interaction histories, writes a
  snapshot on every tenth stored interaction, and builds a context summary
  for the specialists. `BatesSessionManager` holds the live sessions and
  removes expired ones with a strict-`<` sweep.
  (`memory.dfy`, `sessions.dfy`)
- **Orchestration.** The first-match keyword router. The multi-agent
  handler, which decides which specialists are asked, what the response
  envelope holds, and which interactions get recorded. The two catalog tools
  that read the PDF directly: keyword page search and single-best-page
  lookup. (`orchestrator.dfy`, `catalog_search.dfy`)
- **Enhanced tools.** Website-query categorisation, the program cost-estimate
  table, pathway recommendations, schedule lookup, and the enhanced catalog
  search with its page-scoring formula and stable top-5 ranking.
  (`enhanced_tools.dfy`, `enhanced_search.dfy`)
- **Vector index and observability.** Sentence chunking, page and chunk
  filtering, chunk identifiers and batching, collection lookup and program
  identifiers. The metrics, the single-"current trace" tracer and the
  performance monitor. (`vector_search.dfy`, `observability.dfy`)

Shared pieces:

- `text.dfy` models the Python `str` operations the code relies on, each with
  Python's edge cases: `in`, `count` (the empty needle occurs `len + 1`
  times), `split(sep)`, `split()`, `strip`, slicing, `join` and `str(int)`.
- `ranking.dfy` models Python's stable `sort(reverse=True)`.
- `common.dfy` holds `Option` and `Result`.

Everything is an immutable value with pure state-transition functions.
Whatever the Python reads from the outside world becomes a parameter:

- an integer clock `now`, in seconds for sessions and profiles and
  milliseconds for traces;
- the fresh session id that `uuid4` would give;
- the page texts of the PDF, or the error that reading it raised;
- each specialist agent's answer (`Ok` reply or `Err` exception message);
- what the vector store returns;
- whether the search-engine integration is available.

Each tool that counts its calls in the shared metrics returns the new metrics
next to its reply.

A few behaviours of the code, stated plainly:

- **Topic in recorded interactions.** `record_interaction` stores the
  session's `current_topic` as it is, which is `None` unless an update set
  it, so the stored topic is JSON null. Reading a summary over such an
  entry raises (see Findings). `Memory.TopicReading` selects how the summary
  treats it: `AsWritten` raises as the code does, and `Corrected` reads it as
  "general". The handler, `create_session` and `get_student_context` take
  the reading as a parameter, so both behaviours are stated.
- **Snapshot writes.** Snapshots are written in place, not by atomic
  replace. Atomicity is not claimed here.
- **Sweep with a zero limit.** A sweep with a zero age limit does not remove
  a session touched at the same clock instant, because the test is strict.
  See `Sessions.ZeroAgeBoundary`.
- **Loading the snapshot files.** The two files are not loaded
  independently. A malformed profile entry aborts loading, and the
  interaction history is then skipped as well, since both loads share one
  `try`.

## Model

| member | source | states |
|---|---|---|
| Text.Lower | bates_agent/agent.py:119 | lowercasing keeps the length and folds each character on its own |
| Text.LowerIdempotent | bates_agent/agent.py:119 | lowercasing an already lowercased query changes nothing |
| Text.ContainsAfterPrefix | bates_agent/agent.py:38 | `needle in hay` holds whatever text surrounds the needle |
| Text.CountNonEmptyPositive | bates_agent/agent.py:71 | with a non-empty needle, `count` is positive exactly when the needle occurs |
| Text.CountPositiveIffContains | bates_agent/agent.py:71 | for every needle, the empty one included, `count` is positive iff `in` holds |
| Text.Take | bates_agent/agent.py:41 | `text[:n]` is a prefix of length min(len, n) |
| Text.Last | bates_agent/tools/session_memory.py:59-61 | for n > 0 (every cap the code uses), `xs[-n:]` has length min(len, n), and a list of at most n items is kept whole |
| Text.LastOfLastAppend | bates_agent/tools/session_memory.py:59-61 | capping, appending more, then capping again is the same as capping once at the end |
| Text.AppendEachKeepsLast | bates_agent/tools/session_memory.py:59-61 | appending items one at a time, capping after each, keeps the newest n of everything, oldest first |
| Text.LastKeepsFinal | bates_agent/tools/session_memory.py:186-187 | a cap above zero never drops the newest item |
| Text.LastAppendTwo | bates_agent/tools/session_memory.py:183-187 | two capped appends in a row leave the two new items last, in order |
| Text.Split | bates_agent/tools/vector_search.py:136 | `split(sep)` always yields at least one piece |
| Text.SplitThenJoin | bates_agent/tools/vector_search.py:136 | joining the pieces of `split(sep)` with the same separator gives back the text |
| Text.WordsOfWord | bates_agent/tools/enhanced_tools.py:495 | `split()` of a non-empty text without whitespace is that one word |
| Text.WordsEmptyIffBlank | bates_agent/tools/enhanced_tools.py:495 | `split()` has no words exactly when the text is all whitespace |
| Text.StripDropsTrailingSpace | bates_agent/tools/vector_search.py:145 | `strip()` shortens any text that ends in whitespace |
| Text.NatToString | bates_agent/tools/vector_search.py:97 | `str(n)` is a non-empty run of decimal digits |
| Text.ParseNatToString | bates_agent/tools/vector_search.py:97 | reading the digits of `str(n)` gives back n |
| Text.NatToStringInjective | bates_agent/tools/vector_search.py:97 | distinct numbers print differently |
| Ranking.SortDesc | bates_agent/tools/enhanced_tools.py:138 | the descending sort is sorted, is a permutation of its input, and keeps equal keys in input order (stable) |
| Ranking.PrefixOfSortedKeepsTop | bates_agent/tools/enhanced_tools.py:147 | a prefix of a descending list is descending, is a sub-multiset, and no item left out outranks an item kept |
| Observability.IncrementCounter | bates_agent/tools/observability.py:144-147 | the named counter (absent reads 0) rises by v; no other counter, timer or gauge changes |
| Observability.RecordTimer | bates_agent/tools/observability.py:149-155 | one sample is appended to the named timer; other timers, counters and gauges are unchanged |
| Observability.SetGauge | bates_agent/tools/observability.py:157-160 | the named gauge is overwritten; every other gauge and all counters and timers are kept |
| Observability.ResetMetrics | bates_agent/tools/observability.py:180-185 | counters, timers and gauges are all empty afterwards, and every counter reads 0 |
| Observability.GetMetrics | bates_agent/tools/observability.py:162-178 | the report copies counters and gauges; for each timer it gives the sample count, the sum of the durations, and exactly the last 10 samples (`times[-10:]`) |
| Observability.TotalDurationAppend | bates_agent/tools/observability.py:170 | the reported total splits over any division of the samples |
| Observability.RecordTimerReport | bates_agent/tools/observability.py:149-178 | after one recorded sample the report's count for that timer rises by 1 and its total by the duration, the sample is the newest recent one, and counters and every other timer's report are unchanged |
| Observability.StartTrace | bates_agent/tools/observability.py:79-96 | appends exactly one trace ("started", no events, id `trace_<ms>`), keeps earlier traces, and makes the new trace current |
| Observability.AddEvent | bates_agent/tools/observability.py:98-109 | no-op without a current trace; otherwise appends one event to the current trace only |
| Observability.EndTrace | bates_agent/tools/observability.py:111-122 | no-op without a current trace; otherwise sets the current trace's status, result and end time, keeps its events, clears current, and leaves other traces alone |
| Observability.GetTraces | bates_agent/tools/observability.py:124-128 | newest-first by start time; a limit of None or 0 keeps all; otherwise `traces[:limit]` (a negative limit drops from the end); no trace left out started after one kept |
| Observability.MonitorEnter | bates_agent/tools/observability.py:197-200 | entering starts one "started" trace named after the operation and makes it current |
| Observability.MonitorExit | bates_agent/tools/observability.py:202-211 | exiting records one timer sample, bumps exactly one of `<op>_success` / `<op>_errors` according to how the call left, ends the current trace as "completed" or "error", and changes no other counter |
| Observability.Monitor | bates_agent/tools/observability.py:197-231 | runs the decorated body from the entered state and returns its result or exception unchanged; adds one timer sample and exactly one outcome counter on top of what the body did; when the body leaves its own trace current, that trace ends "completed" or "error" by the outcome, and when the body cleared the current slot the tracer is left as the body left it |
| Observability.LeafMonitorEndsItsTrace | bates_agent/tools/observability.py:197-231 | a decorated call that starts no trace of its own appends one trace named after the operation, keeps earlier traces, ends it by its outcome and passes the outcome through |
| Observability.NestedMonitorThroughDecorator | bates_agent/tools/observability.py:111-122 | a decorated call inside another: the inner trace ends "completed", the outer one stays "started", and the inner result comes back |
| Observability.NestedMonitorLeavesOuterStarted | bates_agent/tools/observability.py:111-122 | with nested monitored calls the inner exit clears the single current slot, so the outer trace stays "started" |
| Memory.NewProfile | bates_agent/tools/session_memory.py:25-34 | a new profile has the id, both timestamps at now, empty lists and preferences, and count 0 |
| Memory.UpdateActivity | bates_agent/tools/session_memory.py:36-39 | a touch sets last-active to now and adds exactly 1 to the count, changing nothing else |
| Memory.AddDistinct | bates_agent/tools/session_memory.py:41-49 | adding an item already listed is a no-op, otherwise it is appended; duplicate-freedom is preserved |
| Memory.AddInterest | bates_agent/tools/session_memory.py:41-44 | the interest is listed afterwards, adding a known one is a no-op, no duplicate appears, and no other field changes |
| Memory.AddProgramView | bates_agent/tools/session_memory.py:46-49 | the same, for programs viewed |
| Memory.AddQuestion | bates_agent/tools/session_memory.py:51-61 | the questions are the last 50 of old ++ [new], in order, with the new one last; nothing else changes |
| Memory.AddRecommendation | bates_agent/tools/session_memory.py:63-73 | the recommendations are the last 20 of old ++ [new], in order; nothing else changes |
| Memory.QuestionsKeepNewest | bates_agent/tools/session_memory.py:51-61 | after any run of questions the profile holds the newest 50 of all of them, oldest first |
| Memory.RecommendationsKeepNewest | bates_agent/tools/session_memory.py:63-73 | after any run of recommendations the profile holds the newest 20, oldest first |
| Memory.FromDict | bates_agent/tools/session_memory.py:89-101 | succeeds iff `student_id`, `created_at` and `last_active` are present; the other keys default to empty or 0; a missing required key is the error |
| Memory.ToDict | bates_agent/tools/session_memory.py:75-87 | `from_dict(to_dict(p))` gives back p in every field, lists in order |
| Memory.GetOrCreateProfile | bates_agent/tools/session_memory.py:156-166 | a profile is created only for an unseen id (and counted); the looked-up profile is touched once (count +1); other profiles and histories are unchanged |
| Memory.Save | bates_agent/tools/session_memory.py:136-151 | the snapshot covers every profile and the whole history |
| Memory.SaveKeepsProfiles | bates_agent/tools/session_memory.py:141-144 | every profile in a snapshot reads back as the profile saved |
| Memory.StoreInteraction | bates_agent/tools/session_memory.py:168-193 | appends one record; the history is the newest 100 of old ++ [new]; other students are untouched; the counter rises by 1; a snapshot is written exactly when the counter reaches a multiple of 10 |
| Memory.HistoryKeepsNewest | bates_agent/tools/session_memory.py:183-187 | however many interactions are stored, the history is the newest 100 of them, oldest first |
| Memory.AssembleShape | bates_agent/tools/session_memory.py:209-221 | the summary is "New student interaction" exactly when there are no interests, programs or interactions; it opens with the first part present and ends with the topics part |
| Memory.ContextSummary | bates_agent/tools/session_memory.py:206-221 | the corrected summary: fallback sentence iff no signal; interests part first when present, programs part first otherwise; ends with the topics of the last 3 interactions, a null topic reading "general" |
| Memory.ContextSummaryAsWritten | bates_agent/tools/session_memory.py:218-219 | the summary as written fails exactly when one of the last three interactions has a null topic, with "sequence item k: expected str instance, NoneType found" for the first such position k, and otherwise equals the corrected summary |
| Memory.GetStudentContext | bates_agent/tools/session_memory.py:195-204 | touches the profile as `get_or_create_profile` does, whether or not it then raises; raises exactly when the reading is as written and a null topic is among the student's newest three entries; otherwise reports that profile, the newest 10 interactions, and the summary of exactly those two |
| Memory.ContextSummaryLayout | bates_agent/tools/session_memory.py:206-221 | the summary in closed form for every combination of non-empty parts: interests, programs and topics in that order, joined by "; ", nothing else; "New student interaction" when none is present |
| Memory.ReadSummary | bates_agent/tools/session_memory.py:216-219 | under the as-written reading the summary fails exactly when one of the newest three entries has a null topic, with the join's error naming the first such item; under the corrected reading it never fails |
| Memory.SummaryTopicsAreNewestThree | bates_agent/tools/session_memory.py:198-219 | the last 3 of the last 10 interactions are the last 3 overall |
| Memory.LoadProfileEntries | bates_agent/tools/session_memory.py:117-134 | the load loop fails exactly when some entry lacks a required key, and keeps what it loaded before |
| Memory.Load | bates_agent/tools/session_memory.py:117-134 | missing files give an empty bank, and a freshly loaded bank has no pending snapshot |
| Memory.SaveThenLoad | bates_agent/tools/session_memory.py:117-154 | loading a saved snapshot, in any entry order, gives back the saved profiles and histories |
| Sessions.Merge | bates_agent/tools/session_memory.py:276 | `dict.update`: each field present in the update overwrites, and the others are kept |
| Sessions.AnonymousId | bates_agent/tools/session_memory.py:238-239 | the anonymous id is `anonymous_` plus the first 8 characters of the session id |
| Sessions.SessionStudent | bates_agent/tools/session_memory.py:238-239 | a new session's student is the given id, unless it is missing or empty, in which case it is the anonymous id |
| Sessions.CreateSession | bates_agent/tools/session_memory.py:234-259 | exactly one new session (count 0, no topic, empty context, both times now) is added and counted; existing sessions are unchanged; the student's profile is touched; histories are unchanged; all of this happens before the context lookup, which raises exactly when the reading is as written and the student's newest three entries hold a null topic |
| Sessions.GetSession | bates_agent/tools/session_memory.py:262-269 | an unknown id gives None and changes nothing; a known session is returned with last activity set to now, and that is stored |
| Sessions.UpdateSession | bates_agent/tools/session_memory.py:272-278 | an unknown id is a no-op; otherwise fields are merged, last activity is set to now (overriding the update), the update is counted, and other sessions are kept |
| Sessions.InteractionMetadata | bates_agent/tools/session_memory.py:295-299 | the stored metadata carries the session id the call was made with, the agent response, and the session's topic as is, null included |
| Sessions.StoreForSession | bates_agent/tools/session_memory.py:301-303 | the interaction becomes the newest entry of the session's student, within the 100 cap, and no other student's history moves |
| Sessions.BumpSession | bates_agent/tools/session_memory.py:283-292 | the session's count rises by 1 and its last activity becomes now; the update counter rises by 1 |
| Sessions.RecordInteraction | bates_agent/tools/session_memory.py:280-303 | an unknown session changes nothing; otherwise its count rises by 1, other sessions are kept, and one interaction is stored and counted |
| Sessions.RecordInteractionHistory | bates_agent/tools/session_memory.py:280-303 | the recorded interaction, with the `session_id` argument, the response and the topic, is the newest entry of that student; other histories are unchanged |
| Sessions.RecordKeepsCallersSessionId | bates_agent/tools/session_memory.py:271-303 | after an update overwrites the record's own `session_id` field, a recorded interaction still stores the key it was recorded under |
| Sessions.CleanupExpiredSessions | bates_agent/tools/session_memory.py:305-319 | removes exactly the sessions whose last activity is strictly before now minus the age limit, keeps the rest unchanged, and counts each removal |
| Sessions.CreateThenGet | bates_agent/tools/session_memory.py:234-269 | a session just created reads back with count 0 and a non-empty student id, even when `create_session` raised after registering it |
| Sessions.CleanupIdempotent | bates_agent/tools/session_memory.py:305-317 | a second sweep at the same instant removes nothing |
| Sessions.ZeroAgeBoundary | bates_agent/tools/session_memory.py:307-312 | with a zero limit, a session survives a sweep in the second it was last active and is removed by any later sweep |
| Sessions.RecordedNullTopicBreaksSummary | bates_agent/tools/session_memory.py:298 | recording on a session without a topic stores a null topic, after which the summary as written fails for that student |
| Orchestrator.Classify | bates_agent/agent.py:119-146 | admissions iff an admissions keyword occurs in the lowercased query; academics iff not that but an academics keyword; financial aid iff neither but a financial keyword; otherwise general |
| Orchestrator.ClassifyIgnoresCase | bates_agent/agent.py:119 | routing depends on the query only up to letter case |
| Orchestrator.AdmissionsOutranksFinancial | bates_agent/agent.py:122-141 | any query with an admissions keyword goes to admissions, whatever financial terms it has |
| Orchestrator.SubstringRouting | bates_agent/agent.py:122-126 | the test is substring containment: "latest news" is routed to admissions through "test" |
| Orchestrator.Recorded | bates_agent/agent.py:149-152 | a "routing" interaction naming the specialist is recorded only for a non-empty session id |
| Orchestrator.RouteToSpecialist | bates_agent/agent.py:104-161 | the specialist is the classifier's; the routing record is made only with a session id; the per-specialist route counter rises by 1; `routing_confidence` is high exactly when a specialist agent (not the general fallback) was chosen |
| Orchestrator.ConfidentIffKeyword | bates_agent/agent.py:119-160 | routing is confident exactly when a keyword of some specialist occurs in the lowercased query |
| Orchestrator.ProgramIsComplex | bates_agent/agent.py:217-231 | a query mentioning "program" is always complex |
| Orchestrator.Calls | bates_agent/agent.py:206-238 | at most three agent calls, one per capacity asked, each to the right agent with its prompt |
| Orchestrator.CallsRoles | bates_agent/agent.py:206-238 | the primary is asked iff the route is not general; the academic view iff complex and primary is not academics; the financial view iff "program" and primary is not financial aid; no capacity twice |
| Orchestrator.Responses | bates_agent/agent.py:198-238 | the primary's reply, or "Error: ..." in its place, is under its name; each perspective key is present exactly when it was asked and the agent answered; no other keys |
| Orchestrator.ResolveSession | bates_agent/agent.py:184-185 | a missing or empty session id opens a fresh anonymous session under the new id, carrying the error `create_session` raised exactly when the anonymous student's newest entries hold a null topic under the as-written reading; a given id is used as is; histories are unchanged |
| Orchestrator.ReadContext | bates_agent/agent.py:188-190 | reading the student's context leaves sessions and histories unchanged and marks the profile active now |
| Orchestrator.Answer | bates_agent/agent.py:192-252 | a success envelope with the query, the session id, the given context summary, the classifier's specialist, the calls and the responses; the store is the one after both records |
| Orchestrator.RecordAnswer | bates_agent/agent.py:149-244 | in a known session the count rises by 2 and the routing record, then the closing "Processed by N agents" record, both stamped with that session id, become the student's two newest entries |
| Orchestrator.QuerySession | bates_agent/agent.py:187-257 | with the session id settled: fails exactly when the id is unknown ("'NoneType' object is not subscriptable") or the summary raises (the join error), counting the error, asking no agent and recording nothing; otherwise the envelope's context is the summary of the touched profile and the newest 10 entries |
| Orchestrator.HandleQuery | bates_agent/agent.py:169-257 | fails, with the error counted, no agent asked and no interaction recorded, exactly when `create_session` raised, the resolved session is unknown, or the reading is as written and a null topic is among the student's newest three entries; otherwise it is the answered query above |
| Orchestrator.NoSessionIdNeverFails | bates_agent/agent.py:184-189 | a query without a session id succeeds and reports the new session's id whenever the summary does not raise |
| Orchestrator.ExistingSessionRecordsTwice | bates_agent/agent.py:149-244 | a query in a known session whose summary does not raise succeeds, raises the count by 2, and leaves the routing record and then the closing "Processed by N agents" record as the student's two newest entries |
| Orchestrator.NullTopicFailsSecondQuery | bates_agent/agent.py:149-257 | as written, a session without a topic answers its first query and fails the next one, counting the error and asking no agent; read as intended, the same second query succeeds |
| Orchestrator.CorrectedQueryNeedsOnlyKnownSession | bates_agent/agent.py:184-257 | read as intended, a query naming a session fails exactly when the session is unknown, with the not-subscriptable error |
| Orchestrator.GetAgentMetrics | bates_agent/agent.py:260-281 | the system part is the metrics report, the traces are the tracer's `get_traces(limit=10)` (the 10 newest, none left out newer than one shown), and the live-session and student counts are those of the store |
| Orchestrator.CreatedSessionIsReported | bates_agent/agent.py:260-281 | after `create_session` under a new id the report shows one more live session, one more student when the student was new, the sessions-created counter up by 1, and the same traces |
| CatalogSearch.HitsUpToAreAllHits | bates_agent/agent.py:36-42 | the page loop lists each matching page once, in page order, with a 500-character excerpt, and nothing else |
| CatalogSearch.CollectHits | bates_agent/agent.py:36-42 | the loop's result is exactly the matching pages in order |
| CatalogSearch.SearchCatalog | bates_agent/agent.py:30-54 | a read error is reported; otherwise either all matching pages, or the no-match message when no page matches |
| CatalogSearch.EmptyQueryMatchesEveryPage | bates_agent/agent.py:38 | the empty query matches every page |
| CatalogSearch.RagBates | bates_agent/agent.py:60-96 | the first page with the highest positive score (twice the query's occurrences plus the word hits), with 1500 characters of content; or the fixed answer when no page scores; or the read error |
| CatalogSearch.EmptyQueryScoresEveryPage | bates_agent/agent.py:71 | the empty query scores every page at len + 1 |
| CatalogSearch.WordHitsPositive | bates_agent/agent.py:74-77 | the word bonus is positive iff some query word longer than 2 characters occurs |
| CatalogSearch.ScorePositive | bates_agent/agent.py:70-79 | a page scores iff it contains the whole query or one of its longer words |
| EnhancedSearch.StrategyKeywords | bates_agent/tools/enhanced_tools.py:87-94 | any search type other than program, course or policy has no bonus keywords |
| EnhancedSearch.KeywordBonusPositive | bates_agent/tools/enhanced_tools.py:106-108 | the keyword bonus is positive iff some keyword occurs in the lowercased text |
| EnhancedSearch.PageScorePositive | bates_agent/tools/enhanced_tools.py:102-114 | a page is kept iff it contains the query, a keyword, or a case-sensitive structure marker |
| EnhancedSearch.UnknownTypeHasNoBonus | bates_agent/tools/enhanced_tools.py:94-112 | with an unknown type the score is 3 × occurrences plus the marker point |
| EnhancedSearch.FirstIndex | bates_agent/tools/enhanced_tools.py:122 | `list.index` finds the first equal element |
| EnhancedSearch.RelevantIsContext | bates_agent/tools/enhanced_tools.py:119-126 | each relevant context surrounds the first copy of a sentence that mentions the query |
| EnhancedSearch.SnippetFallsBackToPrefix | bates_agent/tools/enhanced_tools.py:116-128 | with no sentence mentioning the query, the snippet is the first 500 characters |
| EnhancedSearch.KeptIsKeptRows | bates_agent/tools/enhanced_tools.py:114-135 | the kept rows are exactly the rows that score, each once, in page order |
| EnhancedSearch.KeepScoring | bates_agent/tools/enhanced_tools.py:97-135 | the page loop keeps exactly the scoring pages, in page order |
| EnhancedSearch.KeptRowIsScoredPage | bates_agent/tools/enhanced_tools.py:97-135 | a kept row is a scoring page with its own number, score and snippet |
| EnhancedSearch.ScoringPageIsKept | bates_agent/tools/enhanced_tools.py:114-135 | every scoring page is kept |
| EnhancedSearch.VectorSnippet | bates_agent/tools/enhanced_tools.py:67 | a passage of at most 500 characters is shown whole; a longer one shows its first 500 plus "..." |
| EnhancedSearch.TopRanked | bates_agent/tools/enhanced_tools.py:137-147 | at most 5 rows, highest score first; no row left out scores above one shown; equal scores keep page order |
| EnhancedSearch.ShownRowsAreScoredPages | bates_agent/tools/enhanced_tools.py:137-147 | every row shown is a scoring page |
| EnhancedSearch.EnhancedCatalogSearch | bates_agent/tools/enhanced_tools.py:41-154 | vector passages, when asked for, present and non-empty, are shown uncounted; otherwise a readable PDF gives the top 5 ranked kept pages and their total, counted once; an unreadable one gives a counted error |
| EnhancedTools.Categorize | bates_agent/tools/enhanced_tools.py:170-263 | costs iff a cost term occurs in the lowercased query; programs iff not that but a program term; admissions iff neither but an admission term; else general |
| EnhancedTools.SuggestedSearches | bates_agent/tools/enhanced_tools.py:268-272 | exactly three suggestions, each quoting the query |
| EnhancedTools.SearchBatesWebsite | bates_agent/tools/enhanced_tools.py:157-280 | the reply carries the category; suggestions are present iff search is available; the call is counted once |
| EnhancedTools.CategorizeIgnoresCase | bates_agent/tools/enhanced_tools.py:170 | the category depends on the query only up to letter case |
| EnhancedTools.TuitionOutranksProgram | bates_agent/tools/enhanced_tools.py:173-195 | "nursing program tuition" is a costs question: cost terms are consulted first |
| EnhancedTools.KeyMatchesIsContains | bates_agent/tools/enhanced_tools.py:451 | each table key is a single word, so the word test adds nothing to containment |
| EnhancedTools.FirstCostKey | bates_agent/tools/enhanced_tools.py:450-455 | the found key matches and no earlier key does; no key matches when none is found |
| EnhancedTools.ProgramCostEstimates | bates_agent/tools/enhanced_tools.py:406-464 | a specific estimate iff some table key occurs in the lowercased name, and then for the first such key in table order; else the general estimate |
| EnhancedTools.NursingOutranksCulinary | bates_agent/tools/enhanced_tools.py:410-455 | a name containing "nursing" gets the nursing estimate whatever else it contains |
| EnhancedTools.GetCurrentProgramCosts | bates_agent/tools/enhanced_tools.py:340-404 | status is success with suggestions and the table estimate iff search is available, else manual guidance; counted once |
| EnhancedTools.MatchedProgramsMembership | bates_agent/tools/enhanced_tools.py:311-313 | a program is matched for an interest iff it belongs to a category that the interest selects |
| EnhancedTools.CandidatesMembership | bates_agent/tools/enhanced_tools.py:309-313 | the candidate list holds exactly the programs of the categories that some interest selects |
| EnhancedTools.TakeFromSet | bates_agent/tools/enhanced_tools.py:316 | `list(set)[:5]` gives distinct members of the set, min(size, 5) of them, and all of them when fewer than 5 |
| EnhancedTools.AnalyzeStudentPathway | bates_agent/tools/enhanced_tools.py:283-337 | recommendations are distinct, at most 5 and all recommendable, and all recommendable programs appear when fewer than 5; counted once |
| EnhancedTools.NoInterestsNoCandidates | bates_agent/tools/enhanced_tools.py:309-316 | no interests give no recommendations |
| EnhancedTools.CategoryNameSelects | bates_agent/tools/enhanced_tools.py:298-313 | an interest naming a category recommends that category's programs |
| EnhancedTools.SampleSchedule | bates_agent/tools/enhanced_tools.py:482-496 | four courses exactly for nursing or business in fall, winter or spring, and none otherwise |
| EnhancedTools.ProvideScheduleAssistance | bates_agent/tools/enhanced_tools.py:467-516 | fails with the index error iff the program is blank; otherwise the courses are looked up by the first word of the lowercased program and the lowercased semester; counted once either way |
| EnhancedTools.ScheduleIgnoresCase | bates_agent/tools/enhanced_tools.py:495-496 | letter case in the program and the semester does not change the courses |
| EnhancedTools.ScheduleForNursing | bates_agent/tools/enhanced_tools.py:482-496 | "Nursing" in "Fall" gets the four fall nursing courses |
| VectorSearch.GroupsPartition | bates_agent/tools/vector_search.py:136-151 | the sentence groups concatenate to the sentences in order; none is empty; there are between 1 and one-per-sentence; a group of 2+ sentences is at most 1 character over the limit |
| VectorSearch.ChunksBounds | bates_agent/tools/vector_search.py:134-151 | there is always a chunk and never more chunks than sentences; each chunk is its stripped group; a chunk of 2+ sentences is at most max + 1 long |
| VectorSearch.SplitTextIntoChunks | bates_agent/tools/vector_search.py:134-151 | the loop computes exactly the chunks of the grouping above |
| VectorSearch.IndexFromOrdered | bates_agent/tools/vector_search.py:84-106 | indexed chunks come in strictly increasing (page, position) order |
| VectorSearch.ChunkIdInjective | bates_agent/tools/vector_search.py:97 | `catalog_page_{p}_chunk_{i}` determines p and i |
| VectorSearch.CatalogDocsWellFormed | bates_agent/tools/vector_search.py:84-106 | each indexed chunk is a chunk of at least 100 stripped characters, from a page of at least 50, under the id of its page and unfiltered position; no two ids coincide |
| VectorSearch.Batches | bates_agent/tools/vector_search.py:109-113 | every batch holds between 1 and 100 documents, and every batch but the last exactly 100 |
| VectorSearch.BatchesCover | bates_agent/tools/vector_search.py:109-119 | sending the batches in turn sends every document once, in order |
| VectorSearch.IndexCatalogPdf | bates_agent/tools/vector_search.py:63-132 | a missing file or unreadable PDF is an error; otherwise the documents are exactly the qualifying chunks (each indexed under its page and position, none else), in page-then-position order, with distinct ids, in batches of 100 (the last one possibly smaller) covering them in order, with the page count |
| VectorSearch.CatalogDocsComplete | bates_agent/tools/vector_search.py:84-106 | every chunk of at least 100 stripped characters on a page of at least 50 is indexed under the id of its page and position |
| VectorSearch.LookupCollection | bates_agent/tools/vector_search.py:168-176 | only catalog, costs and programs are known; any other name gives "Collection X not found" |
| VectorSearch.SemanticSearch | bates_agent/tools/vector_search.py:154-207 | an unknown collection is an error whatever the store would say; otherwise the store's passages with their count, or its error |
| VectorSearch.ProgramIdsCollide | bates_agent/tools/vector_search.py:224-237 | two program names share a program or cost id exactly when they agree after lowercasing and replacing spaces with underscores |
| VectorSearch.SpacesAndUnderscoresCollide | bates_agent/tools/vector_search.py:224 | "Web Development" and "web_development" are filed under one id |
| VectorSearch.AddProgramInformation | bates_agent/tools/vector_search.py:209-255 | the program document is always upserted under `program_<id>`; the cost document under `cost_<id>` only when non-empty cost details are given; every other document is unchanged |

## Left out

- Text.Lower: folds ASCII letters only. Python's `str.lower` also folds non-ASCII letters, and Unicode case mapping is not modelled.
- Observability.GetMetrics: omits the average (a float division) and the wall-clock stamp. Durations are integer milliseconds, not floats.
- EnhancedTools.AnalyzeStudentPathway: states only which programs may appear and how many. The order comes from Python set iteration, which the language leaves unspecified.
- EnhancedSearch.EnhancedCatalogSearch: the vector path keeps the page and the snippet, but not the `1 - distance` score (floating point) or the timestamp.
- EnhancedTools.SearchBatesWebsite: the guidance prose, URLs and phone numbers of each category are constants and are not modelled.
- EnhancedTools.GetCurrentProgramCosts: the "partial" status sits behind an `except` that no statement in its `try` can reach. The model leaves it out, along with the guidance prose.
- VectorSearch.IndexCatalogPdf: the store's `add` and `count` calls are not modelled. The reply carries the documents and batches that would be added, not `collection_size`.
- VectorSearch.SemanticSearch: passages keep their content and id. Metadata and distances, and the formatting of partly missing store fields, are not modelled.
- VectorSearch.AddProgramInformation: keeps the program name, description and cost details. It does not keep the formatted document text, the JSON rendering of the costs, or the `last_updated` metadata.
- Sessions.SessionUpdate: only the session's own fields can be updated. Arbitrary extra keys in an `updates` dict are not modelled.
- Decorator instrumentation: `@monitor_performance` is modelled once, as `Observability.Monitor`. The model does not thread the timers, traces and counters that each decorated call adds to the shared metrics. The counters each operation increments itself are modelled.
- External systems: pypdf extraction, ChromaDB, SentenceTransformer embeddings and agent LLM runs are foreign calls. Page texts (a page without text as ""), store answers and agent answers are parameters.
- Clocks and ids: clocks, `uuid4` and `time.time()` are integer parameters.
- Threading: locks and thread safety are out of scope. Operations are sequential.
- I/O and logging: JSON file I/O, `export_traces`, `BatesLogger` and all logging are left out. A snapshot is a pure value, and the files read at start-up are a parameter.
- Agent wiring: the `Agent`/`FunctionTool` wiring, `get_all_tools`, the root agent's instruction text and the unused `InMemorySessionService` are left out.
- Other files: `main.py`, the package `__init__.py` files and `rag_loader.py` are plumbing around the modelled functions. `specialized_agents.py` is not part of this model; its agents appear only as answer parameters.
- Vector-store wrappers: `get_collection_stats`, `semantic_catalog_search`, `search_program_costs` and `initialize_vector_database` only format or forward store calls, so they are left out.
- Unreachable `except` branches: they are modelled only where an input can reach them. Examples are the `KeyError` of a malformed profile, the index error of a blank program, an unreadable PDF, and the `TypeError` of a null topic, which `get_student_context`, `create_session` and the handler all propagate or report.

## Findings

| source | as written | input that shows it | evidently intended | confidence | as-written member | corrected member |
|---|---|---|---|---|---|---|
| bates_agent/tools/session_memory.py:298 | `record_interaction` stores `session.get("current_topic", "general")`. The key is always present with value `None`, so the topic is stored as null. `_generate_context_summary` (lines 218-219) then passes that null to `', '.join`, which raises `TypeError`. | Any `handle_multi_agent_query` in an existing session. Its first step records an interaction with a null topic. The next query's context lookup then raises, so it returns status "error". | A missing or null topic reads as "general" in the summary. | not executed | Memory.ContextSummaryAsWritten, Sessions.RecordedNullTopicBreaksSummary, Orchestrator.NullTopicFailsSecondQuery | Memory.ContextSummary, Orchestrator.CorrectedQueryNeedsOnlyKnownSession |

=== FILE: catalog_search.dfy ===
/** The two catalog tools that read the PDF directly: the plain keyword
    search and the single-best-page lookup. The PDF is given as the text of
    its pages, in order (a page without extractable text as ""), or as the
    message of the error that reading it raised. */
module CatalogSearch {
  import opened Common
  import opened Text

  const ExcerptLength: nat := 500
  const ContentLength: nat := 1500
  const NoMatchesMessage := "No matches found in the catalog."
  const NoContentAnswer := "No matching content found."

  // ---------------------------------------------------------------------
  // search_catalog
  // ---------------------------------------------------------------------

  /** A hit: the 1-based page number and the first 500 characters of its text. */
  datatype Hit = Hit(page: nat, excerpt: string)

  datatype SearchResult =
    | Hits(results: seq<Hit>)
    | NoMatches(message: string)
    | SearchFailed(message: string)

  /** Whether a page matches: the lowercased query occurs in the lowercased text. */
  predicate Matches(text: string, query: string) {
    Contains(Lower(text), Lower(query))
  }

  /** The hit a matching page contributes. */
  predicate IsHitFor(h: Hit, pages: seq<string>, query: string) {
    1 <= h.page <= |pages| && Matches(pages[h.page - 1], query)
    && h.excerpt == Take(pages[h.page - 1], ExcerptLength)
  }

  /** Among the first `n` pages: every hit is a matching page, in strictly
      increasing page order, and every matching page has a hit. */
  predicate HitsBelow(results: seq<Hit>, pages: seq<string>, query: string, n: nat)
    requires n <= |pages|
  {
    && (forall k :: 0 <= k < |results| ==> IsHitFor(results[k], pages, query) && results[k].page <= n)
    && (forall k, l :: 0 <= k < l < |results| ==> results[k].page < results[l].page)
    && (forall i :: 0 <= i < n && Matches(pages[i], query) ==>
          exists k :: 0 <= k < |results| && results[k].page == i + 1)
  }

  /** Every matching page, in page order, each once. */
  predicate AllHits(results: seq<Hit>, pages: seq<string>, query: string) {
    HitsBelow(results, pages, query, |pages|)
  }

  /** The hits among the first `n` pages, as the page loop builds them. */
  function HitsUpTo(pages: seq<string>, query: string, n: nat): seq<Hit>
    requires n <= |pages|
    decreases n
  {
    if n == 0 then []
    else HitsUpTo(pages, query, n - 1)
         + (if Matches(pages[n - 1], query) then [Hit(n, Take(pages[n - 1], ExcerptLength))] else [])
  }

  lemma {:induction false} HitsUpToSound(pages: seq<string>, query: string, n: nat)
    requires n <= |pages|
    ensures forall k :: 0 <= k < |HitsUpTo(pages, query, n)| ==>
              IsHitFor(HitsUpTo(pages, query, n)[k], pages, query) && HitsUpTo(pages, query, n)[k].page <= n
    decreases n
  {
    if n > 0 {
      var prev := HitsUpTo(pages, query, n - 1);
      var cur := HitsUpTo(pages, query, n);
      var last := Hit(n, Take(pages[n - 1], ExcerptLength));
      HitsUpToSound(pages, query, n - 1);
      assert cur == prev + (if Matches(pages[n - 1], query) then [last] else []);
      forall k | 0 <= k < |cur| ensures IsHitFor(cur[k], pages, query) && cur[k].page <= n {
        if k < |prev| {
          assert cur[k] == prev[k];
        } else {
          assert cur[k] == last;
        }
      }
    }
  }

  lemma {:induction false} HitsUpToOrdered(pages: seq<string>, query: string, n: nat)
    requires n <= |pages|
    ensures forall k, l :: 0 <= k < l < |HitsUpTo(pages, query, n)| ==>
              HitsUpTo(pages, query, n)[k].page < HitsUpTo(pages, query, n)[l].page
    decreases n
  {
    if n > 0 {
      var prev := HitsUpTo(pages, query, n - 1);
      var cur := HitsUpTo(pages, query, n);
      var last := Hit(n, Take(pages[n - 1], ExcerptLength));
      HitsUpToOrdered(pages, query, n - 1);
      HitsUpToSound(pages, query, n - 1);
      assert cur == prev + (if Matches(pages[n - 1], query) then [last] else []);
      forall k, l | 0 <= k < l < |cur| ensures cur[k].page < cur[l].page {
        assert cur[k] == prev[k];
        if l < |prev| {
          assert cur[l] == prev[l];
        } else {
          assert cur[l] == last;
        }
      }
    }
  }

  lemma HitsUpToComplete(pages: seq<string>, query: string, n: nat)
    requires n <= |pages|
    ensures forall i :: 0 <= i < n && Matches(pages[i], query) ==>
              exists k :: 0 <= k < |HitsUpTo(pages, query, n)| && HitsUpTo(pages, query, n)[k].page == i + 1
  {
    if n > 0 {
      forall j | 0 <= j < n && Matches(pages[j], query)
        ensures exists k :: 0 <= k < |HitsUpTo(pages, query, n)| && HitsUpTo(pages, query, n)[k].page == j + 1
      {
        HitPageListed(pages, query, n, j);
      }
    }
  }

  lemma {:induction false} HitPageListed(pages: seq<string>, query: string, n: nat, j: nat)
    requires j < n <= |pages| && Matches(pages[j], query)
    ensures exists k :: 0 <= k < |HitsUpTo(pages, query, n)| && HitsUpTo(pages, query, n)[k].page == j + 1
    decreases n
  {
    var prev := HitsUpTo(pages, query, n - 1);
    var cur := HitsUpTo(pages, query, n);
    var last := Hit(n, Take(pages[n - 1], ExcerptLength));
    assert cur == prev + (if Matches(pages[n - 1], query) then [last] else []);
    if j < n - 1 {
      HitPageListed(pages, query, n - 1, j);
      var k :| 0 <= k < |prev| && prev[k].page == j + 1;
      assert cur[k] == prev[k];
    } else {
      assert cur[|prev|] == last;
    }
  }

  /** The loop's hits are exactly the matching pages, in order. */
  lemma HitsUpToAreAllHits(pages: seq<string>, query: string)
    ensures AllHits(HitsUpTo(pages, query, |pages|), pages, query)
  {
    HitsUpToSound(pages, query, |pages|);
    HitsUpToOrdered(pages, query, |pages|);
    HitsUpToComplete(pages, query, |pages|);
  }

  /** The page loop of `search_catalog`. */
  method CollectHits(pages: seq<string>, query: string) returns (results: seq<Hit>)
    ensures results == HitsUpTo(pages, query, |pages|)
    ensures AllHits(results, pages, query)
  {
    results := [];
    var i := 0;
    while i < |pages|
      invariant 0 <= i <= |pages|
      invariant results == HitsUpTo(pages, query, i)
    {
      if Matches(pages[i], query) {
        results := results + [Hit(i + 1, Take(pages[i], ExcerptLength))];
      }
      i := i + 1;
    }
    HitsUpToAreAllHits(pages, query);
  }

  /** `search_catalog`: every matching page, in page order, or the fixed
      message when none matches. */
  method SearchCatalog(pdf: Result<seq<string>, string>, query: string) returns (r: SearchResult)
    ensures pdf.Err? ==> r == SearchFailed(pdf.error)
    ensures pdf.Ok? ==> !r.SearchFailed?
    ensures pdf.Ok? && r.Hits? ==> |r.results| > 0 && AllHits(r.results, pdf.value, query)
    ensures pdf.Ok? && r.NoMatches? ==>
              r.message == NoMatchesMessage && forall i :: 0 <= i < |pdf.value| ==> !Matches(pdf.value[i], query)
  {
    if pdf.Err? {
      return SearchFailed(pdf.error);
    }
    var results := CollectHits(pdf.value, query);
    if |results| == 0 {
      return NoMatches(NoMatchesMessage);
    }
    return Hits(results);
  }

  /** An empty query matches every page, since the empty string occurs in
      every text. */
  lemma EmptyQueryMatchesEveryPage(text: string)
    ensures Matches(text, "")
  {
  }

  // ---------------------------------------------------------------------
  // rag_bates
  // ---------------------------------------------------------------------

  /** The words of the lowercased query longer than two characters, counted
      at half weight; scores here are doubled so that they stay integers. */
  function WordHits(lowerText: string, words: seq<string>): nat
    decreases |words|
  {
    if |words| == 0 then 0
    else (if |words[0]| > 2 then Count(lowerText, words[0]) else 0) + WordHits(lowerText, words[1..])
  }

  /** Twice the page score: occurrences of the whole query count 1, those of
      each longer query word count 0.5. */
  function Score(text: string, query: string): nat {
    var t := Lower(text);
    var q := Lower(query);
    2 * Count(t, q) + WordHits(t, Words(q))
  }

  datatype RagResult =
    | BestPage(page: nat, content: string)
    | NoContent(answer: string)
    | RagFailed(message: string)

  /** `rag_bates`: the first page with the highest positive score, or the
      fixed answer when no page scores. */
  method RagBates(pdf: Result<seq<string>, string>, query: string) returns (r: RagResult)
    ensures pdf.Err? ==> r == RagFailed(pdf.error)
    ensures pdf.Ok? ==> !r.RagFailed?
    ensures pdf.Ok? && r.BestPage? ==>
              var pages := pdf.value;
              && 1 <= r.page <= |pages|
              && r.content == Take(pages[r.page - 1], ContentLength)
              && Score(pages[r.page - 1], query) > 0
              && (forall j :: 0 <= j < |pages| ==> Score(pages[j], query) <= Score(pages[r.page - 1], query))
              && (forall j :: 0 <= j < r.page - 1 ==> Score(pages[j], query) < Score(pages[r.page - 1], query))
    ensures pdf.Ok? && r.NoContent? ==>
              r.answer == NoContentAnswer && forall j :: 0 <= j < |pdf.value| ==> Score(pdf.value[j], query) == 0
  {
    if pdf.Err? {
      return RagFailed(pdf.error);
    }
    var pages := pdf.value;
    var best: Option<nat> := None;
    var bestScore: nat := 0;
    var i := 0;
    while i < |pages|
      invariant 0 <= i <= |pages|
      invariant best.None? ==> bestScore == 0
      invariant best.Some? ==> best.value < i && bestScore == Score(pages[best.value], query) && bestScore > 0
      invariant forall j :: 0 <= j < i ==> Score(pages[j], query) <= bestScore
      invariant best.Some? ==> forall j :: 0 <= j < best.value ==> Score(pages[j], query) < bestScore
    {
      var score := Score(pages[i], query);
      if score > bestScore {
        best := Some(i);
        bestScore := score;
      }
      i := i + 1;
    }
    if best.None? {
      return NoContent(NoContentAnswer);
    }
    return BestPage(best.value + 1, Take(pages[best.value], ContentLength));
  }

  /** Every page scores when the query is empty: the empty string occurs
      once more than the text has characters. */
  lemma EmptyQueryScoresEveryPage(text: string)
    ensures Score(text, "") == 2 * (|text| + 1)
  {
    assert Lower("") == "";
    assert Words("") == [];
  }

  /** A page scores exactly when it contains the whole query or one of its
      longer words. */
  lemma {:induction false} WordHitsPositive(t: string, words: seq<string>)
    ensures WordHits(t, words) > 0 <==> exists k :: 0 <= k < |words| && |words[k]| > 2 && Contains(t, words[k])
    decreases |words|
  {
    if |words| > 0 {
      WordHitsPositive(t, words[1..]);
      CountPositiveIffContains(t, words[0]);
      if exists k :: 0 <= k < |words[1..]| && |words[1..][k]| > 2 && Contains(t, words[1..][k]) {
        var k :| 0 <= k < |words[1..]| && |words[1..][k]| > 2 && Contains(t, words[1..][k]);
        assert words[k + 1] == words[1..][k];
      }
      if exists k :: 0 <= k < |words| && |words[k]| > 2 && Contains(t, words[k]) {
        var k :| 0 <= k < |words| && |words[k]| > 2 && Contains(t, words[k]);
        if k > 0 {
          assert words[1..][k - 1] == words[k];
        }
      }
    }
  }

  lemma ScorePositive(text: string, query: string)
    ensures Score(text, query) > 0 <==>
              || Contains(Lower(text), Lower(query))
              || exists k :: 0 <= k < |Words(Lower(query))| && |Words(Lower(query))[k]| > 2
                             && Contains(Lower(text), Words(Lower(query))[k])
  {
    CountPositiveIffContains(Lower(text), Lower(query));
    WordHitsPositive(Lower(text), Words(Lower(query)));
  }
}

=== FILE: common.dfy ===
/** Optional values and success-or-failure results, used wherever the Python
    code returns None or catches an exception and reports it. */
module Common {

  datatype Option<+T> = None | Some(value: T) {
    function GetOr(default: T): T {
      match this
      case Some(v) => v
      case None => default
    }
  }

  datatype Result<+T, +E> = Ok(value: T) | Err(error: E)
}

=== FILE: enhanced_search.dfy ===
/** The enhanced catalog search: it prefers the passages of the vector
    index and otherwise scores the PDF pages by the query, the bonus
    keywords of the search type and the structure markers, ranking the
    pages that score. The vector index's answer and the PDF's page texts
    are parameters. */
module EnhancedSearch {
  import opened Common
  import opened Text
  import Ranking
  import Obs = Observability
  import opened EnhancedTools

  const SnippetLength: nat := 500
  const TopCount: nat := 5
  const CatalogSearches := "enhanced_catalog_searches"
  const CatalogErrors := "enhanced_catalog_errors"

  /** The case-sensitive markers of structured catalog text. */
  const Markers: seq<string> := ["Program:", "Course:", "Policy:"]

  /** The bonus keywords of each search type; any other type has none. */
  function StrategyKeywords(searchType: string): (r: seq<string>)
    ensures searchType != "program" && searchType != "course" && searchType != "policy" ==> r == []
  {
    if searchType == "program" then ["program", "certificate", "degree", "major", "track"]
    else if searchType == "course" then ["course", "class", "credit", "prerequisite", "corequisite"]
    else if searchType == "policy" then ["policy", "procedure", "rule", "regulation", "requirement"]
    else []
  }

  /** Two points for each keyword present in the lowercased text. */
  function KeywordBonus(textLower: string, keywords: seq<string>): nat
    decreases |keywords|
  {
    if |keywords| == 0 then 0
    else (if Contains(textLower, keywords[0]) then 2 else 0) + KeywordBonus(textLower, keywords[1..])
  }

  /** The relevance of a page: three points per occurrence of the query,
      the keyword bonus, and one point for a structure marker. */
  function PageScore(text: string, query: string, keywords: seq<string>): nat {
    var t := Lower(text);
    3 * Count(t, Lower(query)) + KeywordBonus(t, keywords) + (if AnyContained(text, Markers) then 1 else 0)
  }

  lemma {:induction false} KeywordBonusPositive(textLower: string, keywords: seq<string>)
    ensures KeywordBonus(textLower, keywords) > 0 <==> AnyContained(textLower, keywords)
    decreases |keywords|
  {
    if |keywords| > 0 {
      KeywordBonusPositive(textLower, keywords[1..]);
      if AnyContained(textLower, keywords[1..]) {
        var k :| 0 <= k < |keywords[1..]| && Contains(textLower, keywords[1..][k]);
        assert keywords[k + 1] == keywords[1..][k];
      }
      if AnyContained(textLower, keywords) {
        var k :| 0 <= k < |keywords| && Contains(textLower, keywords[k]);
        if k > 0 {
          assert keywords[1..][k - 1] == keywords[k];
        }
      }
    }
  }

  /** A page is kept exactly when it contains the query, one of the
      keywords, or a structure marker. */
  lemma PageScorePositive(text: string, query: string, keywords: seq<string>)
    ensures PageScore(text, query, keywords) > 0 <==>
              || Contains(Lower(text), Lower(query))
              || AnyContained(Lower(text), keywords)
              || AnyContained(text, Markers)
  {
    CountPositiveIffContains(Lower(text), Lower(query));
    KeywordBonusPositive(Lower(text), keywords);
  }

  /** An unrecognised search type earns no keyword bonus. */
  lemma UnknownTypeHasNoBonus(text: string, query: string, searchType: string)
    requires searchType != "program" && searchType != "course" && searchType != "policy"
    ensures PageScore(text, query, StrategyKeywords(searchType))
         == 3 * Count(Lower(text), Lower(query)) + (if AnyContained(text, Markers) then 1 else 0)
  {
  }

  /** The position of the first occurrence of `x`, as `list.index` finds it. */
  function FirstIndex<T(==)>(xs: seq<T>, x: T): (r: nat)
    requires x in xs
    ensures r < |xs| && xs[r] == x
    ensures forall j :: 0 <= j < r ==> xs[j] != x
  {
    if xs[0] == x then 0 else 1 + FirstIndex(xs[1..], x)
  }

  /** The sentence at `idx` with its neighbours, rejoined. */
  function Context(sentences: seq<string>, idx: nat): string
    requires idx < |sentences|
  {
    var start := if idx >= 1 then idx - 1 else 0;
    var end := if idx + 2 <= |sentences| then idx + 2 else |sentences|;
    Join(sentences[start..end], ". ")
  }

  /** Whether a sentence mentions the lowercased query. */
  predicate Mentions(sentence: string, queryLower: string) {
    Contains(Lower(sentence), queryLower)
  }

  /** The context of every sentence from `i` on that mentions the query,
      taken around the first sentence equal to it. */
  function RelevantFrom(sentences: seq<string>, queryLower: string, i: nat): seq<string>
    requires i <= |sentences|
    decreases |sentences| - i
  {
    if i == |sentences| then []
    else
      var rest := RelevantFrom(sentences, queryLower, i + 1);
      if Mentions(sentences[i], queryLower) then
        [Context(sentences, FirstIndex(sentences, sentences[i]))] + rest
      else rest
  }

  /** Each relevant context surrounds the first copy of a sentence that
      mentions the query. */
  lemma {:induction false} RelevantIsContext(sentences: seq<string>, queryLower: string, i: nat, k: nat)
    requires i <= |sentences| && k < |RelevantFrom(sentences, queryLower, i)|
    ensures exists j :: i <= j < |sentences| && Mentions(sentences[j], queryLower)
                        && RelevantFrom(sentences, queryLower, i)[k]
                           == Context(sentences, FirstIndex(sentences, sentences[j]))
    decreases |sentences| - i
  {
    var rest := RelevantFrom(sentences, queryLower, i + 1);
    var r := RelevantFrom(sentences, queryLower, i);
    if Mentions(sentences[i], queryLower) && k == 0 {
      assert r[0] == Context(sentences, FirstIndex(sentences, sentences[i]));
    } else {
      var k' := if Mentions(sentences[i], queryLower) then k - 1 else k;
      assert r[k] == rest[k'];
      RelevantIsContext(sentences, queryLower, i + 1, k');
      var j :| i + 1 <= j < |sentences| && Mentions(sentences[j], queryLower)
               && rest[k'] == Context(sentences, FirstIndex(sentences, sentences[j]));
    }
  }

  lemma {:induction false} RelevantFromEmpty(sentences: seq<string>, queryLower: string, i: nat)
    requires i <= |sentences|
    ensures RelevantFrom(sentences, queryLower, i) == [] <==>
              forall j :: i <= j < |sentences| ==> !Mentions(sentences[j], queryLower)
    decreases |sentences| - i
  {
    if i < |sentences| {
      RelevantFromEmpty(sentences, queryLower, i + 1);
    }
  }

  /** The snippet of a kept page: the first two relevant contexts joined,
      or else the first 500 characters. */
  function Snippet(text: string, query: string): string {
    var relevant := RelevantFrom(Split(text, "."), Lower(query), 0);
    if |relevant| > 0 then Join(Take(relevant, 2), " [...] ") else Take(text, SnippetLength)
  }

  /** A page none of whose sentences mentions the query is shown by its
      opening characters, and otherwise by the contexts of mentions. */
  lemma SnippetFallsBackToPrefix(text: string, query: string)
    ensures var sentences := Split(text, ".");
            (Snippet(text, query) == Take(text, SnippetLength)
             || exists j :: 0 <= j < |sentences| && Mentions(sentences[j], Lower(query)))
    ensures var sentences := Split(text, ".");
            (forall j :: 0 <= j < |sentences| ==> !Mentions(sentences[j], Lower(query)))
            ==> Snippet(text, query) == Take(text, SnippetLength)
  {
    RelevantFromEmpty(Split(text, "."), Lower(query), 0);
  }

  datatype PageResult = PageResult(page: nat, score: nat, snippet: string)

  function ScoreKey(r: PageResult): int {
    r.score
  }

  /** A result row for a kept page. */
  predicate IsScoredPage(r: PageResult, pages: seq<string>, query: string, keywords: seq<string>) {
    && 1 <= r.page <= |pages|
    && r.score == PageScore(pages[r.page - 1], query, keywords)
    && r.score > 0
    && r.snippet == Snippet(pages[r.page - 1], query)
  }

  /** Every page's row, kept or not: page number, score and snippet. */
  function AllRows(pages: seq<string>, query: string, keywords: seq<string>): (rows: seq<PageResult>)
    ensures |rows| == |pages| && Numbered(rows)
    ensures forall i :: 0 <= i < |pages| ==>
              rows[i] == PageResult(i + 1, PageScore(pages[i], query, keywords), Snippet(pages[i], query))
  {
    seq(|pages|, i requires 0 <= i < |pages| =>
          PageResult(i + 1, PageScore(pages[i], query, keywords), Snippet(pages[i], query)))
  }

  /** Row `i` carries page number `i + 1`. */
  ghost predicate Numbered(rows: seq<PageResult>) {
    forall i :: 0 <= i < |rows| ==> rows[i].page == i + 1
  }

  /** The rows with a positive score among the first `n`, in page order. */
  function Kept(rows: seq<PageResult>, n: nat): seq<PageResult>
    requires n <= |rows|
    decreases n
  {
    if n == 0 then []
    else Kept(rows, n - 1) + (if rows[n - 1].score > 0 then [rows[n - 1]] else [])
  }

  lemma {:induction false} KeptSound(rows: seq<PageResult>, n: nat)
    requires n <= |rows| && Numbered(rows)
    ensures forall k :: 0 <= k < |Kept(rows, n)| ==>
              1 <= Kept(rows, n)[k].page <= n && Kept(rows, n)[k] == rows[Kept(rows, n)[k].page - 1]
              && Kept(rows, n)[k].score > 0
    decreases n
  {
    if n > 0 {
      var prev := Kept(rows, n - 1);
      var cur := Kept(rows, n);
      KeptSound(rows, n - 1);
      forall k | 0 <= k < |cur|
        ensures 1 <= cur[k].page <= n && cur[k] == rows[cur[k].page - 1] && cur[k].score > 0
      {
        if k < |prev| {
          assert cur[k] == prev[k];
        }
      }
    }
  }

  lemma {:induction false} KeptOrdered(rows: seq<PageResult>, n: nat)
    requires n <= |rows| && Numbered(rows)
    ensures forall k, l :: 0 <= k < l < |Kept(rows, n)| ==> Kept(rows, n)[k].page < Kept(rows, n)[l].page
    decreases n
  {
    if n > 0 {
      var prev := Kept(rows, n - 1);
      var cur := Kept(rows, n);
      KeptOrdered(rows, n - 1);
      KeptSound(rows, n - 1);
      forall k, l | 0 <= k < l < |cur| ensures cur[k].page < cur[l].page {
        assert cur[k] == prev[k];
        if l < |prev| {
          assert cur[l] == prev[l];
        }
      }
    }
  }

  lemma {:induction false} KeptListed(rows: seq<PageResult>, n: nat, j: nat)
    requires j < n <= |rows| && Numbered(rows) && rows[j].score > 0
    ensures rows[j] in Kept(rows, n)
    decreases n
  {
    var prev := Kept(rows, n - 1);
    var cur := Kept(rows, n);
    if j < n - 1 {
      KeptListed(rows, n - 1, j);
      var k :| 0 <= k < |prev| && prev[k] == rows[j];
      assert cur[k] == prev[k];
    } else {
      assert cur[|prev|] == rows[j];
    }
  }

  /** `kept` holds the rows with a positive score, each once, in page order. */
  ghost predicate KeptRows(kept: seq<PageResult>, rows: seq<PageResult>) {
    && (forall k :: 0 <= k < |kept| ==>
          1 <= kept[k].page <= |rows| && kept[k] == rows[kept[k].page - 1] && kept[k].score > 0)
    && (forall k, l :: 0 <= k < l < |kept| ==> kept[k].page < kept[l].page)
    && (forall j :: 0 <= j < |rows| && rows[j].score > 0 ==> rows[j] in kept)
  }

  lemma KeptIsKeptRows(rows: seq<PageResult>)
    requires Numbered(rows)
    ensures KeptRows(Kept(rows, |rows|), rows)
  {
    var n := |rows|;
    KeptSound(rows, n);
    KeptOrdered(rows, n);
    forall j | 0 <= j < n && rows[j].score > 0
      ensures rows[j] in Kept(rows, n)
    {
      KeptListed(rows, n, j);
    }
  }

  /** The page loop of the fallback search: the rows of the pages that
      score, in page order. */
  method KeepScoring(rows: seq<PageResult>) returns (kept: seq<PageResult>)
    requires Numbered(rows)
    ensures kept == Kept(rows, |rows|) && KeptRows(kept, rows)
  {
    kept := [];
    var i := 0;
    while i < |rows|
      invariant 0 <= i <= |rows|
      invariant kept == Kept(rows, i)
    {
      if rows[i].score > 0 {
        kept := kept + [rows[i]];
      }
      i := i + 1;
    }
    KeptIsKeptRows(rows);
  }

  /** A passage the vector index returned: the page recorded with it, when
      there is one, and its text. */
  datatype VectorHit = VectorHit(pageNumber: Option<int>, content: string)

  datatype VectorOutcome =
    | VectorFound(hits: seq<VectorHit>)
    | VectorFailed(message: string)

  datatype VectorEntry = VectorEntry(page: Option<int>, snippet: string)

  /** A passage shown whole when short, else cut to 500 characters and
      marked with an ellipsis. */
  function VectorSnippet(content: string): (r: string)
    ensures Take(content, SnippetLength) <= r
    ensures |r| <= SnippetLength + 3
    ensures |content| <= SnippetLength ==> r == content
    ensures |content| > SnippetLength ==> |r| == SnippetLength + 3 && r[SnippetLength..] == "..."
  {
    if |content| > SnippetLength then content[..SnippetLength] + "..." else content
  }

  /** The five best rows, highest score first and equal scores in their
      original order; no row left out scores above a row shown. */
  function TopRanked(kept: seq<PageResult>): (top: seq<PageResult>)
    ensures |top| == if |kept| <= TopCount then |kept| else TopCount
    ensures Ranking.SortedDesc(top, ScoreKey)
    ensures multiset(top) <= multiset(kept)
    ensures forall x, y :: x in multiset(kept) - multiset(top) && y in top ==> x.score <= y.score
    ensures forall s :: Ranking.WithKey(top, ScoreKey, s) <= Ranking.WithKey(kept, ScoreKey, s)
  {
    var ranked := Ranking.SortDesc(kept, ScoreKey);
    var top := Take(ranked, TopCount);
    assert top == ranked[..|top|];
    Ranking.PrefixOfSortedKeepsTop(ranked, ScoreKey, |top|);
    forall s ensures Ranking.WithKey(top, ScoreKey, s) <= Ranking.WithKey(kept, ScoreKey, s) {
      Ranking.WithKeyOfPrefix(ranked, ScoreKey, s, |top|);
    }
    top
  }

  /** A kept row is the row of its own page, and that page scores. */
  lemma KeptMember(rows: seq<PageResult>, r: PageResult)
    requires Numbered(rows) && r in Kept(rows, |rows|)
    ensures 1 <= r.page <= |rows| && r == rows[r.page - 1] && r.score > 0
  {
    KeptIsKeptRows(rows);
  }

  /** A kept row is a page that scores, with its score and snippet. */
  lemma KeptRowIsScoredPage(pages: seq<string>, query: string, keywords: seq<string>, r: PageResult)
    requires r in Kept(AllRows(pages, query, keywords), |pages|)
    ensures IsScoredPage(r, pages, query, keywords)
  {
    KeptMember(AllRows(pages, query, keywords), r);
  }

  /** Every page that scores is kept under its own page number. */
  lemma ScoringPageIsKept(pages: seq<string>, query: string, keywords: seq<string>, j: nat)
    requires j < |pages| && PageScore(pages[j], query, keywords) > 0
    ensures PageResult(j + 1, PageScore(pages[j], query, keywords), Snippet(pages[j], query))
            in Kept(AllRows(pages, query, keywords), |pages|)
  {
    var rows := AllRows(pages, query, keywords);
    KeptIsKeptRows(rows);
    assert rows[j].score > 0;
  }

  /** Every row shown is a page that scores. */
  lemma ShownRowsAreScoredPages(pages: seq<string>, query: string, keywords: seq<string>)
    ensures var top := TopRanked(Kept(AllRows(pages, query, keywords), |pages|));
            forall k :: 0 <= k < |top| ==> IsScoredPage(top[k], pages, query, keywords)
  {
    var kept := Kept(AllRows(pages, query, keywords), |pages|);
    var top := TopRanked(kept);
    forall k | 0 <= k < |top| ensures IsScoredPage(top[k], pages, query, keywords) {
      assert top[k] in multiset(kept);
      KeptRowIsScoredPage(pages, query, keywords, top[k]);
    }
  }

  datatype CatalogReply =
    | VectorResults(query: string, searchType: string, entries: seq<VectorEntry>)
    | ScoredResults(query: string, searchType: string, total: nat, top: seq<PageResult>)
    | CatalogFailed(message: string)

  /** `enhanced_catalog_search`. When the vector index is asked for, present
      and returns passages, they are shown and nothing is counted. Otherwise
      the PDF pages are scored: the kept pages are ranked by score, highest
      first and ties in page order, and the top five are returned with the
      number of kept pages. A PDF that cannot be read is an error. */
  method EnhancedCatalogSearch(m: Obs.Metrics, query: string, searchType: string, useVector: bool,
                               vector: Option<VectorOutcome>, pdf: Result<seq<string>, string>)
    returns (r: Counted<CatalogReply>)
    ensures var vectorHits := useVector && vector.Some? && vector.value.VectorFound? && |vector.value.hits| > 0;
            && (vectorHits <==> r.reply.VectorResults?)
            && (vectorHits ==>
                  && r.reply.searchType == searchType + "_vector"
                  && |r.reply.entries| == |vector.value.hits|
                  && (forall k :: 0 <= k < |r.reply.entries| ==>
                        r.reply.entries[k] == VectorEntry(vector.value.hits[k].pageNumber,
                                                          VectorSnippet(vector.value.hits[k].content)))
                  && r.metrics == m)
            && (!vectorHits && pdf.Err? ==>
                  r.reply == CatalogFailed(pdf.error) && CountedOnce(m, r.metrics, CatalogErrors))
    ensures r.reply.ScoredResults? ==>
              && pdf.Ok?
              && var rows := AllRows(pdf.value, query, StrategyKeywords(searchType));
              var kept := Kept(rows, |rows|);
              && KeptRows(kept, rows)
              && r.reply.query == query && r.reply.searchType == searchType
              && r.reply.total == |kept|
              && r.reply.top == TopRanked(kept)
              && CountedOnce(m, r.metrics, CatalogSearches)
    ensures !r.reply.VectorResults? && pdf.Ok? ==> r.reply.ScoredResults?
  {
    if useVector && vector.Some? && vector.value.VectorFound? && |vector.value.hits| > 0 {
      var hits := vector.value.hits;
      var entries := seq(|hits|, k requires 0 <= k < |hits| => VectorEntry(hits[k].pageNumber, VectorSnippet(hits[k].content)));
      return Counted(VectorResults(query, searchType + "_vector", entries), m);
    }
    if pdf.Err? {
      return Counted(CatalogFailed(pdf.error), Obs.IncrementCounter(m, CatalogErrors, 1));
    }
    var pages := pdf.value;
    var keywords := StrategyKeywords(searchType);
    var rows := AllRows(pages, query, keywords);
    var kept := KeepScoring(rows);
    var top := TopRanked(kept);
    r := Counted(ScoredResults(query, searchType, |kept|, top), Obs.IncrementCounter(m, CatalogSearches, 1));
  }
}

=== FILE: enhanced_tools.dfy ===
/** The enhanced advisor tools: website-query categorisation, program cost
    estimates, pathway recommendations, schedule lookup, and the catalog
    search that prefers the vector index and falls back to scoring the PDF
    pages. Each tool counts its calls in the shared metrics; the canned
    guidance prose, URLs and phone numbers each reply carries are constants
    and are not modelled. Whether the search engine integration and the
    vector index are available is a parameter. */
module EnhancedTools {
  import opened Common
  import opened Text
  import Ranking
  import Obs = Observability

  /** A tool's reply together with the metrics after the call. */
  datatype Counted<R> = Counted(reply: R, metrics: Obs.Metrics)

  /** The metrics after counting one call under `name`: that counter goes up
      by one and no other changes. */
  ghost predicate CountedOnce(before: Obs.Metrics, after: Obs.Metrics, name: string) {
    && Obs.Counter(after, name) == Obs.Counter(before, name) + 1
    && forall n :: n != name ==> Obs.Counter(after, n) == Obs.Counter(before, n)
  }

  // ---------------------------------------------------------------------
  // search_bates_website
  // ---------------------------------------------------------------------

  datatype Category = CostsTuition | Programs | AdmissionsInfo | GeneralInfo

  function CategoryName(c: Category): string {
    match c
    case CostsTuition => "costs_tuition"
    case Programs => "programs"
    case AdmissionsInfo => "admissions"
    case GeneralInfo => "general"
  }

  const CostTerms: seq<string> := ["cost", "tuition", "fee", "price", "money"]
  const ProgramTerms: seq<string> := ["program", "degree", "certificate", "major"]
  const AdmissionTerms: seq<string> := ["admission", "apply", "enroll", "registration"]
  const ExternalSearches := "external_searches"

  /** The first term list, in the order costs, programs, admissions, with a
      term inside the lowercased query decides the category. */
  function Categorize(query: string): (r: Category)
    ensures var q := Lower(query);
            && (r == CostsTuition <==> AnyContained(q, CostTerms))
            && (r == Programs <==> !AnyContained(q, CostTerms) && AnyContained(q, ProgramTerms))
            && (r == AdmissionsInfo <==>
                  !AnyContained(q, CostTerms) && !AnyContained(q, ProgramTerms)
                  && AnyContained(q, AdmissionTerms))
  {
    var q := Lower(query);
    if AnyContained(q, CostTerms) then CostsTuition
    else if AnyContained(q, ProgramTerms) then Programs
    else if AnyContained(q, AdmissionTerms) then AdmissionsInfo
    else GeneralInfo
  }

  /** The three search phrasings suggested when the search engine is
      available; each quotes the query. */
  function SuggestedSearches(query: string): (r: seq<string>)
    ensures |r| == 3
    ensures forall i :: 0 <= i < |r| ==> Contains(r[i], query)
  {
    var a := "'" + query + " site:batestech.edu'";
    var b := "'Bates Technical College " + query + " 2024 2025'";
    var c := "'" + query + " Bates Technical College current information'";
    ContainsAfterPrefix("'", query, " site:batestech.edu'");
    ContainsAfterPrefix("'Bates Technical College ", query, " 2024 2025'");
    ContainsAfterPrefix("'", query, " Bates Technical College current information'");
    [a, b, c]
  }

  datatype WebsiteReply = WebsiteReply(query: string, category: Category, suggestions: Option<seq<string>>)

  /** `search_bates_website`: a categorised reply, with the suggested
      searches attached exactly when the search engine is available. */
  function SearchBatesWebsite(m: Obs.Metrics, query: string, searchAvailable: bool): (r: Counted<WebsiteReply>)
    ensures r.reply.query == query
    ensures r.reply.category == Categorize(query)
    ensures r.reply.suggestions.Some? <==> searchAvailable
    ensures r.reply.suggestions.Some? ==>
              |r.reply.suggestions.value| == 3
              && forall i :: 0 <= i < 3 ==> Contains(r.reply.suggestions.value[i], query)
    ensures CountedOnce(m, r.metrics, ExternalSearches)
  {
    var suggestions := if searchAvailable then Some(SuggestedSearches(query)) else None;
    Counted(WebsiteReply(query, Categorize(query), suggestions), Obs.IncrementCounter(m, ExternalSearches, 1))
  }

  /** The category depends on the query only up to letter case. */
  lemma CategorizeIgnoresCase(query: string)
    ensures Categorize(Lower(query)) == Categorize(query)
  {
    LowerIdempotent(query);
  }

  /** Cost terms are consulted first: a question about a program's tuition
      is a cost question. */
  lemma TuitionOutranksProgram()
    ensures Categorize("nursing program tuition") == CostsTuition
  {
    assert Lower("nursing program tuition") == "nursing program tuition";
    ContainsAfterPrefix("nursing program ", "tuition", "");
    assert "nursing program " + "tuition" + "" == "nursing program tuition";
    assert CostTerms[1] == "tuition";
  }

  // ---------------------------------------------------------------------
  // _get_program_cost_estimates and get_current_program_costs
  // ---------------------------------------------------------------------

  /** The keys of the estimate table, in table order. */
  const CostKeys: seq<string> := ["nursing", "dental", "culinary"]
  const CostSearches := "cost_searches"

  datatype CostEstimate =
    | SpecificEstimate(key: string)
    | GeneralEstimate(programName: string)

  /** A table key matches when it, or one of its words, occurs in the
      lowercased program name. */
  predicate KeyMatches(programLower: string, key: string) {
    Contains(programLower, key) || AnyContained(programLower, Words(key))
  }

  /** Every table key is a single word, so matching it is plain containment. */
  lemma KeyMatchesIsContains(programLower: string, k: nat)
    requires k < |CostKeys|
    ensures KeyMatches(programLower, CostKeys[k]) <==> Contains(programLower, CostKeys[k])
  {
    var key := CostKeys[k];
    assert forall i :: 0 <= i < |key| ==> 'a' <= key[i] <= 'z';
    WordsOfWord(key);
  }

  /** The index of the first table key matching the lowercased program name. */
  function FirstCostKey(programLower: string, k: nat): (r: Option<nat>)
    requires k <= |CostKeys|
    ensures r.Some? ==> k <= r.value < |CostKeys| && KeyMatches(programLower, CostKeys[r.value])
    ensures r.Some? ==> forall j :: k <= j < r.value ==> !KeyMatches(programLower, CostKeys[j])
    ensures r.None? ==> forall j :: k <= j < |CostKeys| ==> !KeyMatches(programLower, CostKeys[j])
    decreases |CostKeys| - k
  {
    if k == |CostKeys| then None
    else if KeyMatches(programLower, CostKeys[k]) then Some(k)
    else FirstCostKey(programLower, k + 1)
  }

  /** `_get_program_cost_estimates`: the first of nursing, dental and
      culinary contained in the lowercased program name, else the general
      estimate for the program. */
  function ProgramCostEstimates(programName: string): (r: CostEstimate)
    ensures var p := Lower(programName);
            && (r.SpecificEstimate? <==> exists k :: 0 <= k < |CostKeys| && Contains(p, CostKeys[k]))
            && (r.SpecificEstimate? ==>
                  exists k :: 0 <= k < |CostKeys| && r.key == CostKeys[k] && Contains(p, CostKeys[k])
                              && forall j :: 0 <= j < k ==> !Contains(p, CostKeys[j]))
            && (r.GeneralEstimate? ==> r.programName == programName)
  {
    var p := Lower(programName);
    KeyMatchesIsContains(p, 0);
    KeyMatchesIsContains(p, 1);
    KeyMatchesIsContains(p, 2);
    match FirstCostKey(p, 0)
    case Some(k) => SpecificEstimate(CostKeys[k])
    case None => GeneralEstimate(programName)
  }

  /** Nursing comes first in the table, so a program naming both nursing
      and culinary arts gets the nursing estimate. */
  lemma NursingOutranksCulinary(programName: string)
    requires Contains(Lower(programName), "nursing")
    ensures ProgramCostEstimates(programName) == SpecificEstimate("nursing")
  {
    assert CostKeys[0] == "nursing";
  }

  datatype CostStatus = CostSuccess | ManualGuidance

  datatype CostInfo = CostInfo(
    program: string,
    status: CostStatus,
    suggestions: seq<string>,
    estimate: Option<CostEstimate>)

  /** `get_current_program_costs`: with the search engine available, the
      suggested searches and the table estimate; without it, manual
      guidance only. */
  function GetCurrentProgramCosts(m: Obs.Metrics, programName: string, searchAvailable: bool): (r: Counted<CostInfo>)
    ensures r.reply.program == programName
    ensures r.reply.status == (if searchAvailable then CostSuccess else ManualGuidance)
    ensures r.reply.estimate.Some? <==> searchAvailable
    ensures r.reply.estimate.Some? ==> r.reply.estimate.value == ProgramCostEstimates(programName)
    ensures |r.reply.suggestions| == (if searchAvailable then 3 else 0)
    ensures searchAvailable ==>
              Contains(r.reply.suggestions[0], programName) && Contains(r.reply.suggestions[1], programName)
    ensures CountedOnce(m, r.metrics, CostSearches)
  {
    var info :=
      if searchAvailable then
        ContainsAfterPrefix("'", programName, " tuition Bates Technical College 2024 2025'");
        ContainsAfterPrefix("'Bates Technical College ", programName, " program cost fees'");
        CostInfo(programName, CostSuccess,
                 ["'" + programName + " tuition Bates Technical College 2024 2025'",
                  "'Bates Technical College " + programName + " program cost fees'",
                  "'Bates Technical College current tuition rates'"],
                 Some(ProgramCostEstimates(programName)))
      else CostInfo(programName, ManualGuidance, [], None);
    Counted(info, Obs.IncrementCounter(m, CostSearches, 1))
  }

  // ---------------------------------------------------------------------
  // analyze_student_pathway
  // ---------------------------------------------------------------------

  /** The interest categories with their programs, in table order. */
  const ProgramMappings: seq<(string, seq<string>)> := [
    ("healthcare", ["Medical Assistant", "Nursing", "Dental Hygiene", "Pharmacy Technician"]),
    ("technology", ["Computer Support", "Cybersecurity", "Network Administration", "Web Development"]),
    ("business", ["Business Administration", "Accounting", "Customer Service", "Office Administration"]),
    ("trades", ["HVAC", "Electrical", "Welding", "Automotive Technology", "Construction"]),
    ("design", ["Graphic Design", "Interior Design", "Digital Media", "CAD Technology"])
  ]
  const MaxRecommendations: nat := 5
  const PathwayAnalyses := "pathway_analyses"

  function LowerAll(xs: seq<string>): (r: seq<string>)
    ensures |r| == |xs| && forall i :: 0 <= i < |xs| ==> r[i] == Lower(xs[i])
  {
    seq(|xs|, i requires 0 <= i < |xs| => Lower(xs[i]))
  }

  /** An interest selects a category when the category's name or one of its
      lowercased program names occurs in the lowercased interest. */
  predicate CategoryMatches(interestLower: string, category: (string, seq<string>)) {
    AnyContained(interestLower, [category.0] + LowerAll(category.1))
  }

  /** The programs of the categories that the interest selects, in table order. */
  function MatchedPrograms(interestLower: string, categories: seq<(string, seq<string>)>): seq<string>
    decreases |categories|
  {
    if |categories| == 0 then []
    else (if CategoryMatches(interestLower, categories[0]) then categories[0].1 else [])
         + MatchedPrograms(interestLower, categories[1..])
  }

  /** The recommendation list before duplicates are removed. */
  function Candidates(interests: seq<string>): seq<string>
    decreases |interests|
  {
    if |interests| == 0 then []
    else MatchedPrograms(Lower(interests[0]), ProgramMappings) + Candidates(interests[1..])
  }

  /** Program `p` comes from a category that some interest selects. */
  ghost predicate Recommendable(interests: seq<string>, p: string) {
    exists i, c :: 0 <= i < |interests| && 0 <= c < |ProgramMappings|
                   && CategoryMatches(Lower(interests[i]), ProgramMappings[c]) && p in ProgramMappings[c].1
  }

  lemma {:induction false} MatchedProgramsMembership(interestLower: string, categories: seq<(string, seq<string>)>, p: string)
    ensures p in MatchedPrograms(interestLower, categories) <==>
              exists c :: 0 <= c < |categories| && CategoryMatches(interestLower, categories[c]) && p in categories[c].1
    decreases |categories|
  {
    if |categories| > 0 {
      var rest := categories[1..];
      MatchedProgramsMembership(interestLower, rest, p);
      if exists c :: 0 <= c < |rest| && CategoryMatches(interestLower, rest[c]) && p in rest[c].1 {
        var c :| 0 <= c < |rest| && CategoryMatches(interestLower, rest[c]) && p in rest[c].1;
        assert categories[c + 1] == rest[c];
      }
      if exists c :: 0 <= c < |categories| && CategoryMatches(interestLower, categories[c]) && p in categories[c].1 {
        var c :| 0 <= c < |categories| && CategoryMatches(interestLower, categories[c]) && p in categories[c].1;
        if c > 0 {
          assert rest[c - 1] == categories[c];
        }
      }
    }
  }

  /** The candidates are exactly the programs of the selected categories. */
  lemma {:induction false} CandidatesMembership(interests: seq<string>, p: string)
    ensures p in Candidates(interests) <==> Recommendable(interests, p)
    decreases |interests|
  {
    if |interests| > 0 {
      CandidatesMembership(interests[1..], p);
      MatchedProgramsMembership(Lower(interests[0]), ProgramMappings, p);
      if Recommendable(interests[1..], p) {
        var i, c :| 0 <= i < |interests[1..]| && 0 <= c < |ProgramMappings|
                    && CategoryMatches(Lower(interests[1..][i]), ProgramMappings[c]) && p in ProgramMappings[c].1;
        assert interests[1..][i] == interests[i + 1];
      }
      if Recommendable(interests, p) {
        var i, c :| 0 <= i < |interests| && 0 <= c < |ProgramMappings|
                    && CategoryMatches(Lower(interests[i]), ProgramMappings[c]) && p in ProgramMappings[c].1;
        if i > 0 {
          assert interests[1..][i - 1] == interests[i];
        }
      }
    }
  }

  /** Python's `list(s)[:n]` for a set `s`: at most `n` distinct members,
      in an order the language leaves open. */
  method TakeFromSet<T>(s: set<T>, n: nat) returns (r: seq<T>)
    ensures forall i, j :: 0 <= i < j < |r| ==> r[i] != r[j]
    ensures forall i :: 0 <= i < |r| ==> r[i] in s
    ensures |r| == if |s| <= n then |s| else n
    ensures |r| < n ==> forall x :: x in s ==> x in r
  {
    var rest := s;
    r := [];
    while |r| < n && rest != {}
      invariant rest <= s
      invariant |r| <= n && |r| + |rest| == |s|
      invariant forall i :: 0 <= i < |r| ==> r[i] in s && r[i] !in rest
      invariant forall i, j :: 0 <= i < j < |r| ==> r[i] != r[j]
      invariant forall x :: x in s ==> x in rest || x in r
      decreases |rest|
    {
      var x :| x in rest;
      r := r + [x];
      rest := rest - {x};
    }
  }

  /** `analyze_student_pathway`: up to five distinct programs from the
      categories the interests select, and all of them when there are at
      most five. The source takes them from a Python set, whose order is
      unspecified, so only the set is fixed here. */
  method AnalyzeStudentPathway(m: Obs.Metrics, interests: seq<string>) returns (r: Counted<seq<string>>)
    ensures forall i, j :: 0 <= i < j < |r.reply| ==> r.reply[i] != r.reply[j]
    ensures forall i :: 0 <= i < |r.reply| ==> Recommendable(interests, r.reply[i])
    ensures var pool := set p | p in Candidates(interests);
            |r.reply| == (if |pool| <= MaxRecommendations then |pool| else MaxRecommendations)
    ensures |r.reply| < MaxRecommendations ==> forall p :: Recommendable(interests, p) ==> p in r.reply
    ensures CountedOnce(m, r.metrics, PathwayAnalyses)
  {
    var pool := set p | p in Candidates(interests);
    var recs := TakeFromSet(pool, MaxRecommendations);
    forall i | 0 <= i < |recs| ensures Recommendable(interests, recs[i]) {
      CandidatesMembership(interests, recs[i]);
    }
    forall p | Recommendable(interests, p) && |recs| < MaxRecommendations ensures p in recs {
      CandidatesMembership(interests, p);
    }
    r := Counted(recs, Obs.IncrementCounter(m, PathwayAnalyses, 1));
  }

  /** With no interests nothing is recommended. */
  lemma NoInterestsNoCandidates()
    ensures Candidates([]) == []
  {
  }

  /** An interest naming a category recommends that category's programs. */
  lemma CategoryNameSelects(c: nat)
    requires c < |ProgramMappings|
    ensures forall p :: p in ProgramMappings[c].1 ==> Recommendable([ProgramMappings[c].0], p)
  {
    var name := ProgramMappings[c].0;
    assert forall i :: 0 <= i < |name| ==> 'a' <= name[i] <= 'z';
    assert Lower(name) == name;
    assert name <= name;
    assert ([name] + LowerAll(ProgramMappings[c].1))[0] == name;
    assert CategoryMatches(Lower([name][0]), ProgramMappings[c]);
  }

  // ---------------------------------------------------------------------
  // provide_schedule_assistance
  // ---------------------------------------------------------------------

  const ScheduleRequests := "schedule_requests"
  const ScheduleErrors := "schedule_assistance_errors"
  /** What indexing the empty word list of a blank program name raises. */
  const IndexOutOfRange := "list index out of range"

  /** The sample schedule table: nursing and business, three quarters each. */
  function SampleSchedule(programKey: string, semester: string): (r: seq<string>)
    ensures (programKey == "nursing" || programKey == "business")
            && (semester == "fall" || semester == "winter" || semester == "spring")
            <==> |r| == 4
    ensures |r| != 4 ==> r == []
  {
    if programKey == "nursing" then
      if semester == "fall" then ["NUR 101", "BIOL 201", "PSYC 101", "ENG 101"]
      else if semester == "winter" then ["NUR 102", "BIOL 202", "MATH 101", "COMM 101"]
      else if semester == "spring" then ["NUR 201", "CHEM 101", "SOC 101", "HLTH 101"]
      else []
    else if programKey == "business" then
      if semester == "fall" then ["BUS 101", "ACCT 101", "ENG 101", "MATH 101"]
      else if semester == "winter" then ["BUS 201", "ACCT 102", "COMM 101", "ECON 101"]
      else if semester == "spring" then ["BUS 301", "MKT 101", "MGT 101", "BUS 401"]
      else []
    else []
  }

  datatype ScheduleReply =
    | Schedule(program: string, semester: string, courses: seq<string>)
    | ScheduleFailed(message: string)

  /** `provide_schedule_assistance`: the courses listed under the first word
      of the lowercased program and the lowercased semester; a blank
      program has no first word and fails. */
  function ProvideScheduleAssistance(m: Obs.Metrics, program: string, semester: string): (r: Counted<ScheduleReply>)
    ensures r.reply.ScheduleFailed? <==> AllSpace(program)
    ensures r.reply.ScheduleFailed? ==>
              r.reply.message == IndexOutOfRange && CountedOnce(m, r.metrics, ScheduleErrors)
    ensures r.reply.Schedule? ==>
              && |Words(Lower(program))| > 0
              && r.reply.program == program && r.reply.semester == semester
              && r.reply.courses == SampleSchedule(Words(Lower(program))[0], Lower(semester))
              && CountedOnce(m, r.metrics, ScheduleRequests)
  {
    var words := Words(Lower(program));
    WordsEmptyIffBlank(Lower(program));
    LowerKeepsSpace(program);
    if |words| == 0 then Counted(ScheduleFailed(IndexOutOfRange), Obs.IncrementCounter(m, ScheduleErrors, 1))
    else Counted(Schedule(program, semester, SampleSchedule(words[0], Lower(semester))),
                 Obs.IncrementCounter(m, ScheduleRequests, 1))
  }

  /** Letter case in the program and the semester does not matter. */
  lemma ScheduleIgnoresCase(m: Obs.Metrics, program: string, semester: string)
    ensures ProvideScheduleAssistance(m, Lower(program), Lower(semester)).reply
         == (match ProvideScheduleAssistance(m, program, semester).reply
             case Schedule(_, _, courses) => Schedule(Lower(program), Lower(semester), courses)
             case ScheduleFailed(msg) => ScheduleFailed(msg))
  {
    LowerIdempotent(program);
    LowerIdempotent(semester);
    LowerKeepsSpace(program);
  }

  /** A one-word program name is its own key. */
  lemma ScheduleForNursing(m: Obs.Metrics)
    ensures ProvideScheduleAssistance(m, "Nursing", "Fall").reply.courses
         == ["NUR 101", "BIOL 201", "PSYC 101", "ENG 101"]
  {
    assert Lower("Nursing") == "nursing";
    assert Lower("Fall") == "fall";
    var key := "nursing";
    assert forall i :: 0 <= i < |key| ==> 'a' <= key[i] <= 'z';
    WordsOfWord(key);
  }
}

=== FILE: memory.dfy ===
/** Student profiles and the memory bank: bounded, newest-last histories,
    the get-or-create "touch", the every-tenth-interaction snapshot, the
    context summary handed to specialists, and the snapshot round trip. */
module Memory {
  import opened Common
  import opened Text
  import Obs = Observability

  const QuestionCap: nat := 50
  const RecommendationCap: nat := 20
  const HistoryCap: nat := 100
  const RecentWindow: nat := 10
  const SummaryWindow: nat := 3
  const SaveEvery: nat := 10

  const InteractionsStored := "interactions_stored"
  const NewStudentProfiles := "new_student_profiles"
  const NewStudentSummary := "New student interaction"

  // ---------------------------------------------------------------------
  // StudentProfile
  // ---------------------------------------------------------------------

  datatype Question = Question(question: string, category: string, timestamp: int)

  datatype Recommendation = Recommendation(recommendation: string, context: string, timestamp: int)

  datatype StudentProfile = StudentProfile(
    studentId: string,
    createdAt: int,
    lastActive: int,
    interests: seq<string>,
    programsViewed: seq<string>,
    questions: seq<Question>,
    recommendations: seq<Recommendation>,
    interactionCount: int,
    preferences: map<string, string>)

  predicate NoDuplicates<T(==)>(s: seq<T>) {
    forall i, j :: 0 <= i < j < |s| ==> s[i] != s[j]
  }

  function NewProfile(studentId: string, now: int): (p: StudentProfile)
    ensures p.studentId == studentId && p.createdAt == now && p.lastActive == now
    ensures p.interests == [] && p.programsViewed == [] && p.questions == [] && p.recommendations == []
    ensures p.interactionCount == 0 && p.preferences == map[]
  {
    StudentProfile(studentId, now, now, [], [], [], [], 0, map[])
  }

  /** `update_activity`: the touch that every profile lookup performs. */
  function UpdateActivity(p: StudentProfile, now: int): (r: StudentProfile)
    ensures r.lastActive == now && r.interactionCount == p.interactionCount + 1
    ensures r.(lastActive := p.lastActive, interactionCount := p.interactionCount) == p
  {
    p.(lastActive := now, interactionCount := p.interactionCount + 1)
  }

  /** Appends an item unless it is already listed. */
  function AddDistinct(s: seq<string>, x: string): (r: seq<string>)
    ensures x in r
    ensures x in s ==> r == s
    ensures x !in s ==> r == s + [x]
    ensures s <= r
    ensures NoDuplicates(s) ==> NoDuplicates(r)
    ensures forall y :: y in r <==> y in s || y == x
  {
    if x in s then s else s + [x]
  }

  function AddInterest(p: StudentProfile, interest: string): (r: StudentProfile)
    ensures interest in r.interests
    ensures interest in p.interests ==> r == p
    ensures NoDuplicates(p.interests) ==> NoDuplicates(r.interests)
    ensures forall y :: y in r.interests <==> y in p.interests || y == interest
    ensures p.interests <= r.interests
    ensures r.(interests := p.interests) == p
  {
    p.(interests := AddDistinct(p.interests, interest))
  }

  function AddProgramView(p: StudentProfile, program: string): (r: StudentProfile)
    ensures program in r.programsViewed
    ensures program in p.programsViewed ==> r == p
    ensures NoDuplicates(p.programsViewed) ==> NoDuplicates(r.programsViewed)
    ensures forall y :: y in r.programsViewed <==> y in p.programsViewed || y == program
    ensures p.programsViewed <= r.programsViewed
    ensures r.(programsViewed := p.programsViewed) == p
  {
    p.(programsViewed := AddDistinct(p.programsViewed, program))
  }

  function AddQuestion(p: StudentProfile, question: string, category: string, now: int): (r: StudentProfile)
    ensures |r.questions| <= QuestionCap
    ensures |r.questions| == if |p.questions| < QuestionCap then |p.questions| + 1 else QuestionCap
    ensures r.questions[|r.questions| - 1] == Question(question, category, now)
    ensures r.questions == (p.questions + [Question(question, category, now)])[|p.questions| + 1 - |r.questions|..]
    ensures r.(questions := p.questions) == p
  {
    p.(questions := Last(p.questions + [Question(question, category, now)], QuestionCap))
  }

  function AddRecommendation(p: StudentProfile, recommendation: string, context: string, now: int): (r: StudentProfile)
    ensures |r.recommendations| <= RecommendationCap
    ensures |r.recommendations| == if |p.recommendations| < RecommendationCap then |p.recommendations| + 1 else RecommendationCap
    ensures r.recommendations[|r.recommendations| - 1] == Recommendation(recommendation, context, now)
    ensures r.recommendations
         == (p.recommendations + [Recommendation(recommendation, context, now)])[|p.recommendations| + 1 - |r.recommendations|..]
    ensures r.(recommendations := p.recommendations) == p
  {
    p.(recommendations := Last(p.recommendations + [Recommendation(recommendation, context, now)], RecommendationCap))
  }

  /** Records several questions in turn. */
  function AddQuestions(p: StudentProfile, qs: seq<Question>): StudentProfile
    decreases |qs|
  {
    if |qs| == 0 then p
    else AddQuestions(AddQuestion(p, qs[0].question, qs[0].category, qs[0].timestamp), qs[1..])
  }

  function AddRecommendations(p: StudentProfile, rs: seq<Recommendation>): StudentProfile
    decreases |rs|
  {
    if |rs| == 0 then p
    else AddRecommendations(AddRecommendation(p, rs[0].recommendation, rs[0].context, rs[0].timestamp), rs[1..])
  }

  lemma {:induction false} AddQuestionsAppendEach(p: StudentProfile, qs: seq<Question>)
    ensures AddQuestions(p, qs).questions == AppendEach(p.questions, qs, QuestionCap)
    decreases |qs|
  {
    if |qs| > 0 {
      var q := qs[0];
      var p1 := AddQuestion(p, q.question, q.category, q.timestamp);
      assert p1.questions == Last(p.questions + [q], QuestionCap) by {
        assert Question(q.question, q.category, q.timestamp) == q;
      }
      AddQuestionsAppendEach(p1, qs[1..]);
    }
  }

  lemma {:induction false} AddRecommendationsAppendEach(p: StudentProfile, rs: seq<Recommendation>)
    ensures AddRecommendations(p, rs).recommendations == AppendEach(p.recommendations, rs, RecommendationCap)
    decreases |rs|
  {
    if |rs| > 0 {
      var x := rs[0];
      var p1 := AddRecommendation(p, x.recommendation, x.context, x.timestamp);
      assert p1.recommendations == Last(p.recommendations + [x], RecommendationCap) by {
        assert Recommendation(x.recommendation, x.context, x.timestamp) == x;
      }
      AddRecommendationsAppendEach(p1, rs[1..]);
    }
  }

  /** After any run of questions the profile holds the newest 50 of all
      questions ever recorded, oldest first. */
  lemma {:induction false} QuestionsKeepNewest(p: StudentProfile, qs: seq<Question>)
    requires |qs| > 0
    ensures AddQuestions(p, qs).questions == Last(p.questions + qs, QuestionCap)
  {
    AddQuestionsAppendEach(p, qs);
    AppendEachKeepsLast(p.questions, qs, QuestionCap);
  }

  /** Likewise the newest 20 recommendations. */
  lemma {:induction false} RecommendationsKeepNewest(p: StudentProfile, rs: seq<Recommendation>)
    requires |rs| > 0
    ensures AddRecommendations(p, rs).recommendations == Last(p.recommendations + rs, RecommendationCap)
  {
    AddRecommendationsAppendEach(p, rs);
    AppendEachKeepsLast(p.recommendations, rs, RecommendationCap);
  }

  // ---------------------------------------------------------------------
  // to_dict / from_dict
  // ---------------------------------------------------------------------

  /** The JSON object `to_dict` writes; a key missing from a file is `None`. */
  datatype ProfileDict = ProfileDict(
    studentId: Option<string>,
    createdAt: Option<int>,
    lastActive: Option<int>,
    interests: Option<seq<string>>,
    programsViewed: Option<seq<string>>,
    questions: Option<seq<Question>>,
    recommendations: Option<seq<Recommendation>>,
    interactionCount: Option<int>,
    preferences: Option<map<string, string>>)

  /** `from_dict`: the three required keys raise `KeyError` when missing,
      the others default to empty or 0. */
  function FromDict(d: ProfileDict): (r: Result<StudentProfile, string>)
    ensures r.Ok? <==> d.studentId.Some? && d.createdAt.Some? && d.lastActive.Some?
    ensures r.Ok? ==>
              && r.value.studentId == d.studentId.value
              && r.value.createdAt == d.createdAt.value
              && r.value.lastActive == d.lastActive.value
              && r.value.interests == d.interests.GetOr([])
              && r.value.programsViewed == d.programsViewed.GetOr([])
              && r.value.questions == d.questions.GetOr([])
              && r.value.recommendations == d.recommendations.GetOr([])
              && r.value.interactionCount == d.interactionCount.GetOr(0)
              && r.value.preferences == d.preferences.GetOr(map[])
    ensures r.Err? ==> r.error in {"student_id", "created_at", "last_active"}
  {
    if d.studentId.None? then Err("student_id")
    else if d.createdAt.None? then Err("created_at")
    else if d.lastActive.None? then Err("last_active")
    else Ok(StudentProfile(
      d.studentId.value, d.createdAt.value, d.lastActive.value,
      d.interests.GetOr([]), d.programsViewed.GetOr([]),
      d.questions.GetOr([]), d.recommendations.GetOr([]),
      d.interactionCount.GetOr(0), d.preferences.GetOr(map[])))
  }

  /** `to_dict` writes every key, so reading it back restores the profile. */
  function ToDict(p: StudentProfile): (d: ProfileDict)
    ensures FromDict(d) == Ok(p)
  {
    ProfileDict(
      Some(p.studentId), Some(p.createdAt), Some(p.lastActive),
      Some(p.interests), Some(p.programsViewed), Some(p.questions),
      Some(p.recommendations), Some(p.interactionCount), Some(p.preferences))
  }

  // ---------------------------------------------------------------------
  // Interaction history
  // ---------------------------------------------------------------------

  /** The metadata dict of a stored interaction: `{}` when none was given,
      otherwise the one the session manager builds, whose `topic` value may
      be JSON null. */
  datatype Metadata =
    | NoMetadata
    | SessionMetadata(sessionId: string, agentResponse: Option<string>, topic: Option<string>)

  datatype Interaction = Interaction(timestamp: int, kind: string, content: string, metadata: Metadata)

  datatype Snapshot = Snapshot(profiles: map<string, ProfileDict>, history: map<string, seq<Interaction>>)

  /** `saved` is the last snapshot written to storage by this bank, if any. */
  datatype MemoryBank = MemoryBank(
    profiles: map<string, StudentProfile>,
    history: map<string, seq<Interaction>>,
    saved: Option<Snapshot>)

  const EmptyBank: MemoryBank := MemoryBank(map[], map[], None)

  function History(b: MemoryBank, studentId: string): seq<Interaction> {
    if studentId in b.history then b.history[studentId] else []
  }

  /** A bank operation's new state, the metrics it touched, and its answer. */
  datatype BankStep<T> = BankStep(bank: MemoryBank, metrics: Obs.Metrics, value: T)

  /** `get_or_create_profile`: creates a profile only for an unseen id, and
      touches the profile either way. */
  function GetOrCreateProfile(b: MemoryBank, m: Obs.Metrics, studentId: string, now: int): (r: BankStep<StudentProfile>)
    ensures studentId in r.bank.profiles && r.bank.profiles[studentId] == r.value
    ensures r.bank.profiles.Keys == b.profiles.Keys + {studentId}
    ensures forall s :: s in b.profiles && s != studentId ==> r.bank.profiles[s] == b.profiles[s]
    ensures studentId in b.profiles ==>
              r.value == UpdateActivity(b.profiles[studentId], now)
    ensures studentId !in b.profiles ==>
              r.value.interactionCount == 1 && r.value.createdAt == now && r.value.studentId == studentId
              && r.value.interests == [] && r.value.programsViewed == []
    ensures r.value.lastActive == now
    ensures r.bank.history == b.history && r.bank.saved == b.saved
    ensures Obs.Counter(r.metrics, NewStudentProfiles)
         == Obs.Counter(m, NewStudentProfiles) + (if studentId in b.profiles then 0 else 1)
    ensures forall n :: n != NewStudentProfiles ==> Obs.Counter(r.metrics, n) == Obs.Counter(m, n)
  {
    var created := studentId !in b.profiles;
    var p := if created then NewProfile(studentId, now) else b.profiles[studentId];
    var touched := UpdateActivity(p, now);
    var m' := if created then Obs.IncrementCounter(m, NewStudentProfiles, 1) else m;
    BankStep(b.(profiles := b.profiles[studentId := touched]), m', touched)
  }

  /** `_save_profiles`: both files, whole. */
  function Save(b: MemoryBank): (s: Snapshot)
    ensures s.profiles.Keys == b.profiles.Keys && s.history == b.history
  {
    Snapshot(map k | k in b.profiles :: ToDict(b.profiles[k]), b.history)
  }

  /** Every profile in a snapshot reads back as the profile that was saved. */
  lemma SaveKeepsProfiles(b: MemoryBank)
    ensures forall k :: k in b.profiles ==> FromDict(Save(b).profiles[k]) == Ok(b.profiles[k])
  {
    forall k | k in b.profiles
      ensures FromDict(Save(b).profiles[k]) == Ok(b.profiles[k])
    {
      assert Save(b).profiles[k] == ToDict(b.profiles[k]);
    }
  }

  /** `store_interaction`: append, keep the newest 100, bump the global
      `interactions_stored` counter, and snapshot when it reaches a multiple
      of ten. The answer says whether a snapshot was written. */
  function StoreInteraction(b: MemoryBank, m: Obs.Metrics, studentId: string, kind: string,
                            content: string, metadata: Metadata, now: int): (r: BankStep<bool>)
    ensures var h := History(r.bank, studentId);
            var entry := Interaction(now, kind, content, metadata);
            && |h| == (if |History(b, studentId)| < HistoryCap then |History(b, studentId)| + 1 else HistoryCap)
            && h[|h| - 1] == entry
            && h == (History(b, studentId) + [entry])[|History(b, studentId)| + 1 - |h|..]
            && h == Last(History(b, studentId) + [entry], HistoryCap)
    ensures forall s :: s != studentId ==> History(r.bank, s) == History(b, s)
    ensures r.bank.history.Keys == b.history.Keys + {studentId}
    ensures r.bank.profiles == b.profiles
    ensures Obs.Counter(r.metrics, InteractionsStored) == Obs.Counter(m, InteractionsStored) + 1
    ensures forall n :: n != InteractionsStored ==> Obs.Counter(r.metrics, n) == Obs.Counter(m, n)
    ensures r.value <==> (Obs.Counter(m, InteractionsStored) + 1) % SaveEvery == 0
    ensures r.value ==> r.bank.saved == Some(Save(r.bank))
    ensures !r.value ==> r.bank.saved == b.saved
  {
    var entry := Interaction(now, kind, content, metadata);
    var h := Last(History(b, studentId) + [entry], HistoryCap);
    var m' := Obs.IncrementCounter(m, InteractionsStored, 1);
    var b' := b.(history := b.history[studentId := h]);
    var save := Obs.Counter(m', InteractionsStored) % SaveEvery == 0;
    BankStep(if save then b'.(saved := Some(Save(b'))) else b', m', save)
  }

  /** Stores several interactions for one student in turn. */
  function StoreAll(b: MemoryBank, m: Obs.Metrics, studentId: string, entries: seq<Interaction>): MemoryBank
    decreases |entries|
  {
    if |entries| == 0 then b
    else
      var e := entries[0];
      var step := StoreInteraction(b, m, studentId, e.kind, e.content, e.metadata, e.timestamp);
      StoreAll(step.bank, step.metrics, studentId, entries[1..])
  }

  lemma {:induction false} StoreAllHistory(b: MemoryBank, m: Obs.Metrics, studentId: string, entries: seq<Interaction>)
    ensures History(StoreAll(b, m, studentId, entries), studentId) == AppendEach(History(b, studentId), entries, HistoryCap)
    decreases |entries|
  {
    if |entries| > 0 {
      var e := entries[0];
      var step := StoreInteraction(b, m, studentId, e.kind, e.content, e.metadata, e.timestamp);
      assert History(step.bank, studentId) == Last(History(b, studentId) + [e], HistoryCap) by {
        assert Interaction(e.timestamp, e.kind, e.content, e.metadata) == e;
      }
      StoreAllHistory(step.bank, step.metrics, studentId, entries[1..]);
    }
  }

  /** However many interactions are stored, the history is the newest 100 of
      them, oldest first. */
  lemma HistoryKeepsNewest(b: MemoryBank, m: Obs.Metrics, studentId: string, entries: seq<Interaction>)
    requires |entries| > 0
    ensures History(StoreAll(b, m, studentId, entries), studentId) == Last(History(b, studentId) + entries, HistoryCap)
  {
    StoreAllHistory(b, m, studentId, entries);
    AppendEachKeepsLast(History(b, studentId), entries, HistoryCap);
  }

  // ---------------------------------------------------------------------
  // Student context and its summary
  // ---------------------------------------------------------------------

  /** The topic an interaction contributes to the summary: a missing key
      reads as "general", and so does a JSON null topic. */
  function TopicLabel(i: Interaction): string {
    match i.metadata
    case NoMetadata => "general"
    case SessionMetadata(_, _, topic) => topic.GetOr("general")
  }

  function TopicLabels(interactions: seq<Interaction>): (r: seq<string>)
    ensures |r| == |interactions|
    ensures forall k :: 0 <= k < |r| ==> r[k] == TopicLabel(interactions[k])
  {
    seq(|interactions|, k requires 0 <= k < |interactions| => TopicLabel(interactions[k]))
  }

  const InterestsPrefix := "Student interests: "
  const ProgramsPrefix := "Programs viewed: "
  const TopicsPrefix := "Recent topics: "

  function InterestsPart(p: StudentProfile): string {
    InterestsPrefix + Join(Take(p.interests, SummaryWindow), ", ")
  }

  function ProgramsPart(p: StudentProfile): string {
    ProgramsPrefix + Join(Last(p.programsViewed, SummaryWindow), ", ")
  }

  function TopicsPart(topics: seq<string>): string {
    TopicsPrefix + Join(topics, ", ")
  }

  /** The summary parts, present only when their source list is non-empty. */
  function SummaryParts(p: StudentProfile, interactions: seq<Interaction>, topics: seq<string>): seq<string> {
    (if |p.interests| > 0 then [InterestsPart(p)] else [])
    + (if |p.programsViewed| > 0 then [ProgramsPart(p)] else [])
    + (if |interactions| > 0 then [TopicsPart(topics)] else [])
  }

  function Assemble(p: StudentProfile, interactions: seq<Interaction>, topics: seq<string>): string {
    var parts := SummaryParts(p, interactions, topics);
    if |parts| == 0 then NewStudentSummary else Join(parts, "; ")
  }

  lemma JoinStartsWithFirst(parts: seq<string>, sep: string)
    requires |parts| > 0
    ensures parts[0] <= Join(parts, sep)
  {
  }

  lemma {:induction false} JoinEndsWithLast(parts: seq<string>, sep: string)
    requires |parts| > 0
    ensures var j := Join(parts, sep); var l := parts[|parts| - 1];
            |l| <= |j| && j[|j| - |l|..] == l
    decreases |parts|
  {
    if |parts| > 1 {
      JoinEndsWithLast(parts[1..], sep);
      assert parts[1..][|parts[1..]| - 1] == parts[|parts| - 1];
    }
  }

  /** The summary is the fallback sentence exactly when there is no signal;
      otherwise it opens with the interests part when there are interests and
      closes with the topics part when there are interactions. */
  lemma AssembleShape(p: StudentProfile, interactions: seq<Interaction>, topics: seq<string>)
    ensures var r := Assemble(p, interactions, topics);
            && (r == NewStudentSummary <==> |p.interests| == 0 && |p.programsViewed| == 0 && |interactions| == 0)
            && (|p.interests| > 0 ==> InterestsPart(p) <= r)
            && (|p.interests| == 0 && |p.programsViewed| > 0 ==> ProgramsPart(p) <= r)
            && (|interactions| > 0 ==> |TopicsPart(topics)| <= |r| && r[|r| - |TopicsPart(topics)|..] == TopicsPart(topics))
  {
    var parts := SummaryParts(p, interactions, topics);
    var r := Assemble(p, interactions, topics);
    if |parts| > 0 {
      JoinStartsWithFirst(parts, "; ");
      JoinEndsWithLast(parts, "; ");
      assert parts[0][0] in {'S', 'P', 'R'};
      assert r[0] == parts[0][0];
      assert NewStudentSummary[0] == 'N';
    }
  }

  /** `_generate_context_summary`, with a null topic read as "general"
      (see the corrected row under Findings). */
  function ContextSummary(p: StudentProfile, interactions: seq<Interaction>): (r: string)
    ensures r == NewStudentSummary <==> |p.interests| == 0 && |p.programsViewed| == 0 && |interactions| == 0
    ensures |p.interests| > 0 ==> InterestsPart(p) <= r
    ensures |p.interests| == 0 && |p.programsViewed| > 0 ==> ProgramsPart(p) <= r
    ensures |interactions| > 0 ==>
              var t := TopicsPart(TopicLabels(Last(interactions, SummaryWindow)));
              |t| <= |r| && r[|r| - |t|..] == t
  {
    var topics := TopicLabels(Last(interactions, SummaryWindow));
    AssembleShape(p, interactions, topics);
    Assemble(p, interactions, topics)
  }

  /** The summary in closed form, one case per combination of non-empty
      parts: the parts in the order interests, programs, topics, separated
      by "; ", with nothing else around them. */
  lemma ContextSummaryLayout(p: StudentProfile, interactions: seq<Interaction>)
    ensures var r := ContextSummary(p, interactions);
            var i := InterestsPart(p);
            var g := ProgramsPart(p);
            var t := TopicsPart(TopicLabels(Last(interactions, SummaryWindow)));
            var hi, hg, ht := |p.interests| > 0, |p.programsViewed| > 0, |interactions| > 0;
            && (!hi && !hg && !ht ==> r == NewStudentSummary)
            && (hi && !hg && !ht ==> r == i)
            && (!hi && hg && !ht ==> r == g)
            && (!hi && !hg && ht ==> r == t)
            && (hi && hg && !ht ==> r == i + "; " + g)
            && (hi && !hg && ht ==> r == i + "; " + t)
            && (!hi && hg && ht ==> r == g + "; " + t)
            && (hi && hg && ht ==> r == i + "; " + g + "; " + t)
  {
    var topics := TopicLabels(Last(interactions, SummaryWindow));
    var parts := SummaryParts(p, interactions, topics);
    var i, g, t := InterestsPart(p), ProgramsPart(p), TopicsPart(topics);
    if |parts| == 2 {
      JoinTwo(parts[0], parts[1], "; ");
      assert parts == [parts[0], parts[1]];
    } else if |parts| == 3 {
      assert parts == [i, g, t];
      JoinThree(i, g, t, "; ");
    }
  }

  lemma JoinTwo(a: string, b: string, sep: string)
    ensures Join([a, b], sep) == a + sep + b
  {
    assert [a, b][1..] == [b];
  }

  lemma JoinThree(a: string, b: string, c: string, sep: string)
    ensures Join([a, b, c], sep) == a + sep + b + sep + c
  {
    assert [a, b, c][1..] == [b, c];
    JoinTwo(b, c, sep);
  }

  predicate HasNullTopic(i: Interaction) {
    i.metadata.SessionMetadata? && i.metadata.topic.None?
  }

  /** Some interaction among the newest three of `h` carries a JSON-null
      topic, which the summary as written cannot join. */
  predicate NullTopicInSummary(h: seq<Interaction>) {
    exists k :: 0 <= k < |Last(h, SummaryWindow)| && HasNullTopic(Last(h, SummaryWindow)[k])
  }

  /** The position of the first null topic: `join` names it in its error. */
  function FirstNullTopic(xs: seq<Interaction>): (k: nat)
    requires exists k :: 0 <= k < |xs| && HasNullTopic(xs[k])
    ensures k < |xs| && HasNullTopic(xs[k])
    ensures forall j :: 0 <= j < k ==> !HasNullTopic(xs[j])
  {
    if HasNullTopic(xs[0]) then 0
    else
      var w :| 0 <= w < |xs| && HasNullTopic(xs[w]);
      assert HasNullTopic(xs[1..][w - 1]);
      1 + FirstNullTopic(xs[1..])
  }

  /** The message of the TypeError `', '.join` raises on a null topic. */
  function NullTopicError(h: seq<Interaction>): string
    requires NullTopicInSummary(h)
  {
    "sequence item " + NatToString(FirstNullTopic(Last(h, SummaryWindow))) + ": expected str instance, NoneType found"
  }

  /** `_generate_context_summary` as written: `', '.join` raises a TypeError
      when one of the last three topics is JSON null. */
  function ContextSummaryAsWritten(p: StudentProfile, interactions: seq<Interaction>): (r: Result<string, string>)
    ensures r.Err? <==> NullTopicInSummary(interactions)
    ensures r.Err? ==> r.error == NullTopicError(interactions)
    ensures r.Ok? ==> r.value == ContextSummary(p, interactions)
  {
    var last := Last(interactions, SummaryWindow);
    if NullTopicInSummary(interactions) then
      Err(NullTopicError(interactions))
    else
      assert TopicLabels(last) == seq(|last|, k requires 0 <= k < |last| => TopicLabel(last[k]));
      Ok(ContextSummary(p, interactions))
  }

  /** How a stored JSON-null topic reaches the summary: `AsWritten` follows
      the code, where `join` raises on it; `Corrected` reads it as "general",
      the default the code gives a missing topic (see Findings). */
  datatype TopicReading = AsWritten | Corrected

  /** The summary under either reading. */
  function ReadSummary(reading: TopicReading, p: StudentProfile, interactions: seq<Interaction>): (r: Result<string, string>)
    ensures r.Err? <==> reading.AsWritten? && NullTopicInSummary(interactions)
    ensures r.Err? ==> r.error == NullTopicError(interactions)
    ensures r.Ok? ==> r.value == ContextSummary(p, interactions)
  {
    if reading.Corrected? then Ok(ContextSummary(p, interactions)) else ContextSummaryAsWritten(p, interactions)
  }

  datatype StudentContext = StudentContext(profile: StudentProfile, recent: seq<Interaction>, summary: string)

  /** `get_student_context`: touches the profile, then reports the newest ten
      interactions and the summary built from them. The profile is touched
      (and counted, when new) even when the summary then raises. */
  function GetStudentContext(reading: TopicReading, b: MemoryBank, m: Obs.Metrics, studentId: string, now: int)
    : (r: BankStep<Result<StudentContext, string>>)
    ensures var g := GetOrCreateProfile(b, m, studentId, now);
            r.bank == g.bank && r.metrics == g.metrics
    ensures r.value.Err? <==> reading.AsWritten? && NullTopicInSummary(History(b, studentId))
    ensures r.value.Err? ==> r.value.error == NullTopicError(History(b, studentId))
    ensures r.value.Ok? ==>
              && r.value.value.profile == GetOrCreateProfile(b, m, studentId, now).value
              && r.value.value.recent == Last(History(b, studentId), RecentWindow)
              && r.value.value.summary == ContextSummary(r.value.value.profile, r.value.value.recent)
  {
    var g := GetOrCreateProfile(b, m, studentId, now);
    var recent := Last(History(b, studentId), RecentWindow);
    SummaryTopicsAreNewestThree(History(b, studentId));
    var s := ReadSummary(reading, g.value, recent);
    if s.Err? then BankStep(g.bank, g.metrics, Err(s.error))
    else BankStep(g.bank, g.metrics, Ok(StudentContext(g.value, recent, s.value)))
  }

  /** The summary's topics are those of the newest three interactions overall. */
  lemma SummaryTopicsAreNewestThree(s: seq<Interaction>)
    ensures Last(Last(s, RecentWindow), SummaryWindow) == Last(s, SummaryWindow)
  {
    LastOfLast(s, RecentWindow, SummaryWindow);
  }

  // ---------------------------------------------------------------------
  // Loading the snapshot files
  // ---------------------------------------------------------------------

  /** The two files as read at start-up: the profiles object as its ordered
      (key, value) entries, or `None` for a file that does not exist. */
  datatype StoredFiles = StoredFiles(
    profilesFile: Option<seq<(string, ProfileDict)>>,
    historyFile: Option<map<string, seq<Interaction>>>)

  datatype Loaded = Loaded(profiles: map<string, StudentProfile>, failed: bool)

  /** The profile loop of `_load_profiles`: the first malformed entry raises
      and ends the loop, keeping what was loaded before it. */
  function LoadProfileEntries(entries: seq<(string, ProfileDict)>, acc: map<string, StudentProfile>): (r: Loaded)
    ensures acc.Keys <= r.profiles.Keys
    ensures r.failed <==> exists i :: 0 <= i < |entries| && FromDict(entries[i].1).Err?
    decreases |entries|
  {
    if |entries| == 0 then Loaded(acc, false)
    else
      match FromDict(entries[0].1)
      case Err(_) => Loaded(acc, true)
      case Ok(p) =>
        var rest := LoadProfileEntries(entries[1..], acc[entries[0].0 := p]);
        assert forall i :: 1 <= i < |entries| ==> entries[i] == entries[1..][i - 1];
        rest
  }

  /** `_load_profiles`: missing files leave the store empty; a malformed
      profile also skips the history file, since both share one `try`. */
  function Load(files: StoredFiles): (b: MemoryBank)
    ensures files.profilesFile.None? && files.historyFile.None? ==> b == EmptyBank
    ensures b.saved.None?
  {
    var loaded := match files.profilesFile
      case None => Loaded(map[], false)
      case Some(entries) => LoadProfileEntries(entries, map[]);
    if loaded.failed then MemoryBank(loaded.profiles, map[], None)
    else MemoryBank(loaded.profiles, files.historyFile.GetOr(map[]), None)
  }

  /** The entries list each key of the map once, with its value. */
  predicate Enumerates(entries: seq<(string, ProfileDict)>, m: map<string, ProfileDict>) {
    && (forall i :: 0 <= i < |entries| ==> entries[i].0 in m && m[entries[i].0] == entries[i].1)
    && (forall i, j :: 0 <= i < j < |entries| ==> entries[i].0 != entries[j].0)
    && (forall k :: k in m ==> exists i :: 0 <= i < |entries| && entries[i].0 == k)
  }

  /** The keys an entry list names. */
  function EntryKeys(entries: seq<(string, ProfileDict)>): set<string> {
    set i | 0 <= i < |entries| :: entries[i].0
  }

  lemma EntryKeysCons(entries: seq<(string, ProfileDict)>)
    requires |entries| > 0
    ensures EntryKeys(entries) == {entries[0].0} + EntryKeys(entries[1..])
  {
    var rest := entries[1..];
    forall k | k in EntryKeys(entries) ensures k in {entries[0].0} + EntryKeys(rest) {
      var i :| 0 <= i < |entries| && entries[i].0 == k;
      if i > 0 {
        assert rest[i - 1].0 == k;
      }
    }
    forall k | k in EntryKeys(rest) ensures k in EntryKeys(entries) {
      var i :| 0 <= i < |rest| && rest[i].0 == k;
      assert entries[i + 1].0 == k;
    }
  }

  lemma {:induction false} LoadEntriesOfSnapshot(entries: seq<(string, ProfileDict)>, acc: map<string, StudentProfile>,
                                                 profiles: map<string, StudentProfile>)
    requires forall i :: 0 <= i < |entries| ==> entries[i].0 in profiles && FromDict(entries[i].1) == Ok(profiles[entries[i].0])
    requires forall k :: k in acc ==> k in profiles && acc[k] == profiles[k]
    ensures var r := LoadProfileEntries(entries, acc);
            && !r.failed
            && r.profiles.Keys == acc.Keys + EntryKeys(entries)
            && forall k :: k in r.profiles ==> k in profiles && r.profiles[k] == profiles[k]
    decreases |entries|
  {
    if |entries| > 0 {
      var e := entries[0];
      var acc' := acc[e.0 := profiles[e.0]];
      assert forall i :: 0 <= i < |entries[1..]| ==> entries[1..][i] == entries[i + 1];
      LoadEntriesOfSnapshot(entries[1..], acc', profiles);
      EntryKeysCons(entries);
      assert LoadProfileEntries(entries, acc) == LoadProfileEntries(entries[1..], acc');
    }
  }

  lemma EnumeratedKeys(entries: seq<(string, ProfileDict)>, m: map<string, ProfileDict>)
    requires Enumerates(entries, m)
    ensures EntryKeys(entries) == m.Keys
  {
    forall k | k in m ensures k in EntryKeys(entries) {
      var i :| 0 <= i < |entries| && entries[i].0 == k;
    }
  }

  lemma LoadSnapshotProfiles(b: MemoryBank, entries: seq<(string, ProfileDict)>)
    requires Enumerates(entries, Save(b).profiles)
    ensures !LoadProfileEntries(entries, map[]).failed
    ensures LoadProfileEntries(entries, map[]).profiles == b.profiles
  {
    SaveKeepsProfiles(b);
    EnumeratedKeys(entries, Save(b).profiles);
    var none: map<string, StudentProfile> := map[];
    LoadEntriesOfSnapshot(entries, none, b.profiles);
    var r := LoadProfileEntries(entries, none);
    assert r.profiles.Keys == b.profiles.Keys;
  }

  /** Round trip: loading a snapshot, whatever order its profile entries were
      written in, gives back the profiles and histories that were saved. */
  lemma SaveThenLoad(b: MemoryBank, entries: seq<(string, ProfileDict)>)
    requires Enumerates(entries, Save(b).profiles)
    ensures Load(StoredFiles(Some(entries), Some(Save(b).history))).profiles == b.profiles
    ensures Load(StoredFiles(Some(entries), Some(Save(b).history))).history == b.history
  {
    LoadSnapshotProfiles(b, entries);
  }
}

=== FILE: observability.dfy ===
/** Metrics (counters, timers, gauges), the tracer with its single "current
    trace" slot, and the performance monitor that wraps an operation in a
    trace, a timer sample and a success or error counter. Clock readings are
    integer parameters in milliseconds. */
module Observability {
  import opened Common
  import Text
  import Ranking

  /** Keyword-argument values carried by traces and events. */
  datatype Value = Str(s: string) | Num(n: int)

  // ---------------------------------------------------------------------
  // BatesMetrics
  // ---------------------------------------------------------------------

  datatype TimerSample = TimerSample(duration: int, timestamp: int)

  datatype Metrics = Metrics(
    counters: map<string, int>,
    timers: map<string, seq<TimerSample>>,
    gauges: map<string, real>)

  const EmptyMetrics: Metrics := Metrics(map[], map[], map[])

  /** A counter's value, absent counters reading as 0 (a `defaultdict(int)`). */
  function Counter(m: Metrics, name: string): int {
    if name in m.counters then m.counters[name] else 0
  }

  function Samples(m: Metrics, name: string): seq<TimerSample> {
    if name in m.timers then m.timers[name] else []
  }

  function IncrementCounter(m: Metrics, name: string, v: int): (r: Metrics)
    ensures Counter(r, name) == Counter(m, name) + v
    ensures forall n :: n != name ==> Counter(r, n) == Counter(m, n)
    ensures r.counters.Keys == m.counters.Keys + {name}
    ensures r.timers == m.timers && r.gauges == m.gauges
  {
    m.(counters := m.counters[name := Counter(m, name) + v])
  }

  function RecordTimer(m: Metrics, name: string, duration: int, nowMs: int): (r: Metrics)
    ensures Samples(r, name) == Samples(m, name) + [TimerSample(duration, nowMs)]
    ensures forall n :: n != name ==> Samples(r, n) == Samples(m, n)
    ensures r.counters == m.counters && r.gauges == m.gauges
  {
    m.(timers := m.timers[name := Samples(m, name) + [TimerSample(duration, nowMs)]])
  }

  function SetGauge(m: Metrics, name: string, value: real): (r: Metrics)
    ensures name in r.gauges && r.gauges[name] == value
    ensures forall n :: n != name && n in m.gauges ==> n in r.gauges && r.gauges[n] == m.gauges[n]
    ensures r.gauges.Keys == m.gauges.Keys + {name}
    ensures r.counters == m.counters && r.timers == m.timers
  {
    m.(gauges := m.gauges[name := value])
  }

  function ResetMetrics(m: Metrics): (r: Metrics)
    ensures r.counters == map[] && r.timers == map[] && r.gauges == map[]
    ensures forall n :: Counter(r, n) == 0
  {
    EmptyMetrics
  }

  function TotalDuration(s: seq<TimerSample>): int
    decreases |s|
  {
    if |s| == 0 then 0 else TotalDuration(s[..|s| - 1]) + s[|s| - 1].duration
  }

  /** The sum of durations splits over any division of the samples. */
  lemma {:induction false} TotalDurationAppend(a: seq<TimerSample>, b: seq<TimerSample>)
    ensures TotalDuration(a + b) == TotalDuration(a) + TotalDuration(b)
    decreases |b|
  {
    if |b| > 0 {
      assert (a + b)[..|a + b| - 1] == a + b[..|b| - 1];
      TotalDurationAppend(a, b[..|b| - 1]);
    } else {
      assert a + b == a;
    }
  }

  datatype TimerSummary = TimerSummary(count: nat, total: int, recent: seq<TimerSample>)

  datatype MetricsReport = MetricsReport(
    counters: map<string, int>,
    timers: map<string, TimerSummary>,
    gauges: map<string, real>)

  function Summarize(s: seq<TimerSample>): TimerSummary {
    TimerSummary(|s|, TotalDuration(s), Text.Last(s, 10))
  }

  /** `get_metrics`, without the average (a float division) and the wall-clock stamp. */
  function GetMetrics(m: Metrics): (r: MetricsReport)
    ensures r.counters == m.counters && r.gauges == m.gauges
    ensures r.timers.Keys == m.timers.Keys
    ensures forall n :: n in m.timers ==> r.timers[n].count == |m.timers[n]|
    ensures forall n :: n in m.timers ==> |r.timers[n].recent| == if |m.timers[n]| < 10 then |m.timers[n]| else 10
    ensures forall n :: n in m.timers ==> r.timers[n].recent == Text.Last(m.timers[n], 10)
    ensures forall n :: n in m.timers ==> r.timers[n].total == TotalDuration(m.timers[n])
  {
    MetricsReport(m.counters, map n | n in m.timers :: Summarize(m.timers[n]), m.gauges)
  }

  /** Recording one sample adds one to the reported count and its duration
      to the total, makes it the newest reported sample, and leaves the
      counters and every other timer's report as they were. */
  lemma RecordTimerReport(m: Metrics, name: string, duration: int, nowMs: int)
    ensures var before := GetMetrics(m);
            var after := GetMetrics(RecordTimer(m, name, duration, nowMs));
            && name in after.timers
            && after.timers[name].count == (if name in before.timers then before.timers[name].count else 0) + 1
            && after.timers[name].total == (if name in before.timers then before.timers[name].total else 0) + duration
            && after.timers[name].recent[|after.timers[name].recent| - 1] == TimerSample(duration, nowMs)
            && after.counters == before.counters
            && forall n :: n in before.timers && n != name ==> n in after.timers && after.timers[n] == before.timers[n]
  {
    var m' := RecordTimer(m, name, duration, nowMs);
    var s := Samples(m, name);
    var x := TimerSample(duration, nowMs);
    var s' := s + [x];
    assert name in m'.timers && m'.timers[name] == s';
    assert s'[..|s'| - 1] == s;
    assert TotalDuration(s') == TotalDuration(s) + duration;
    var recent := Text.Last(s', 10);
    assert recent[|recent| - 1] == s'[|s'| - 1];
    forall n | n in m.timers && n != name ensures n in m'.timers && m'.timers[n] == m.timers[n] {
      assert Samples(m', n) == Samples(m, n);
    }
  }

  // ---------------------------------------------------------------------
  // BatesTracer
  // ---------------------------------------------------------------------

  datatype Event = Event(timestamp: int, kind: string, message: string, data: map<string, Value>)

  datatype Trace = Trace(
    traceId: string,
    operation: string,
    startTime: int,
    metadata: map<string, Value>,
    events: seq<Event>,
    status: string,
    endTime: Option<int>,
    result: Option<map<string, Value>>)

  /** `current` is the index in `traces` of the trace the Python object
      holds a reference to; traces are only ever appended, so it stays valid. */
  datatype Tracer = Tracer(traces: seq<Trace>, current: Option<nat>) {
    predicate Valid() {
      current.Some? ==> current.value < |traces|
    }
  }

  const EmptyTracer: Tracer := Tracer([], None)

  datatype Started = Started(tracer: Tracer, traceId: string)

  function StartTrace(t: Tracer, operation: string, metadata: map<string, Value>, nowMs: nat): (r: Started)
    requires t.Valid()
    ensures r.tracer.Valid()
    ensures |r.tracer.traces| == |t.traces| + 1
    ensures r.tracer.traces[..|t.traces|] == t.traces
    ensures r.tracer.current == Some(|t.traces|)
    ensures var tr := r.tracer.traces[|t.traces|];
            tr.status == "started" && tr.events == [] && tr.operation == operation
            && tr.startTime == nowMs && tr.endTime.None? && tr.traceId == r.traceId
    ensures r.traceId == "trace_" + Text.NatToString(nowMs)
  {
    var id := "trace_" + Text.NatToString(nowMs);
    var tr := Trace(id, operation, nowMs, metadata, [], "started", None, None);
    Started(Tracer(t.traces + [tr], Some(|t.traces|)), id)
  }

  function AddEvent(t: Tracer, kind: string, message: string, data: map<string, Value>, nowMs: int): (r: Tracer)
    requires t.Valid()
    ensures r.Valid() && r.current == t.current && |r.traces| == |t.traces|
    ensures t.current.None? ==> r == t
    ensures t.current.Some? ==>
              var c := t.current.value;
              r.traces[c] == t.traces[c].(events := t.traces[c].events + [Event(nowMs, kind, message, data)])
    ensures forall i :: 0 <= i < |t.traces| && Some(i) != t.current ==> r.traces[i] == t.traces[i]
  {
    match t.current
    case None => t
    case Some(c) =>
      var tr := t.traces[c];
      t.(traces := t.traces[c := tr.(events := tr.events + [Event(nowMs, kind, message, data)])])
  }

  function EndTrace(t: Tracer, status: string, result: map<string, Value>, nowMs: int): (r: Tracer)
    requires t.Valid()
    ensures r.Valid() && r.current.None? && |r.traces| == |t.traces|
    ensures t.current.None? ==> r == t
    ensures t.current.Some? ==>
              var c := t.current.value;
              r.traces[c].status == status && r.traces[c].result == Some(result)
              && r.traces[c].endTime == Some(nowMs) && r.traces[c].events == t.traces[c].events
              && r.traces[c].startTime == t.traces[c].startTime
    ensures forall i :: 0 <= i < |t.traces| && Some(i) != t.current ==> r.traces[i] == t.traces[i]
  {
    match t.current
    case None => t
    case Some(c) =>
      var tr := t.traces[c];
      Tracer(t.traces[c := tr.(status := status, endTime := Some(nowMs), result := Some(result))], None)
  }

  function StartKey(tr: Trace): int {
    tr.startTime
  }

  /** How many traces `traces[:limit]` keeps; a negative limit drops from the end. */
  function LimitCount(n: nat, limit: Option<int>): nat {
    match limit
    case None => n
    case Some(k) =>
      if k == 0 then n
      else if k > 0 then (if k < n then k else n)
      else (if n + k > 0 then n + k else 0)
  }

  /** `get_traces(limit)`: newest first; `None` and `0` both mean "all". */
  function GetTraces(t: Tracer, limit: Option<int>): (r: seq<Trace>)
    ensures |r| == LimitCount(|t.traces|, limit)
    ensures Ranking.SortedDesc(r, StartKey)
    ensures multiset(r) <= multiset(t.traces)
    ensures limit.None? || limit == Some(0) ==> multiset(r) == multiset(t.traces)
    ensures forall x, y :: x in multiset(t.traces) - multiset(r) && y in r ==> StartKey(x) <= StartKey(y)
  {
    var all := Ranking.SortDesc(t.traces, StartKey);
    var n := LimitCount(|t.traces|, limit);
    Ranking.PrefixOfSortedKeepsTop(all, StartKey, n);
    assert all[..|all|] == all;
    all[..n]
  }

  // ---------------------------------------------------------------------
  // PerformanceMonitor
  // ---------------------------------------------------------------------

  /** How the wrapped call left: normally, or by raising an exception. */
  datatype Exit = Returned | Raised(errorType: string, message: string)

  function SuccessCounter(op: string): string { op + "_success" }
  function ErrorCounter(op: string): string { op + "_errors" }

  /** `__enter__`: start a trace named after the operation. */
  function MonitorEnter(t: Tracer, op: string, startMs: nat): (r: Tracer)
    requires t.Valid()
    ensures r.Valid() && r.current == Some(|t.traces|) && |r.traces| == |t.traces| + 1
    ensures r.traces[|t.traces|].operation == op && r.traces[|t.traces|].status == "started"
  {
    StartTrace(t, op, map[], startMs).tracer
  }

  datatype Monitored = Monitored(metrics: Metrics, tracer: Tracer)

  /** `__exit__`: one timer sample, end the current trace, one outcome counter. */
  function MonitorExit(m: Metrics, t: Tracer, op: string, startMs: int, endMs: int, exit: Exit): (r: Monitored)
    requires t.Valid()
    ensures r.tracer.Valid() && r.tracer.current.None? && |r.tracer.traces| == |t.traces|
    ensures Samples(r.metrics, op) == Samples(m, op) + [TimerSample(endMs - startMs, endMs)]
    ensures exit.Returned? ==>
              && Counter(r.metrics, SuccessCounter(op)) == Counter(m, SuccessCounter(op)) + 1
              && Counter(r.metrics, ErrorCounter(op)) == Counter(m, ErrorCounter(op))
    ensures exit.Raised? ==>
              && Counter(r.metrics, ErrorCounter(op)) == Counter(m, ErrorCounter(op)) + 1
              && Counter(r.metrics, SuccessCounter(op)) == Counter(m, SuccessCounter(op))
    ensures forall n :: n != SuccessCounter(op) && n != ErrorCounter(op) ==> Counter(r.metrics, n) == Counter(m, n)
    ensures t.current.Some? ==>
              r.tracer.traces[t.current.value].status == (if exit.Returned? then "completed" else "error")
  {
    var duration := endMs - startMs;
    var m1 := RecordTimer(m, op, duration, endMs);
    match exit
    case Returned =>
      Monitored(IncrementCounter(m1, SuccessCounter(op), 1),
                EndTrace(t, "completed", map["duration" := Num(duration)], endMs))
    case Raised(errorType, message) =>
      Monitored(IncrementCounter(m1, ErrorCounter(op), 1),
                EndTrace(t, "error", map["error_type" := Str(errorType), "error_message" := Str(message)], endMs))
  }

  /** A call under way or finished: the metrics and the tracer it leaves,
      and what it returned or raised. */
  datatype Wrapped<R> = Wrapped(metrics: Metrics, tracer: Tracer, outcome: Result<R, Exit>)

  /** `@monitor_performance(op)`: enter, run the wrapped function's body from
      the entered state, exit. The body may itself run monitored calls, so it
      is a function of the metrics and the tracer it starts from. Whatever
      the body returned or raised comes back unchanged. The new trace is
      ended by this exit only while it is still the current one; a nested
      exit that cleared the current slot leaves it as the body left it. */
  function Monitor<R>(m: Metrics, t: Tracer, op: string, startMs: nat, endMs: int,
                      body: (Metrics, Tracer) -> Wrapped<R>): (r: Wrapped<R>)
    requires t.Valid()
    requires var b := body(m, MonitorEnter(t, op, startMs));
             b.tracer.Valid() && |b.tracer.traces| > |t.traces| && (b.outcome.Err? ==> b.outcome.error.Raised?)
    ensures var b := body(m, MonitorEnter(t, op, startMs));
            && r.outcome == b.outcome
            && r.tracer.Valid() && r.tracer.current.None? && |r.tracer.traces| == |b.tracer.traces|
            && (b.tracer.current == Some(|t.traces|) ==>
                  && r.tracer.traces[|t.traces|].status == (if b.outcome.Ok? then "completed" else "error")
                  && r.tracer.traces[|t.traces|].endTime == Some(endMs))
            && (b.tracer.current.None? ==> r.tracer == b.tracer)
            && Samples(r.metrics, op) == Samples(b.metrics, op) + [TimerSample(endMs - startMs, endMs)]
            && (b.outcome.Ok? <==> Counter(r.metrics, SuccessCounter(op)) == Counter(b.metrics, SuccessCounter(op)) + 1)
            && Counter(r.metrics, SuccessCounter(op)) + Counter(r.metrics, ErrorCounter(op))
               == Counter(b.metrics, SuccessCounter(op)) + Counter(b.metrics, ErrorCounter(op)) + 1
            && (forall n :: n != SuccessCounter(op) && n != ErrorCounter(op) ==> Counter(r.metrics, n) == Counter(b.metrics, n))
  {
    var b := body(m, MonitorEnter(t, op, startMs));
    var exit := if b.outcome.Ok? then Returned else b.outcome.error;
    var done := MonitorExit(b.metrics, b.tracer, op, startMs, endMs, exit);
    Wrapped(done.metrics, done.tracer, b.outcome)
  }

  /** A body that runs no monitored call of its own: its trace is appended
      after the earlier ones and ends "completed" or "error" by its outcome. */
  lemma LeafMonitorEndsItsTrace<R>(m: Metrics, t: Tracer, op: string, startMs: nat, endMs: int, outcome: Result<R, Exit>)
    requires t.Valid() && (outcome.Err? ==> outcome.error.Raised?)
    ensures var r := Monitor(m, t, op, startMs, endMs, (m0: Metrics, t0: Tracer) => Wrapped(m0, t0, outcome));
            && |r.tracer.traces| == |t.traces| + 1
            && r.tracer.traces[..|t.traces|] == t.traces
            && r.tracer.traces[|t.traces|].operation == op
            && r.tracer.traces[|t.traces|].status == (if outcome.Ok? then "completed" else "error")
            && r.outcome == outcome
  {
    var t1 := MonitorEnter(t, op, startMs);
    assert t1.traces[..|t.traces|] == t.traces;
  }

  /** The same nesting through the decorator itself: an outer monitored call
      whose body is a leaf monitored call ends with the outer trace still
      "started" and the inner one "completed". */
  lemma NestedMonitorThroughDecorator(m: Metrics, t: Tracer, outer: string, inner: string,
                                      t0: nat, t1: nat, t2: int, t3: int, value: int)
    requires t.Valid()
    ensures var innerBody := (m0: Metrics, tr0: Tracer) => Wrapped(m0, tr0, Ok(value));
            var outerBody := (m1: Metrics, tr1: Tracer) =>
                               if tr1.Valid() then Monitor(m1, tr1, inner, t1, t2, innerBody)
                               else Wrapped(m1, tr1, Ok(value));
            var r := Monitor(m, t, outer, t0, t3, outerBody);
            r.tracer.traces[|t.traces|].status == "started"
            && r.tracer.traces[|t.traces| + 1].status == "completed"
            && r.outcome == Ok(value)
  {
    var a := MonitorEnter(t, outer, t0);
    assert a.Valid();
  }

  /** Two nested monitored calls: the inner exit clears the single current
      slot, so the outer exit ends nothing and the outer trace stays "started". */
  lemma NestedMonitorLeavesOuterStarted(m: Metrics, t: Tracer, outer: string, inner: string, t0: nat, t1: nat, t2: int, t3: int)
    requires t.Valid()
    ensures var a := MonitorEnter(t, outer, t0);
            var b := MonitorEnter(a, inner, t1);
            var c := MonitorExit(m, b, inner, t1, t2, Returned);
            var d := MonitorExit(c.metrics, c.tracer, outer, t0, t3, Returned);
            d.tracer.traces[|t.traces|].status == "started"
            && d.tracer.traces[|t.traces| + 1].status == "completed"
  {
  }
}

=== FILE: orchestrator.dfy ===
/** The multi-agent orchestrator: keyword routing of a student query to one
    specialist, and the sequential multi-agent handler that gathers the
    specialist's answer plus academic and financial perspectives, records
    the exchange in the session, and reports how many agents answered.
    The specialists themselves are language-model agents; what each would
    answer is a parameter, and the model records which agents were asked
    and with which prompt. */
module Orchestrator {
  import opened Common
  import opened Text
  import Memory
  import Sessions
  import Obs = Observability

  datatype Specialist = Admissions | Academics | FinancialAid | General

  function Name(s: Specialist): string {
    match s
    case Admissions => "admissions"
    case Academics => "academics"
    case FinancialAid => "financial_aid"
    case General => "general"
  }

  const AdmissionsKeywords: seq<string> :=
    ["admission", "apply", "application", "requirement", "prerequisite",
     "enroll", "registration", "placement", "test", "transcript"]

  const AcademicsKeywords: seq<string> :=
    ["program", "course", "class", "curriculum", "degree", "certificate",
     "major", "study", "academic", "credit", "semester", "quarter"]

  const FinancialKeywords: seq<string> :=
    ["financial", "aid", "scholarship", "grant", "loan", "tuition",
     "cost", "fee", "payment", "fafsa", "money", "afford"]

  const ComplexKeywords: seq<string> := ["program", "cost", "requirement", "pathway", "career"]

  const QueriesCompleted := "multi_agent_queries_completed"
  const QueryErrors := "multi_agent_query_errors"
  const AcademicsPerspective := "academics_perspective"
  const FinancialPerspective := "financial_perspective"

  /** What indexing the `None` that `get_session` returns for an unknown id raises. */
  const NotSubscriptable := "'NoneType' object is not subscriptable"

  function RoutedCounter(s: Specialist): string {
    "queries_routed_to_" + Name(s)
  }

  // ---------------------------------------------------------------------
  // route_to_specialist
  // ---------------------------------------------------------------------

  /** The first keyword list, in the fixed order admissions, academics,
      financial aid, with a keyword inside the lowercased query decides. */
  function Classify(query: string): (r: Specialist)
    ensures var q := Lower(query);
            && (r == Admissions <==> AnyContained(q, AdmissionsKeywords))
            && (r == Academics <==> !AnyContained(q, AdmissionsKeywords) && AnyContained(q, AcademicsKeywords))
            && (r == FinancialAid <==>
                  !AnyContained(q, AdmissionsKeywords) && !AnyContained(q, AcademicsKeywords)
                  && AnyContained(q, FinancialKeywords))
  {
    var q := Lower(query);
    if AnyContained(q, AdmissionsKeywords) then Admissions
    else if AnyContained(q, AcademicsKeywords) then Academics
    else if AnyContained(q, FinancialKeywords) then FinancialAid
    else General
  }

  /** The `routing_confidence` of a routing decision: "high" when an agent
      was chosen, "low" for the general fallback, which has none. */
  datatype Confidence = High | Low

  function ConfidenceOf(s: Specialist): Confidence {
    if s == General then Low else High
  }

  /** Routing ignores case: a query and its lowercase form go to the same place. */
  lemma ClassifyIgnoresCase(query: string)
    ensures Classify(Lower(query)) == Classify(query)
  {
    LowerIdempotent(query);
  }

  /** A query that mentions both a financial and an admissions term goes to
      admissions: the financial list is consulted last. */
  lemma AdmissionsOutranksFinancial(query: string)
    requires AnyContained(Lower(query), AdmissionsKeywords)
    ensures Classify(query) == Admissions
  {
  }

  /** The keyword test is a substring test: "latest" contains "test", so a
      question about the latest news is routed to admissions. */
  lemma SubstringRouting()
    ensures Classify("latest news") == Admissions
  {
    assert Lower("latest news") == "latest news";
    ContainsAfterPrefix("la", "test", " news");
    assert "la" + "test" + " news" == "latest news";
    assert AdmissionsKeywords[8] == "test";
  }

  datatype Routed = Routed(manager: Sessions.Manager, specialist: Specialist, confidence: Confidence)

  /** `route_to_specialist`: classifies, records the routing decision in the
      session when a non-empty session id is given, counts the route, and
      reports high confidence exactly when a specialist agent was chosen. */
  function RouteToSpecialist(m: Sessions.Manager, query: string, sessionId: Option<string>, now: int): (r: Routed)
    ensures r.specialist == Classify(query)
    ensures r.confidence == High <==> r.specialist != General
    ensures Obs.Counter(r.manager.metrics, RoutedCounter(r.specialist))
         == Obs.Counter(Recorded(m, query, sessionId, r.specialist, now).metrics, RoutedCounter(r.specialist)) + 1
    ensures r.manager.sessions == Recorded(m, query, sessionId, r.specialist, now).sessions
    ensures r.manager.bank == Recorded(m, query, sessionId, r.specialist, now).bank
    ensures sessionId.None? || sessionId.value == "" ==> r.manager.sessions == m.sessions && r.manager.bank == m.bank
  {
    var s := Classify(query);
    var m1 := Recorded(m, query, sessionId, s, now);
    Routed(m1.(metrics := Obs.IncrementCounter(m1.metrics, RoutedCounter(s), 1)), s, ConfidenceOf(s))
  }

  /** Routing is confident exactly when some keyword of any specialist occurs
      in the lowercased query. */
  lemma {:induction false} ConfidentIffKeyword(m: Sessions.Manager, query: string, sessionId: Option<string>, now: int)
    ensures var q := Lower(query);
            RouteToSpecialist(m, query, sessionId, now).confidence == High
            <==> AnyContained(q, AdmissionsKeywords) || AnyContained(q, AcademicsKeywords)
                 || AnyContained(q, FinancialKeywords)
  {
    var s := Classify(query);
    assert s == General <==>
             !AnyContained(Lower(query), AdmissionsKeywords) && !AnyContained(Lower(query), AcademicsKeywords)
             && !AnyContained(Lower(query), FinancialKeywords);
  }

  /** The routing record: a "routing" interaction whose agent response names
      the specialist, stored only for a non-empty session id. */
  function Recorded(m: Sessions.Manager, query: string, sessionId: Option<string>, s: Specialist, now: int): (r: Sessions.Manager)
    ensures sessionId.None? || sessionId.value == "" ==> r == m
    ensures sessionId.Some? && sessionId.value != "" ==>
              r == Sessions.RecordInteraction(m, sessionId.value, "routing", query, Some("Routed to " + Name(s)), now)
  {
    if sessionId.Some? && sessionId.value != "" then
      Sessions.RecordInteraction(m, sessionId.value, "routing", query, Some("Routed to " + Name(s)), now)
    else m
  }

  // ---------------------------------------------------------------------
  // handle_multi_agent_query
  // ---------------------------------------------------------------------

  /** Which agent is asked, in which capacity. */
  datatype Role = Primary | AcademicView | FinancialView

  datatype AgentCall = AgentCall(role: Role, agent: Specialist, prompt: string)

  /** What each agent would answer if asked: its reply, or the message of the
      exception its run raised. */
  datatype Answers = Answers(primary: Result<string, string>, academic: Result<string, string>, financial: Result<string, string>)

  function PrimaryPrompt(query: string, summary: string): string {
    "Student query: " + query + "\n\nStudent context: " + summary
  }

  function AcademicPrompt(query: string): string {
    "Provide academic perspective on: " + query
  }

  function FinancialPrompt(query: string): string {
    "Provide cost/financial aid information for: " + query
  }

  /** The primary specialist's entry: its reply, or the error text in its place. */
  function PrimaryText(a: Result<string, string>): string {
    match a
    case Ok(t) => t
    case Err(e) => "Error: " + e
  }

  predicate IsComplex(query: string) {
    AnyContained(Lower(query), ComplexKeywords)
  }

  predicate MentionsProgram(query: string) {
    Contains(Lower(query), "program")
  }

  /** A query mentioning "program" is always complex, so the financial view
      is asked for exactly when "program" appears and financial aid is not
      the primary specialist. */
  lemma ProgramIsComplex(query: string)
    ensures MentionsProgram(query) ==> IsComplex(query)
  {
    assert ComplexKeywords[0] == "program";
  }

  predicate AskAcademic(query: string, s: Specialist) {
    IsComplex(query) && s != Academics
  }

  predicate AskFinancial(query: string, s: Specialist) {
    IsComplex(query) && MentionsProgram(query) && s != FinancialAid
  }

  /** The agent and prompt that go with each capacity. */
  predicate CallFits(c: AgentCall, query: string, summary: string, s: Specialist) {
    match c.role
    case Primary => c.agent == s && c.prompt == PrimaryPrompt(query, summary)
    case AcademicView => c.agent == Academics && c.prompt == AcademicPrompt(query)
    case FinancialView => c.agent == FinancialAid && c.prompt == FinancialPrompt(query)
  }

  /** How many agents a query asks: the primary specialist when there is
      one, and each perspective that applies. */
  function Asked(query: string, s: Specialist): nat {
    (if s != General then 1 else 0) + (if AskAcademic(query, s) then 1 else 0)
    + (if AskFinancial(query, s) then 1 else 0)
  }

  predicate HasRole(calls: seq<AgentCall>, role: Role) {
    exists i :: 0 <= i < |calls| && calls[i].role == role
  }

  /** The agent calls of one query, in order: the primary specialist when
      there is one, then the academic and the financial perspective. */
  function Calls(query: string, summary: string, s: Specialist): (r: seq<AgentCall>)
    ensures |r| == Asked(query, s) && |r| <= 3
    ensures forall i :: 0 <= i < |r| ==> CallFits(r[i], query, summary, s)
  {
    (if s != General then [AgentCall(Primary, s, PrimaryPrompt(query, summary))] else [])
    + (if AskAcademic(query, s) then [AgentCall(AcademicView, Academics, AcademicPrompt(query))] else [])
    + (if AskFinancial(query, s) then [AgentCall(FinancialView, FinancialAid, FinancialPrompt(query))] else [])
  }

  /** Three optional calls, one per capacity, in order: each capacity is
      present exactly when its part is non-empty, and no two calls share one. */
  lemma RolesOfParts(ps: seq<AgentCall>, acs: seq<AgentCall>, fs: seq<AgentCall>)
    requires |ps| <= 1 && |acs| <= 1 && |fs| <= 1
    requires |ps| == 1 ==> ps[0].role == Primary
    requires |acs| == 1 ==> acs[0].role == AcademicView
    requires |fs| == 1 ==> fs[0].role == FinancialView
    ensures HasRole(ps + acs + fs, Primary) <==> |ps| == 1
    ensures HasRole(ps + acs + fs, AcademicView) <==> |acs| == 1
    ensures HasRole(ps + acs + fs, FinancialView) <==> |fs| == 1
    ensures forall i, j :: 0 <= i < j < |ps + acs + fs| ==> (ps + acs + fs)[i].role != (ps + acs + fs)[j].role
  {
    var r := ps + acs + fs;
    assert forall i :: 0 <= i < |r| ==>
      (i < |ps| ==> r[i] == ps[i]) && (|ps| <= i < |ps| + |acs| ==> r[i] == acs[i - |ps|])
      && (|ps| + |acs| <= i ==> r[i] == fs[i - |ps| - |acs|]);
    if |ps| == 1 {
      assert r[0].role == Primary;
    }
    if |acs| == 1 {
      assert r[|ps|].role == AcademicView;
    }
    if |fs| == 1 {
      assert r[|ps| + |acs|].role == FinancialView;
    }
  }

  /** Each capacity is asked at most once, and exactly when its rule holds. */
  lemma CallsRoles(query: string, summary: string, s: Specialist)
    ensures var r := Calls(query, summary, s);
            && (HasRole(r, Primary) <==> s != General)
            && (HasRole(r, AcademicView) <==> AskAcademic(query, s))
            && (HasRole(r, FinancialView) <==> AskFinancial(query, s))
            && (forall i, j :: 0 <= i < j < |r| ==> r[i].role != r[j].role)
  {
    RolesOfParts(
      if s != General then [AgentCall(Primary, s, PrimaryPrompt(query, summary))] else [],
      if AskAcademic(query, s) then [AgentCall(AcademicView, Academics, AcademicPrompt(query))] else [],
      if AskFinancial(query, s) then [AgentCall(FinancialView, FinancialAid, FinancialPrompt(query))] else []);
  }

  lemma ResponseKeysDistinct()
    ensures Name(Admissions) != AcademicsPerspective && Name(Academics) != AcademicsPerspective
    ensures Name(FinancialAid) != AcademicsPerspective
    ensures Name(Admissions) != FinancialPerspective && Name(Academics) != FinancialPerspective
    ensures Name(FinancialAid) != FinancialPerspective
    ensures AcademicsPerspective != FinancialPerspective
  {
    assert |Name(Admissions)| != |AcademicsPerspective|;
    assert |Name(Academics)| != |AcademicsPerspective|;
    assert |Name(FinancialAid)| != |AcademicsPerspective|;
    assert |Name(Admissions)| != |FinancialPerspective|;
    assert |Name(Academics)| != |FinancialPerspective|;
    assert |Name(FinancialAid)| != |FinancialPerspective|;
    assert AcademicsPerspective[0] != FinancialPerspective[0];
  }

  /** The responses dict of one query: the primary specialist's reply (its
      failure recorded as text), then each perspective only when the agent
      answered. */
  function Responses(query: string, s: Specialist, answers: Answers): (r: map<string, string>)
    ensures |r| <= Asked(query, s)
    ensures s != General ==> Name(s) in r && r[Name(s)] == PrimaryText(answers.primary)
    ensures AcademicsPerspective in r <==> AskAcademic(query, s) && answers.academic.Ok?
    ensures AcademicsPerspective in r ==> r[AcademicsPerspective] == answers.academic.value
    ensures FinancialPerspective in r <==> AskFinancial(query, s) && answers.financial.Ok?
    ensures FinancialPerspective in r ==> r[FinancialPerspective] == answers.financial.value
    ensures forall k :: k in r ==> (s != General && k == Name(s)) || k == AcademicsPerspective || k == FinancialPerspective
  {
    ResponseKeysDistinct();
    var r0: map<string, string> := if s != General then map[Name(s) := PrimaryText(answers.primary)] else map[];
    var r1 := if AskAcademic(query, s) && answers.academic.Ok? then r0[AcademicsPerspective := answers.academic.value] else r0;
    var r2 := if AskFinancial(query, s) && answers.financial.Ok? then r1[FinancialPerspective := answers.financial.value] else r1;
    assert |r0| == if s != General then 1 else 0;
    r2
  }

  datatype Envelope =
    | Success(query: string, primary: Specialist, sessionId: string, studentContext: string, responses: map<string, string>)
    | Failure(message: string)

  datatype Handled = Handled(manager: Sessions.Manager, envelope: Envelope, calls: seq<AgentCall>)

  datatype Resolved = Resolved(manager: Sessions.Manager, sessionId: string, error: Option<string>)

  /** A missing or empty session id opens a new anonymous session; the error
      is the one `create_session` raised after registering it, if any. */
  function ResolveSession(reading: Memory.TopicReading, m: Sessions.Manager, sessionId: Option<string>,
                          freshId: string, now: int): (r: Resolved)
    ensures r.manager.bank.history == m.bank.history
    ensures sessionId.Some? && sessionId.value != "" ==> r == Resolved(m, sessionId.value, None)
    ensures sessionId.None? || sessionId.value == "" ==>
              && r.sessionId == freshId && freshId in r.manager.sessions
              && r.manager.sessions[freshId].studentId == Sessions.AnonymousId(freshId)
              && (r.error.Some? <==>
                    reading.AsWritten? && Memory.NullTopicInSummary(Memory.History(m.bank, Sessions.AnonymousId(freshId))))
  {
    if sessionId.None? || sessionId.value == "" then
      var c := Sessions.CreateSession(reading, m, None, freshId, now);
      Resolved(c.manager, c.sessionId, c.error)
    else
      Resolved(m, sessionId.value, None)
  }

  function ProcessedBy(n: nat): string {
    "Processed by " + NatToString(n) + " agents"
  }

  /** Reading the student's context touches (or creates) the profile and
      nothing else: sessions and histories stay as they were. */
  function ReadContext(m: Sessions.Manager, studentId: string, now: int): (r: Sessions.Manager)
    ensures r.sessions == m.sessions && r.bank.history == m.bank.history
    ensures studentId in r.bank.profiles && r.bank.profiles[studentId].lastActive == now
  {
    var g := Memory.GetOrCreateProfile(m.bank, m.metrics, studentId, now);
    m.(bank := g.bank, metrics := g.metrics)
  }

  /** Routing (which records its decision) and then the closing record. */
  function RouteAndClose(m: Sessions.Manager, query: string, sid: string, now: int, answered: nat): Sessions.Manager {
    var routed := RouteToSpecialist(m, query, Some(sid), now);
    Sessions.RecordInteraction(routed.manager, sid, "multi_agent_query", query, Some(ProcessedBy(answered)), now)
  }

  /** After a query answered in session `sid`, whose state before was `s`:
      the session's count is up by two, and the routing record, then the
      closing record naming how many agents answered, are the two newest
      entries of its student. */
  ghost predicate RecordedTwice(s: Sessions.Session, r: Sessions.Manager, sid: string, query: string, now: int,
                                answered: nat)
  {
    var h := Memory.History(r.bank, s.studentId);
    && sid in r.sessions
    && r.sessions[sid].studentId == s.studentId
    && r.sessions[sid].interactionCount == s.interactionCount + 2
    && |h| >= 2
    && h[|h| - 2] == Memory.Interaction(now, "routing", query,
         Memory.SessionMetadata(sid, Some("Routed to " + Name(Classify(query))), s.currentTopic))
    && h[|h| - 1] == Memory.Interaction(now, "multi_agent_query", query,
         Memory.SessionMetadata(sid, Some(ProcessedBy(answered)), s.currentTopic))
  }

  /** The routing decision and then the closing record naming how many
      agents answered are recorded, as the two newest entries of the
      session's student, and the completed-queries counter goes up. */
  function RecordAnswer(m: Sessions.Manager, query: string, sid: string, now: int, answered: nat): (r: Sessions.Manager)
    ensures sid != "" && sid in m.sessions ==> RecordedTwice(m.sessions[sid], r, sid, query, now, answered)
  {
    var m2 := RouteAndClose(m, query, sid, now, answered);
    RouteAndCloseRecordsTwice(m, query, sid, now, answered);
    m2.(metrics := Obs.IncrementCounter(m2.metrics, QueriesCompleted, 1))
  }

  /** The exception handler of `handle_multi_agent_query`: an error envelope
      carrying the exception's text, counted, with no agent asked. */
  function Fail(m: Sessions.Manager, message: string): (r: Handled)
    ensures r.envelope == Failure(message) && r.calls == []
    ensures r.manager.sessions == m.sessions && r.manager.bank == m.bank
    ensures Obs.Counter(r.manager.metrics, QueryErrors) == Obs.Counter(m.metrics, QueryErrors) + 1
  {
    Handled(m.(metrics := Obs.IncrementCounter(m.metrics, QueryErrors, 1)), Failure(message), [])
  }

  /** The part of `handle_multi_agent_query` after the context summary is
      known: routing, agent calls, the closing record and its counter. */
  function Answer(m: Sessions.Manager, query: string, sid: string, summary: string,
                  now: int, answers: Answers): (r: Handled)
    ensures r.envelope.Success? && r.envelope.sessionId == sid && r.envelope.query == query
    ensures r.envelope.studentContext == summary
    ensures r.envelope.primary == Classify(query)
    ensures r.calls == Calls(query, summary, Classify(query))
    ensures r.envelope.responses == Responses(query, Classify(query), answers)
    ensures r.manager == RecordAnswer(m, query, sid, now, |r.envelope.responses|)
  {
    var specialist := Classify(query);
    var responses := Responses(query, specialist, answers);
    Handled(RecordAnswer(m, query, sid, now, |responses|),
            Success(query, specialist, sid, summary, responses),
            Calls(query, summary, specialist))
  }

  /** The student a resolved session belongs to, when it is known. */
  predicate Known(res: Resolved) {
    res.error.None? && res.sessionId in res.manager.sessions
  }

  /** `handle_multi_agent_query` once the session id is settled: the lookup
      of the session's student raises for an unknown id, the context summary
      may raise, and otherwise the query is answered with that summary. */
  function QuerySession(reading: Memory.TopicReading, m: Sessions.Manager, query: string, sid: string,
                        now: int, answers: Answers): (r: Handled)
    ensures r.envelope.Failure? <==>
              sid !in m.sessions
              || (reading.AsWritten? && Memory.NullTopicInSummary(Memory.History(m.bank, m.sessions[sid].studentId)))
    ensures r.envelope.Failure? ==>
              && r.calls == []
              && r.manager.sessions.Keys == m.sessions.Keys
              && r.manager.bank.history == m.bank.history
              && Obs.Counter(r.manager.metrics, QueryErrors) == Obs.Counter(m.metrics, QueryErrors) + 1
    ensures sid !in m.sessions ==> r.envelope == Failure(NotSubscriptable)
    ensures sid in m.sessions && r.envelope.Failure? ==>
              r.envelope.message == Memory.NullTopicError(Memory.History(m.bank, m.sessions[sid].studentId))
    ensures r.envelope.Success? ==>
              var student := m.sessions[sid].studentId;
              var profile := Memory.GetOrCreateProfile(m.bank, m.metrics, student, now).value;
              && r.envelope.sessionId == sid
              && r.envelope.primary == Classify(query)
              && r.envelope.studentContext
                 == Memory.ContextSummary(profile, Last(Memory.History(m.bank, student), Memory.RecentWindow))
              && r.calls == Calls(query, r.envelope.studentContext, Classify(query))
              && r.envelope.responses == Responses(query, Classify(query), answers)
  {
    var look := Sessions.GetSession(m, sid, now);
    if look.session.None? then Fail(look.manager, NotSubscriptable)
    else
      var student := look.session.value.studentId;
      assert look.manager.bank == m.bank && look.manager.metrics == m.metrics;
      var ctx := Memory.GetStudentContext(reading, m.bank, m.metrics, student, now);
      var mc := ReadContext(look.manager, student, now);
      assert mc.metrics == ctx.metrics;
      if ctx.value.Err? then Fail(mc, ctx.value.error)
      else Answer(mc, query, sid, ctx.value.value.summary, now, answers)
  }

  /** `handle_multi_agent_query`. Three steps can raise, each turned into a
      counted error envelope: `create_session` (its own context summary), the
      lookup of an unknown session's student, and the context summary of the
      session's student. */
  function HandleQuery(reading: Memory.TopicReading, m: Sessions.Manager, query: string,
                       sessionId: Option<string>, freshId: string, now: int, answers: Answers): (r: Handled)
    ensures var res := ResolveSession(reading, m, sessionId, freshId, now);
            && (r.envelope.Failure? <==>
                  !Known(res)
                  || (reading.AsWritten? &&
                      Memory.NullTopicInSummary(Memory.History(m.bank, res.manager.sessions[res.sessionId].studentId))))
            && (r.envelope.Failure? ==>
                  && r.calls == []
                  && r.manager.sessions.Keys == res.manager.sessions.Keys
                  && r.manager.bank.history == m.bank.history
                  && Obs.Counter(r.manager.metrics, QueryErrors) == Obs.Counter(res.manager.metrics, QueryErrors) + 1)
            && (res.error.Some? ==> r.envelope == Failure(res.error.value))
            && (res.error.None? && res.sessionId !in res.manager.sessions ==> r.envelope == Failure(NotSubscriptable))
            && (Known(res) && r.envelope.Failure? ==>
                  r.envelope.message
                  == Memory.NullTopicError(Memory.History(m.bank, res.manager.sessions[res.sessionId].studentId)))
    ensures var res := ResolveSession(reading, m, sessionId, freshId, now);
            r.envelope.Success? ==>
              && Known(res)
              && r == QuerySession(reading, res.manager, query, res.sessionId, now, answers)
  {
    var res := ResolveSession(reading, m, sessionId, freshId, now);
    if res.error.Some? then Fail(res.manager, res.error.value)
    else QuerySession(reading, res.manager, query, res.sessionId, now, answers)
  }

  /** A query without a session id succeeds, reporting the new session's id,
      unless the anonymous student's newest entries already hold a null topic
      and the summary is read as written. */
  lemma NoSessionIdNeverFails(reading: Memory.TopicReading, m: Sessions.Manager, query: string, freshId: string,
                              now: int, answers: Answers)
    requires reading.Corrected? || !Memory.NullTopicInSummary(Memory.History(m.bank, Sessions.AnonymousId(freshId)))
    ensures var r := HandleQuery(reading, m, query, None, freshId, now, answers);
            r.envelope.Success? && r.envelope.sessionId == freshId
  {
  }

  /** One `record_interaction` on a known session: its count goes up by one
      and the interaction becomes the newest entry of its student. */
  lemma RecordStep(m: Sessions.Manager, sid: string, kind: string, query: string, note: Option<string>, now: int)
    requires sid in m.sessions
    ensures var r := Sessions.RecordInteraction(m, sid, kind, query, note, now);
            var s := m.sessions[sid];
            && sid in r.sessions
            && r.sessions[sid].studentId == s.studentId && r.sessions[sid].sessionId == s.sessionId
            && r.sessions[sid].currentTopic == s.currentTopic
            && r.sessions[sid].interactionCount == s.interactionCount + 1
            && Memory.History(r.bank, s.studentId)
               == Last(Memory.History(m.bank, s.studentId)
                       + [Memory.Interaction(now, kind, query, Memory.SessionMetadata(sid, note, s.currentTopic))],
                       Memory.HistoryCap)
  {
    Sessions.RecordInteractionHistory(m, sid, kind, query, note, now);
  }

  /** Answering records the routing decision and the closing record, in
      that order, as the two newest entries of the session's student. */
  lemma RouteAndCloseRecordsTwice(m: Sessions.Manager, query: string, sid: string, now: int, answered: nat)
    ensures sid != "" && sid in m.sessions ==>
              var r := RouteAndClose(m, query, sid, now, answered);
              && RecordedTwice(m.sessions[sid], r, sid, query, now, answered)
              && RecordedTwice(m.sessions[sid], r.(metrics := Obs.IncrementCounter(r.metrics, QueriesCompleted, 1)),
                               sid, query, now, answered)
  {
    if sid == "" || sid !in m.sessions {
      return;
    }
    var s := m.sessions[sid];
    var routedNote := Some("Routed to " + Name(Classify(query)));
    var doneNote := Some(ProcessedBy(answered));
    var m1 := RouteToSpecialist(m, query, Some(sid), now).manager;
    RecordStep(m, sid, "routing", query, routedNote, now);
    var e1 := Memory.Interaction(now, "routing", query, Memory.SessionMetadata(sid, routedNote, s.currentTopic));
    var h1 := Memory.History(m1.bank, s.studentId);
    assert h1 == Last(Memory.History(m.bank, s.studentId) + [e1], Memory.HistoryCap);
    var s1 := m1.sessions[sid];
    assert s1.studentId == s.studentId && s1.sessionId == s.sessionId && s1.currentTopic == s.currentTopic;
    assert s1.interactionCount == s.interactionCount + 1;
    var m2 := Sessions.RecordInteraction(m1, sid, "multi_agent_query", query, doneNote, now);
    RecordStep(m1, sid, "multi_agent_query", query, doneNote, now);
    var e2 := Memory.Interaction(now, "multi_agent_query", query, Memory.SessionMetadata(sid, doneNote, s.currentTopic));
    assert Memory.History(m2.bank, s.studentId) == Last(h1 + [e2], Memory.HistoryCap);
    LastAppendTwo(Memory.History(m.bank, s.studentId), e1, e2, Memory.HistoryCap);
  }

  /** A query in an existing session records two interactions in it: the
      routing decision, then the closing record naming how many agents
      answered, which become the two newest entries of the student's history.
      This holds whenever the context summary does not raise. */
  lemma ExistingSessionRecordsTwice(reading: Memory.TopicReading, m: Sessions.Manager, query: string, sid: string,
                                    freshId: string, now: int, answers: Answers)
    requires sid != "" && sid in m.sessions
    requires reading.Corrected? || !Memory.NullTopicInSummary(Memory.History(m.bank, m.sessions[sid].studentId))
    ensures var r := HandleQuery(reading, m, query, Some(sid), freshId, now, answers);
            && r.envelope.Success?
            && RecordedTwice(m.sessions[sid], r.manager, sid, query, now, |r.envelope.responses|)
  {
    var s := m.sessions[sid];
    var r := HandleQuery(reading, m, query, Some(sid), freshId, now, answers);
    assert r == QuerySession(reading, m, query, sid, now, answers);
    KnownQueryIsAnswered(reading, m, query, sid, now, answers);
    var mc := ReadContext(Sessions.GetSession(m, sid, now).manager, s.studentId, now);
    AnsweredFromStamped(mc, s, r.manager, query, sid, now, |r.envelope.responses|);
  }

  /** `RecordAnswer`'s facts, stated for the session as it was before its
      activity was stamped: stamping changes none of the fields they use. */
  lemma AnsweredFromStamped(mc: Sessions.Manager, s: Sessions.Session, r: Sessions.Manager, query: string, sid: string,
                            now: int, n: nat)
    requires sid != "" && sid in mc.sessions && mc.sessions[sid] == s.(lastActivity := now)
    requires r == RecordAnswer(mc, query, sid, now, n)
    ensures RecordedTwice(s, r, sid, query, now, n)
  {
    assert RecordedTwice(mc.sessions[sid], r, sid, query, now, n);
  }

  /** In a known session whose summary does not raise, the query is answered
      and the store is the one after both records, starting from the looked-up
      session with its activity stamped. */
  lemma KnownQueryIsAnswered(reading: Memory.TopicReading, m: Sessions.Manager, query: string, sid: string,
                             now: int, answers: Answers)
    requires sid in m.sessions
    requires reading.Corrected? || !Memory.NullTopicInSummary(Memory.History(m.bank, m.sessions[sid].studentId))
    ensures var r := QuerySession(reading, m, query, sid, now, answers);
            var mc := ReadContext(Sessions.GetSession(m, sid, now).manager, m.sessions[sid].studentId, now);
            && r.envelope.Success?
            && r.manager == RecordAnswer(mc, query, sid, now, |r.envelope.responses|)
            && mc.sessions[sid] == m.sessions[sid].(lastActivity := now)
  {
    var s := m.sessions[sid];
    var look := Sessions.GetSession(m, sid, now);
    assert look.session == Some(s.(lastActivity := now));
    var ctx := Memory.GetStudentContext(reading, m.bank, m.metrics, s.studentId, now);
    var mc := ReadContext(look.manager, s.studentId, now);
    assert QuerySession(reading, m, query, sid, now, answers) == Answer(mc, query, sid, ctx.value.value.summary, now, answers);
  }

  /** The code as written: a session without a topic (every session the
      handler opens) answers its first query, whose records store a null
      topic, and then fails every later query with the join error. Read as
      intended, the same second query succeeds. */
  lemma NullTopicFailsSecondQuery(m: Sessions.Manager, sid: string, freshId: string, now: int, later: int,
                                  query: string, answers: Answers, query2: string, answers2: Answers)
    requires sid != "" && sid in m.sessions && m.sessions[sid].currentTopic.None?
    requires !Memory.NullTopicInSummary(Memory.History(m.bank, m.sessions[sid].studentId))
    ensures var r1 := HandleQuery(Memory.AsWritten, m, query, Some(sid), freshId, now, answers);
            var r2 := HandleQuery(Memory.AsWritten, r1.manager, query2, Some(sid), freshId, later, answers2);
            var c2 := HandleQuery(Memory.Corrected, r1.manager, query2, Some(sid), freshId, later, answers2);
            && r1.envelope.Success?
            && r2.envelope.Failure? && r2.calls == []
            && Obs.Counter(r2.manager.metrics, QueryErrors) == Obs.Counter(r1.manager.metrics, QueryErrors) + 1
            && c2.envelope.Success?
  {
    var s := m.sessions[sid];
    ExistingSessionRecordsTwice(Memory.AsWritten, m, query, sid, freshId, now, answers);
    var r1 := HandleQuery(Memory.AsWritten, m, query, Some(sid), freshId, now, answers);
    AnsweredLeavesNullTopic(s, r1.manager, sid, query, now, |r1.envelope.responses|);
    var m1 := r1.manager;
    assert ResolveSession(Memory.AsWritten, m1, Some(sid), freshId, later) == Resolved(m1, sid, None);
    assert ResolveSession(Memory.Corrected, m1, Some(sid), freshId, later) == Resolved(m1, sid, None);
  }

  /** Answering in a session without a topic leaves a null topic as the
      student's newest entry, inside the summary's window. */
  lemma AnsweredLeavesNullTopic(s: Sessions.Session, r: Sessions.Manager, sid: string, query: string, now: int, n: nat)
    requires s.currentTopic.None? && RecordedTwice(s, r, sid, query, now, n)
    ensures sid in r.sessions && r.sessions[sid].studentId == s.studentId
    ensures Memory.NullTopicInSummary(Memory.History(r.bank, s.studentId))
  {
    var h := Memory.History(r.bank, s.studentId);
    LastKeepsFinal(h, Memory.SummaryWindow);
    var last := Last(h, Memory.SummaryWindow);
    assert Memory.HasNullTopic(last[|last| - 1]);
  }

  /** Read as intended, a query naming a session fails exactly when the
      session is unknown. */
  lemma CorrectedQueryNeedsOnlyKnownSession(m: Sessions.Manager, query: string, sid: string, freshId: string,
                                            now: int, answers: Answers)
    requires sid != ""
    ensures var r := HandleQuery(Memory.Corrected, m, query, Some(sid), freshId, now, answers);
            && (r.envelope.Success? <==> sid in m.sessions)
            && (r.envelope.Failure? ==> r.envelope.message == NotSubscriptable)
  {
  }

  // ---------------------------------------------------------------------
  // get_agent_metrics
  // ---------------------------------------------------------------------

  datatype AgentMetrics = AgentMetrics(
    system: Obs.MetricsReport,
    recentTraces: seq<Obs.Trace>,
    activeSessions: nat,
    totalStudents: nat)

  /** `get_agent_metrics`: the metrics report, the ten newest traces, and the
      numbers of live sessions and known students. */
  function GetAgentMetrics(m: Sessions.Manager, t: Obs.Tracer): (r: AgentMetrics)
    ensures r.system == Obs.GetMetrics(m.metrics)
    ensures r.recentTraces == Obs.GetTraces(t, Some(10))
    ensures r.activeSessions == |m.sessions.Keys| && r.totalStudents == |m.bank.profiles.Keys|
    ensures |r.recentTraces| == if |t.traces| < 10 then |t.traces| else 10
    ensures forall x, y :: x in multiset(t.traces) - multiset(r.recentTraces) && y in r.recentTraces ==>
              x.startTime <= y.startTime
  {
    AgentMetrics(Obs.GetMetrics(m.metrics), Obs.GetTraces(t, Some(10)), |m.sessions.Keys|, |m.bank.profiles.Keys|)
  }

  /** A session created under a new id is reported at once: one more live
      session, and one more student when the student was unknown. */
  lemma CreatedSessionIsReported(reading: Memory.TopicReading, m: Sessions.Manager, studentId: Option<string>,
                                 freshId: string, now: int, t: Obs.Tracer)
    requires freshId !in m.sessions
    ensures var c := Sessions.CreateSession(reading, m, studentId, freshId, now);
            var before := GetAgentMetrics(m, t);
            var after := GetAgentMetrics(c.manager, t);
            var student := Sessions.SessionStudent(studentId, freshId);
            && after.activeSessions == before.activeSessions + 1
            && after.totalStudents == before.totalStudents + (if student in m.bank.profiles then 0 else 1)
            && Sessions.SessionsCreated in after.system.counters
            && after.system.counters[Sessions.SessionsCreated] == Obs.Counter(m.metrics, Sessions.SessionsCreated) + 1
            && after.recentTraces == before.recentTraces
  {
    var c := Sessions.CreateSession(reading, m, studentId, freshId, now);
    var student := Sessions.SessionStudent(studentId, freshId);
    assert c.manager.sessions.Keys == m.sessions.Keys + {freshId};
    var g := Memory.GetOrCreateProfile(m.bank, Obs.IncrementCounter(m.metrics, Sessions.SessionsCreated, 1), student, now);
    assert c.manager.bank.profiles.Keys == m.bank.profiles.Keys + {student};
  }
}

=== FILE: ranking.dfy ===
/** Python's `sorted(xs, key=k, reverse=True)` and `xs.sort(key=k, reverse=True)`:
    a stable sort, highest key first, where items with equal keys keep the
    order they had in the input. */
module Ranking {

  predicate SortedDesc<T>(s: seq<T>, key: T -> int) {
    forall i, j :: 0 <= i < j < |s| ==> key(s[i]) >= key(s[j])
  }

  /** The items of `s` whose key is `k`, in their order in `s`. Stability
      means this subsequence is the same before and after sorting. */
  function WithKey<T>(s: seq<T>, key: T -> int, k: int): seq<T>
    decreases |s|
  {
    if |s| == 0 then []
    else (if key(s[0]) == k then [s[0]] else []) + WithKey(s[1..], key, k)
  }

  /** Puts `x` in front of the first item whose key is not above its own. */
  function Insert<T>(x: T, s: seq<T>, key: T -> int): (r: seq<T>)
    ensures |r| == |s| + 1
    decreases |s|
  {
    if |s| == 0 || key(s[0]) <= key(x) then [x] + s
    else [s[0]] + Insert(x, s[1..], key)
  }

  lemma {:induction false} InsertMultiset<T>(x: T, s: seq<T>, key: T -> int)
    ensures multiset(Insert(x, s, key)) == multiset(s) + multiset{x}
    decreases |s|
  {
    if |s| == 0 || key(s[0]) <= key(x) {
    } else {
      InsertMultiset(x, s[1..], key);
      assert s == [s[0]] + s[1..];
    }
  }

  lemma {:induction false} InsertSorted<T>(x: T, s: seq<T>, key: T -> int)
    requires SortedDesc(s, key)
    ensures SortedDesc(Insert(x, s, key), key)
    decreases |s|
  {
    if |s| == 0 || key(s[0]) <= key(x) {
    } else {
      var rest := Insert(x, s[1..], key);
      InsertSorted(x, s[1..], key);
      InsertMultiset(x, s[1..], key);
      forall j | 0 <= j < |rest| ensures key(s[0]) >= key(rest[j]) {
        assert rest[j] in multiset(rest);
        if rest[j] != x {
          assert rest[j] in multiset(s[1..]);
          var k :| 0 <= k < |s[1..]| && s[1..][k] == rest[j];
          assert s[1..][k] == s[k + 1];
        }
      }
    }
  }

  lemma WithKeyCons<T>(y: T, r: seq<T>, key: T -> int, k: int)
    ensures WithKey([y] + r, key, k) == (if key(y) == k then [y] else []) + WithKey(r, key, k)
  {
    assert ([y] + r)[0] == y;
    assert ([y] + r)[1..] == r;
  }

  lemma {:induction false} InsertWithKey<T>(x: T, s: seq<T>, key: T -> int, k: int)
    ensures WithKey(Insert(x, s, key), key, k)
         == (if key(x) == k then [x] else []) + WithKey(s, key, k)
    decreases |s|
  {
    if |s| == 0 || key(s[0]) <= key(x) {
      WithKeyCons(x, s, key, k);
    } else {
      var r := Insert(x, s[1..], key);
      InsertWithKey(x, s[1..], key, k);
      WithKeyCons(s[0], r, key, k);
      WithKeyCons(s[0], s[1..], key, k);
      assert s == [s[0]] + s[1..];
      if key(s[0]) == k {
        assert key(x) != k;
      }
    }
  }

  lemma WithKeysCons<T>(y: T, r: seq<T>, key: T -> int)
    ensures forall k :: WithKey([y] + r, key, k) == (if key(y) == k then [y] else []) + WithKey(r, key, k)
  {
    forall k ensures WithKey([y] + r, key, k) == (if key(y) == k then [y] else []) + WithKey(r, key, k) {
      WithKeyCons(y, r, key, k);
    }
  }

  lemma InsertWithKeys<T>(x: T, s: seq<T>, key: T -> int)
    ensures forall k :: WithKey(Insert(x, s, key), key, k)
                     == (if key(x) == k then [x] else []) + WithKey(s, key, k)
  {
    forall k ensures WithKey(Insert(x, s, key), key, k)
                  == (if key(x) == k then [x] else []) + WithKey(s, key, k) {
      InsertWithKey(x, s, key, k);
    }
  }

  /** Stable descending sort: sorted by key, a permutation of the input, and
      every run of equal keys in input order. */
  function SortDesc<T>(s: seq<T>, key: T -> int): (r: seq<T>)
    ensures |r| == |s|
    ensures SortedDesc(r, key)
    ensures multiset(r) == multiset(s)
    ensures forall k :: WithKey(r, key, k) == WithKey(s, key, k)
    decreases |s|
  {
    if |s| == 0 then []
    else
      var rest := SortDesc(s[1..], key);
      InsertSorted(s[0], rest, key);
      InsertMultiset(s[0], rest, key);
      InsertWithKeys(s[0], rest, key);
      WithKeysCons(s[0], s[1..], key);
      assert [s[0]] + s[1..] == s;
      Insert(s[0], rest, key)
  }

  /** The equal-key items of a prefix come first among those of the whole. */
  lemma {:induction false} WithKeyOfPrefix<T>(s: seq<T>, key: T -> int, k: int, n: nat)
    requires n <= |s|
    ensures WithKey(s[..n], key, k) <= WithKey(s, key, k)
    decreases n
  {
    if n > 0 {
      assert s[..n][1..] == s[1..][..n - 1];
      WithKeyOfPrefix(s[1..], key, k, n - 1);
    }
  }

  lemma SuffixBelowPrefix<T>(s: seq<T>, key: T -> int, n: nat)
    requires SortedDesc(s, key) && n <= |s|
    ensures forall x, y :: x in s[n..] && y in s[..n] ==> key(x) <= key(y)
  {
    forall x, y | x in s[n..] && y in s[..n] ensures key(x) <= key(y) {
      var j :| 0 <= j < |s[n..]| && s[n..][j] == x;
      var i :| 0 <= i < n && s[..n][i] == y;
      assert s[n + j] == x && s[i] == y;
    }
  }

  /** Keeping a prefix of a descending sequence keeps its top items: every
      item left out ranks no higher than any item kept. */
  lemma PrefixOfSortedKeepsTop<T>(s: seq<T>, key: T -> int, n: nat)
    requires SortedDesc(s, key) && n <= |s|
    ensures SortedDesc(s[..n], key)
    ensures multiset(s[..n]) <= multiset(s)
    ensures forall x, y :: x in multiset(s) - multiset(s[..n]) && y in s[..n] ==> key(x) <= key(y)
  {
    var pre, post := s[..n], s[n..];
    assert s == pre + post;
    assert multiset(s) - multiset(pre) == multiset(post);
    SuffixBelowPrefix(s, key, n);
  }
}

=== FILE: sessions.dfy ===
/** The session manager: live sessions keyed by id, each bound to a student,
    on top of the memory bank and the shared metrics. Clock readings are
    integer seconds passed in by the caller, one per operation, and the
    fresh session id a `uuid4` would produce is a parameter too. */
module Sessions {
  import opened Common
  import opened Text
  import Memory
  import Obs = Observability

  const SecondsPerHour: int := 3600
  const DefaultMaxAgeHours: int := 24

  const SessionsCreated := "sessions_created"
  const SessionsUpdated := "sessions_updated"
  const SessionsExpired := "sessions_expired"
  const AnonymousPrefix := "anonymous_"

  /** One entry of `active_sessions`. A session starts with no topic, and
      nothing in the manager ever sets one. */
  datatype Session = Session(
    sessionId: string,
    studentId: string,
    createdAt: int,
    lastActivity: int,
    interactionCount: int,
    currentTopic: Option<string>,
    agentContext: map<string, string>)

  /** The keys an `updates` dict may carry; `None` leaves a field as it is.
      A topic update is itself optional because the topic may be set to null. */
  datatype SessionUpdate = SessionUpdate(
    sessionId: Option<string>,
    studentId: Option<string>,
    createdAt: Option<int>,
    lastActivity: Option<int>,
    interactionCount: Option<int>,
    currentTopic: Option<Option<string>>,
    agentContext: Option<map<string, string>>)

  const NoChanges: SessionUpdate := SessionUpdate(None, None, None, None, None, None, None)

  datatype Manager = Manager(
    sessions: map<string, Session>,
    bank: Memory.MemoryBank,
    metrics: Obs.Metrics)

  /** `dict.update`: every key present in the update overwrites its field. */
  function Merge(s: Session, u: SessionUpdate): (r: Session)
    ensures u.sessionId.Some? ==> r.sessionId == u.sessionId.value
    ensures u.sessionId.None? ==> r.sessionId == s.sessionId
    ensures u.studentId.Some? ==> r.studentId == u.studentId.value
    ensures u.studentId.None? ==> r.studentId == s.studentId
    ensures u.interactionCount.Some? ==> r.interactionCount == u.interactionCount.value
    ensures u.interactionCount.None? ==> r.interactionCount == s.interactionCount
    ensures u.currentTopic.Some? ==> r.currentTopic == u.currentTopic.value
    ensures u.currentTopic.None? ==> r.currentTopic == s.currentTopic
  {
    Session(
      u.sessionId.GetOr(s.sessionId),
      u.studentId.GetOr(s.studentId),
      u.createdAt.GetOr(s.createdAt),
      u.lastActivity.GetOr(s.lastActivity),
      u.interactionCount.GetOr(s.interactionCount),
      u.currentTopic.GetOr(s.currentTopic),
      u.agentContext.GetOr(s.agentContext))
  }

  lemma MergeNoChanges(s: Session)
    ensures Merge(s, NoChanges) == s
  {
  }

  /** The id given to a session opened without a student id. */
  function AnonymousId(sessionId: string): (r: string)
    ensures |r| > 0 && AnonymousPrefix <= r
    ensures |r| == |AnonymousPrefix| + (if |sessionId| <= 8 then |sessionId| else 8)
  {
    AnonymousPrefix + Take(sessionId, 8)
  }

  /** The student a new session is bound to: the given id unless it is
      missing or empty. */
  function SessionStudent(studentId: Option<string>, sessionId: string): (r: string)
    ensures |r| > 0
    ensures studentId.Some? && studentId.value != "" ==> r == studentId.value
    ensures studentId.None? || studentId.value == "" ==> r == AnonymousId(sessionId)
  {
    if studentId.Some? && studentId.value != "" then studentId.value else AnonymousId(sessionId)
  }

  /** The outcome of `create_session`: the store after it, the new id, and
      the error it raised after registering the session, if any. */
  datatype Created = Created(manager: Manager, sessionId: string, error: Option<string>)

  /** `create_session`: registers a fresh session, counts it, and touches the
      student's memory profile through `get_student_context` (whose answer is
      discarded). When that summary raises, the session stays registered and
      counted but the exception leaves `create_session`. */
  function CreateSession(reading: Memory.TopicReading, m: Manager, studentId: Option<string>, freshId: string, now: int)
    : (r: Created)
    ensures r.sessionId == freshId
    ensures r.sessionId in r.manager.sessions
    ensures var s := r.manager.sessions[r.sessionId];
            && s.sessionId == freshId && s.studentId == SessionStudent(studentId, freshId)
            && s.createdAt == now && s.lastActivity == now
            && s.interactionCount == 0 && s.currentTopic == None && s.agentContext == map[]
    ensures r.manager.sessions.Keys == m.sessions.Keys + {freshId}
    ensures forall k :: k in m.sessions && k != freshId ==> r.manager.sessions[k] == m.sessions[k]
    ensures Obs.Counter(r.manager.metrics, SessionsCreated) == Obs.Counter(m.metrics, SessionsCreated) + 1
    ensures var student := SessionStudent(studentId, freshId);
            && student in r.manager.bank.profiles
            && r.manager.bank.profiles[student].lastActive == now
            && r.manager.bank.history == m.bank.history
    ensures var h := Memory.History(m.bank, SessionStudent(studentId, freshId));
            && (r.error.Some? <==> reading.AsWritten? && Memory.NullTopicInSummary(h))
            && (r.error.Some? ==> r.error.value == Memory.NullTopicError(h))
  {
    var student := SessionStudent(studentId, freshId);
    var s := Session(freshId, student, now, now, 0, None, map[]);
    var metrics := Obs.IncrementCounter(m.metrics, SessionsCreated, 1);
    var ctx := Memory.GetStudentContext(reading, m.bank, metrics, student, now);
    var error := if ctx.value.Err? then Some(ctx.value.error) else None;
    Created(Manager(m.sessions[freshId := s], ctx.bank, ctx.metrics), freshId, error)
  }

  datatype Lookup = Lookup(manager: Manager, session: Option<Session>)

  /** `get_session`: a known session is touched and a copy returned; an
      unknown id changes nothing. */
  function GetSession(m: Manager, sessionId: string, now: int): (r: Lookup)
    ensures sessionId !in m.sessions <==> r.session == None
    ensures sessionId !in m.sessions ==> r.manager == m
    ensures sessionId in m.sessions ==>
              && r.session == Some(m.sessions[sessionId].(lastActivity := now))
              && r.manager == m.(sessions := m.sessions[sessionId := r.session.value])
  {
    if sessionId in m.sessions then
      var s := m.sessions[sessionId].(lastActivity := now);
      Lookup(m.(sessions := m.sessions[sessionId := s]), Some(s))
    else
      Lookup(m, None)
  }

  /** `update_session`: merges the update into a known session, then stamps
      its activity time (overriding any `last_activity` in the update) and
      counts the update; an unknown id changes nothing. */
  function UpdateSession(m: Manager, sessionId: string, u: SessionUpdate, now: int): (r: Manager)
    ensures sessionId !in m.sessions ==> r == m
    ensures r.sessions.Keys == m.sessions.Keys
    ensures r.bank == m.bank
    ensures forall k :: k in m.sessions && k != sessionId ==> r.sessions[k] == m.sessions[k]
    ensures sessionId in m.sessions ==>
              && r.sessions == m.sessions[sessionId := r.sessions[sessionId]]
              && r.sessions[sessionId].lastActivity == now
              && r.sessions[sessionId].(lastActivity := 0) == Merge(m.sessions[sessionId], u).(lastActivity := 0)
              && Obs.Counter(r.metrics, SessionsUpdated) == Obs.Counter(m.metrics, SessionsUpdated) + 1
              && forall n :: n != SessionsUpdated ==> Obs.Counter(r.metrics, n) == Obs.Counter(m.metrics, n)
  {
    if sessionId in m.sessions then
      var s := Merge(m.sessions[sessionId], u).(lastActivity := now);
      m.(sessions := m.sessions[sessionId := s], metrics := Obs.IncrementCounter(m.metrics, SessionsUpdated, 1))
    else
      m
  }

  /** The metadata `record_interaction` stores: the session id it was
      called with (not the record's own `session_id` field, which an update
      may have overwritten), and the session's topic, read with a "general"
      default although the key is always present, so a session without a
      topic stores a null. */
  function InteractionMetadata(sessionId: string, s: Session, agentResponse: Option<string>): (md: Memory.Metadata)
    ensures md.SessionMetadata? && md.sessionId == sessionId && md.agentResponse == agentResponse
    ensures md.topic == s.currentTopic
  {
    Memory.SessionMetadata(sessionId, agentResponse, s.currentTopic)
  }

  lemma CounterNamesDistinct()
    ensures Memory.InteractionsStored != SessionsUpdated
  {
    assert Memory.InteractionsStored[0] != SessionsUpdated[0];
  }

  /** The long-term half of `record_interaction`: appends the interaction to
      the session's student's history. */
  function StoreForSession(m: Manager, sessionId: string, s: Session, kind: string, content: string,
                           agentResponse: Option<string>, now: int): (r: Manager)
    ensures r.sessions == m.sessions
    ensures var h := Memory.History(r.bank, s.studentId);
            var entry := Memory.Interaction(now, kind, content, InteractionMetadata(sessionId, s, agentResponse));
            && |h| > 0 && h[|h| - 1] == entry
            && h == Last(Memory.History(m.bank, s.studentId) + [entry], Memory.HistoryCap)
    ensures forall st :: st != s.studentId ==> Memory.History(r.bank, st) == Memory.History(m.bank, st)
    ensures r.bank.profiles == m.bank.profiles
    ensures Obs.Counter(r.metrics, Memory.InteractionsStored) == Obs.Counter(m.metrics, Memory.InteractionsStored) + 1
    ensures Obs.Counter(r.metrics, SessionsUpdated) == Obs.Counter(m.metrics, SessionsUpdated)
  {
    CounterNamesDistinct();
    var step := Memory.StoreInteraction(m.bank, m.metrics, s.studentId, kind, content,
                                        InteractionMetadata(sessionId, s, agentResponse), now);
    Manager(m.sessions, step.bank, step.metrics)
  }

  /** The session half of `record_interaction`: `get_session` touches the
      session, then `update_session` stores the incremented count. */
  function BumpSession(m: Manager, sessionId: string, now: int): (r: Manager)
    requires sessionId in m.sessions
    ensures var s := m.sessions[sessionId];
            r.sessions == m.sessions[sessionId := s.(interactionCount := s.interactionCount + 1, lastActivity := now)]
    ensures r.bank == m.bank
    ensures Obs.Counter(r.metrics, SessionsUpdated) == Obs.Counter(m.metrics, SessionsUpdated) + 1
    ensures forall n :: n != SessionsUpdated ==> Obs.Counter(r.metrics, n) == Obs.Counter(m.metrics, n)
  {
    var g := GetSession(m, sessionId, now);
    var s := g.session.value;
    var u := NoChanges.(interactionCount := Some(s.interactionCount + 1));
    assert Merge(s, u) == s.(interactionCount := s.interactionCount + 1);
    UpdateSession(g.manager, sessionId, u, now)
  }

  /** `record_interaction`: bumps the session's interaction count and appends
      the interaction to the student's long-term history; an unknown session
      changes nothing. */
  function RecordInteraction(m: Manager, sessionId: string, kind: string, content: string,
                             agentResponse: Option<string>, now: int): (r: Manager)
    ensures sessionId !in m.sessions ==> r == m
    ensures r.sessions.Keys == m.sessions.Keys
    ensures forall k :: k in m.sessions && k != sessionId ==> r.sessions[k] == m.sessions[k]
    ensures sessionId in m.sessions ==>
              var s := m.sessions[sessionId];
              && r.sessions[sessionId] == s.(interactionCount := s.interactionCount + 1, lastActivity := now)
              && r.bank.profiles == m.bank.profiles
              && Obs.Counter(r.metrics, Memory.InteractionsStored) == Obs.Counter(m.metrics, Memory.InteractionsStored) + 1
              && Obs.Counter(r.metrics, SessionsUpdated) == Obs.Counter(m.metrics, SessionsUpdated) + 1
  {
    if sessionId !in m.sessions then m
    else
      var touched := m.sessions[sessionId].(lastActivity := now);
      var m1 := BumpSession(m, sessionId, now);
      CounterNamesDistinct();
      StoreForSession(m1, sessionId, touched, kind, content, agentResponse, now)
  }

  /** What `record_interaction` leaves in long-term memory: the interaction
      is the newest entry of the session's student, with the session's id and
      topic as metadata, and no other student's history moves. */
  lemma RecordInteractionHistory(m: Manager, sessionId: string, kind: string, content: string,
                                 agentResponse: Option<string>, now: int)
    requires sessionId in m.sessions
    ensures var s := m.sessions[sessionId];
            var r := RecordInteraction(m, sessionId, kind, content, agentResponse, now);
            var h := Memory.History(r.bank, s.studentId);
            var entry := Memory.Interaction(now, kind, content, InteractionMetadata(sessionId, s, agentResponse));
            && |h| > 0 && h[|h| - 1] == entry
            && h == Last(Memory.History(m.bank, s.studentId) + [entry], Memory.HistoryCap)
            && (forall st :: st != s.studentId ==> Memory.History(r.bank, st) == Memory.History(m.bank, st))
  {
    var s := m.sessions[sessionId];
    var touched := s.(lastActivity := now);
    var m1 := BumpSession(m, sessionId, now);
    assert RecordInteraction(m, sessionId, kind, content, agentResponse, now)
        == StoreForSession(m1, sessionId, touched, kind, content, agentResponse, now);
    assert InteractionMetadata(sessionId, touched, agentResponse) == InteractionMetadata(sessionId, s, agentResponse);
  }

  /** Whether a session is past its age limit: strictly older than the cutoff. */
  predicate Expired(s: Session, maxAgeHours: int, now: int) {
    s.lastActivity < now - maxAgeHours * SecondsPerHour
  }

  datatype Swept = Swept(manager: Manager, removed: set<string>)

  /** `cleanup_expired_sessions`: removes exactly the expired sessions and
      counts each one. */
  function CleanupExpiredSessions(m: Manager, maxAgeHours: int, now: int): (r: Swept)
    ensures r.removed <= m.sessions.Keys
    ensures forall k :: k in r.removed <==> k in m.sessions && Expired(m.sessions[k], maxAgeHours, now)
    ensures r.manager.sessions.Keys == m.sessions.Keys - r.removed
    ensures forall k :: k in r.manager.sessions ==> r.manager.sessions[k] == m.sessions[k]
    ensures forall k :: k in r.manager.sessions ==> !Expired(r.manager.sessions[k], maxAgeHours, now)
    ensures Obs.Counter(r.manager.metrics, SessionsExpired) == Obs.Counter(m.metrics, SessionsExpired) + |r.removed|
    ensures r.manager.bank == m.bank
  {
    var removed := set k | k in m.sessions && Expired(m.sessions[k], maxAgeHours, now);
    var kept := map k | k in m.sessions && !Expired(m.sessions[k], maxAgeHours, now) :: m.sessions[k];
    var metrics := if |removed| > 0 then Obs.IncrementCounter(m.metrics, SessionsExpired, |removed|) else m.metrics;
    Swept(Manager(kept, m.bank, metrics), removed)
  }

  // ---------------------------------------------------------------------
  // Properties relating several operations
  // ---------------------------------------------------------------------

  /** A session just created reads back with no interactions and a
      non-empty student id, whether or not `create_session` raised after
      registering it. */
  lemma CreateThenGet(reading: Memory.TopicReading, m: Manager, studentId: Option<string>, freshId: string,
                       t0: int, t1: int)
    ensures var c := CreateSession(reading, m, studentId, freshId, t0);
            var g := GetSession(c.manager, c.sessionId, t1);
            && g.session.Some?
            && g.session.value.interactionCount == 0
            && |g.session.value.studentId| > 0
            && g.session.value.lastActivity == t1
  {
  }

  /** A second sweep at the same instant removes nothing. */
  lemma CleanupIdempotent(m: Manager, maxAgeHours: int, now: int)
    ensures var once := CleanupExpiredSessions(m, maxAgeHours, now);
            var twice := CleanupExpiredSessions(once.manager, maxAgeHours, now);
            twice.removed == {} && twice.manager.sessions == once.manager.sessions
  {
    var once := CleanupExpiredSessions(m, maxAgeHours, now);
    var twice := CleanupExpiredSessions(once.manager, maxAgeHours, now);
    if k :| k in twice.removed {
      assert false;
    }
  }

  /** With a zero age limit a session survives a sweep in the same second it
      was last active and is removed by any later sweep: the cutoff test is
      strict. */
  lemma ZeroAgeBoundary(m: Manager, sessionId: string, later: int)
    requires sessionId in m.sessions
    requires later > m.sessions[sessionId].lastActivity
    ensures var t := m.sessions[sessionId].lastActivity;
            && sessionId in CleanupExpiredSessions(m, 0, t).manager.sessions
            && sessionId !in CleanupExpiredSessions(m, 0, later).manager.sessions
  {
  }

  /** The stored session id is the key the interaction was recorded under,
      even after an update overwrote the record's own `session_id` field. */
  lemma RecordKeepsCallersSessionId(m: Manager, sessionId: string, newId: string, kind: string, content: string,
                                    agentResponse: Option<string>, t0: int, now: int)
    requires sessionId in m.sessions
    ensures var m1 := UpdateSession(m, sessionId, NoChanges.(sessionId := Some(newId)), t0);
            var r := RecordInteraction(m1, sessionId, kind, content, agentResponse, now);
            var h := Memory.History(r.bank, m.sessions[sessionId].studentId);
            && m1.sessions[sessionId].sessionId == newId
            && |h| > 0 && h[|h| - 1].metadata.sessionId == sessionId
  {
    var m1 := UpdateSession(m, sessionId, NoChanges.(sessionId := Some(newId)), t0);
    assert m1.sessions[sessionId].studentId == m.sessions[sessionId].studentId;
    RecordInteractionHistory(m1, sessionId, kind, content, agentResponse, now);
  }

  /** Recording an interaction on a session that has no topic (every session,
      unless an update set one) stores a null topic, after which the summary
      as written fails for that student: `get_student_context` raises for
      every later query in the session. */
  lemma RecordedNullTopicBreaksSummary(m: Manager, sessionId: string, kind: string, content: string,
                                       agentResponse: Option<string>, now: int, p: Memory.StudentProfile)
    requires sessionId in m.sessions && m.sessions[sessionId].currentTopic.None?
    ensures var r := RecordInteraction(m, sessionId, kind, content, agentResponse, now);
            var h := Memory.History(r.bank, m.sessions[sessionId].studentId);
            Memory.ContextSummaryAsWritten(p, Last(h, Memory.RecentWindow)).Err?
  {
    var r := RecordInteraction(m, sessionId, kind, content, agentResponse, now);
    var h := Memory.History(r.bank, m.sessions[sessionId].studentId);
    RecordInteractionHistory(m, sessionId, kind, content, agentResponse, now);
    var recent := Last(h, Memory.RecentWindow);
    LastKeepsFinal(h, Memory.RecentWindow);
    LastKeepsFinal(recent, Memory.SummaryWindow);
    var last := Last(recent, Memory.SummaryWindow);
    assert Memory.HasNullTopic(last[|last| - 1]);
  }
}

=== FILE: text.dfy ===
/** The handful of Python `str` operations the advisor code is built from:
    `lower`, `in`, `count`, `split(sep)`, `split()`, `strip`, slicing,
    `join` and `str(int)`, each with Python's own edge cases. */
module Text {

  /** The characters for which Python's `str.isspace()` holds. */
  predicate IsSpace(c: char) {
    || c == ' '
    || ('\t' <= c <= '\r')
    || ('\U{1c}' <= c <= '\U{1f}')
    || c == '\U{85}' || c == '\U{a0}' || c == '\U{1680}'
    || ('\U{2000}' <= c <= '\U{200a}')
    || c == '\U{2028}' || c == '\U{2029}' || c == '\U{202f}'
    || c == '\U{205f}' || c == '\U{3000}'
  }

  predicate IsDigit(c: char) {
    '0' <= c <= '9'
  }

  predicate AllDigits(s: string) {
    forall i :: 0 <= i < |s| ==> IsDigit(s[i])
  }

  predicate AllSpace(s: string) {
    forall i :: 0 <= i < |s| ==> IsSpace(s[i])
  }

  // ---------------------------------------------------------------------
  // Case folding (ASCII letters only)
  // ---------------------------------------------------------------------

  function LowerChar(c: char): char {
    if 'A' <= c <= 'Z' then (c as int + 32) as char else c
  }

  function Lower(s: string): (r: string)
    ensures |r| == |s|
    ensures forall i :: 0 <= i < |s| ==> r[i] == LowerChar(s[i])
  {
    seq(|s|, i requires 0 <= i < |s| => LowerChar(s[i]))
  }

  lemma LowerCharIdempotent(c: char)
    ensures LowerChar(LowerChar(c)) == LowerChar(c)
  {
  }

  /** Lowercasing twice is lowercasing once. */
  lemma LowerIdempotent(s: string)
    ensures Lower(Lower(s)) == Lower(s)
  {
    forall i | 0 <= i < |s| ensures Lower(Lower(s))[i] == Lower(s)[i] {
      LowerCharIdempotent(s[i]);
    }
  }

  /** Lowercasing changes no character's whitespace status. */
  lemma LowerKeepsSpace(s: string)
    ensures AllSpace(Lower(s)) <==> AllSpace(s)
  {
    assert forall i :: 0 <= i < |s| ==> (IsSpace(Lower(s)[i]) <==> IsSpace(s[i]));
  }

  // ---------------------------------------------------------------------
  // Substring membership (`needle in hay`) and `hay.count(needle)`
  // ---------------------------------------------------------------------

  /** Python's `needle in hay`: the needle occurs at some offset. */
  predicate Contains(hay: string, needle: string)
    decreases |hay|
  {
    needle <= hay || (|hay| > 0 && Contains(hay[1..], needle))
  }

  /** Python's `any(k in hay for k in keywords)`. */
  predicate AnyContained(hay: string, keywords: seq<string>) {
    exists i :: 0 <= i < |keywords| && Contains(hay, keywords[i])
  }

  /** A needle surrounded by any text is contained in it. */
  lemma ContainsAfterPrefix(pre: string, needle: string, rest: string)
    ensures Contains(pre + needle + rest, needle)
    decreases |pre|
  {
    if |pre| == 0 {
      assert needle <= needle + rest;
      assert pre + needle + rest == needle + rest;
    } else {
      ContainsAfterPrefix(pre[1..], needle, rest);
      assert (pre + needle + rest)[1..] == pre[1..] + needle + rest;
    }
  }

  /** Non-overlapping, leftmost-first occurrences of a non-empty needle. */
  function CountNonEmpty(hay: string, needle: string): nat
    requires |needle| > 0
    decreases |hay|
  {
    if |hay| == 0 then 0
    else if needle <= hay then 1 + CountNonEmpty(hay[|needle|..], needle)
    else CountNonEmpty(hay[1..], needle)
  }

  /** Python's `hay.count(needle)`; the empty needle occurs `len(hay) + 1` times. */
  function Count(hay: string, needle: string): nat {
    if |needle| == 0 then |hay| + 1 else CountNonEmpty(hay, needle)
  }

  lemma {:induction false} CountNonEmptyPositive(hay: string, needle: string)
    requires |needle| > 0
    ensures CountNonEmpty(hay, needle) > 0 <==> Contains(hay, needle)
    decreases |hay|
  {
    if |hay| == 0 {
    } else if needle <= hay {
    } else {
      CountNonEmptyPositive(hay[1..], needle);
    }
  }

  /** A count is positive exactly when the needle occurs. */
  lemma CountPositiveIffContains(hay: string, needle: string)
    ensures Count(hay, needle) > 0 <==> Contains(hay, needle)
  {
    if |needle| > 0 {
      CountNonEmptyPositive(hay, needle);
    }
  }

  // ---------------------------------------------------------------------
  // Slicing
  // ---------------------------------------------------------------------

  /** Python's `s[:n]` for `n >= 0`. */
  function Take<T>(s: seq<T>, n: nat): (r: seq<T>)
    ensures |r| == if |s| <= n then |s| else n
    ensures r <= s
  {
    if |s| <= n then s else s[..n]
  }

  /** Python's `s[-n:]` for `n > 0`, and the whole sequence when it is short. */
  function Last<T>(s: seq<T>, n: nat): (r: seq<T>)
    ensures |r| == if |s| <= n then |s| else n
    ensures |s| <= n ==> r == s
  {
    if |s| <= n then s else s[|s| - n..]
  }

  /** Keeping the last `n` twice is keeping the last `n` of everything. */
  lemma LastOfLastAppend<T>(a: seq<T>, b: seq<T>, n: nat)
    ensures Last(Last(a, n) + b, n) == Last(a + b, n)
  {
    if |a| > n {
      var la := a[|a| - n..];
      assert Last(a, n) == la;
      SuffixOfSuffix(a, b, n);
    }
  }

  lemma SuffixOfSuffix<T>(a: seq<T>, b: seq<T>, n: nat)
    requires |a| > n
    ensures (a[|a| - n..] + b)[|b|..] == (a + b)[|a| + |b| - n..]
  {
    var la := a[|a| - n..];
    var x := (la + b)[|b|..];
    var y := (a + b)[|a| + |b| - n..];
    forall i | 0 <= i < n ensures x[i] == y[i] {
      if |b| + i < n {
        assert x[i] == la[|b| + i] == a[|a| - n + |b| + i];
      } else {
        assert x[i] == b[|b| + i - n];
      }
    }
  }

  /** Appends the items one at a time, keeping only the last `n` after each. */
  function AppendEach<T>(h: seq<T>, xs: seq<T>, n: nat): seq<T>
    decreases |xs|
  {
    if |xs| == 0 then h else AppendEach(Last(h + [xs[0]], n), xs[1..], n)
  }

  /** A capped append, repeated, keeps the last `n` of everything appended. */
  lemma {:induction false} AppendEachKeepsLast<T>(h: seq<T>, xs: seq<T>, n: nat)
    requires |xs| > 0
    ensures AppendEach(h, xs, n) == Last(h + xs, n)
    decreases |xs|
  {
    var a := h + [xs[0]];
    var rest := xs[1..];
    assert a + rest == h + xs;
    if |xs| > 1 {
      AppendEachKeepsLast(Last(a, n), rest, n);
      LastOfLastAppend(a, rest, n);
    }
  }

  /** Keeping the last `n > 0` items keeps the final one. */
  lemma LastKeepsFinal<T>(s: seq<T>, n: nat)
    requires |s| > 0 && n > 0
    ensures |Last(s, n)| > 0 && Last(s, n)[|Last(s, n)| - 1] == s[|s| - 1]
  {
  }

  /** Two capped appends in a row leave the two new items at the end. */
  lemma LastAppendTwo<T>(a: seq<T>, x: T, y: T, n: nat)
    requires n >= 2
    ensures var r := Last(Last(a + [x], n) + [y], n);
            |r| >= 2 && r[|r| - 2] == x && r[|r| - 1] == y
  {
    var l := Last(a + [x], n);
    assert |l| > 0 && l[|l| - 1] == x;
    var r := Last(l + [y], n);
    assert |r| == if |l| + 1 <= n then |l| + 1 else n;
    if |l| + 1 > n {
      assert r == (l + [y])[|l| + 1 - n..];
    }
  }

  lemma LastOfLast<T>(s: seq<T>, m: nat, n: nat)
    requires n <= m
    ensures Last(Last(s, m), n) == Last(s, n)
  {
  }

  // ---------------------------------------------------------------------
  // `sep.join(parts)` and `s.split(sep)`
  // ---------------------------------------------------------------------

  function Join(parts: seq<string>, sep: string): string
    decreases |parts|
  {
    if |parts| == 0 then ""
    else if |parts| == 1 then parts[0]
    else parts[0] + sep + Join(parts[1..], sep)
  }

  /** `s.startswith(prefix)`. */
  predicate StartsWith(s: string, prefix: string) {
    |prefix| <= |s| && s[..|prefix|] == prefix
  }

  function SplitFrom(s: string, sep: string, cur: string): (parts: seq<string>)
    requires |sep| > 0
    ensures |parts| >= 1
    decreases |s|
  {
    if |s| == 0 then [cur]
    else if StartsWith(s, sep) then [cur] + SplitFrom(s[|sep|..], sep, "")
    else SplitFrom(s[1..], sep, cur + [s[0]])
  }

  /** Python's `s.split(sep)` for a non-empty separator. */
  function Split(s: string, sep: string): (parts: seq<string>)
    requires |sep| > 0
    ensures |parts| >= 1
  {
    SplitFrom(s, sep, "")
  }

  lemma JoinCons(x: string, rest: seq<string>, sep: string)
    requires |rest| > 0
    ensures Join([x] + rest, sep) == x + sep + Join(rest, sep)
  {
    assert ([x] + rest)[0] == x && ([x] + rest)[1..] == rest;
  }

  lemma {:induction false} SplitFromJoin(s: string, sep: string, cur: string)
    requires |sep| > 0
    ensures Join(SplitFrom(s, sep, cur), sep) == cur + s
    decreases |s|, 1
  {
    if |s| == 0 {
      assert cur + s == cur;
    } else if StartsWith(s, sep) {
      SplitAtSepJoin(s, sep, cur);
    } else {
      SplitFromJoin(s[1..], sep, cur + [s[0]]);
      assert cur + [s[0]] + s[1..] == cur + s;
    }
  }

  lemma {:induction false} SplitAtSepJoin(s: string, sep: string, cur: string)
    requires |sep| > 0 && |s| > 0 && StartsWith(s, sep)
    ensures Join(SplitFrom(s, sep, cur), sep) == cur + s
    decreases |s|, 0
  {
    var tail := s[|sep|..];
    var rest := SplitFrom(tail, sep, "");
    SplitFromAtSep(s, sep, cur);
    SplitFromJoin(tail, sep, "");
    EmptyConcat(tail);
    JoinCons(cur, rest, sep);
    ConcatAfterSep(cur, s, sep);
  }

  /** At a separator the current piece is closed and a fresh one begins. */
  lemma SplitFromAtSep(s: string, sep: string, cur: string)
    requires |sep| > 0 && |s| > 0 && StartsWith(s, sep)
    ensures SplitFrom(s, sep, cur) == [cur] + SplitFrom(s[|sep|..], sep, "")
  {
  }

  lemma EmptyConcat(t: string)
    ensures "" + t == t
  {
  }

  lemma ConcatAfterSep(cur: string, s: string, sep: string)
    requires StartsWith(s, sep)
    ensures cur + sep + s[|sep|..] == cur + s
  {
    assert s == s[..|sep|] + s[|sep|..];
  }

  /** Joining the pieces of a split with the same separator gives back the text. */
  lemma {:induction false} SplitThenJoin(s: string, sep: string)
    requires |sep| > 0
    ensures Join(Split(s, sep), sep) == s
  {
    SplitFromJoin(s, sep, "");
  }

  // ---------------------------------------------------------------------
  // `s.split()` (whitespace runs) and `s.strip()`
  // ---------------------------------------------------------------------

  function WordsFrom(s: string, cur: string): seq<string>
    decreases |s|
  {
    if |s| == 0 then (if |cur| == 0 then [] else [cur])
    else if IsSpace(s[0]) then
      (if |cur| == 0 then WordsFrom(s[1..], "") else [cur] + WordsFrom(s[1..], ""))
    else WordsFrom(s[1..], cur + [s[0]])
  }

  /** Python's `s.split()` with no argument. */
  function Words(s: string): seq<string> {
    WordsFrom(s, "")
  }

  lemma {:induction false} WordsFromEmpty(s: string, cur: string)
    ensures WordsFrom(s, cur) == [] <==> |cur| == 0 && AllSpace(s)
    decreases |s|
  {
    if |s| == 0 {
    } else if IsSpace(s[0]) {
      WordsFromEmpty(s[1..], "");
      if AllSpace(s[1..]) {
        assert AllSpace(s) by {
          forall i | 0 <= i < |s| ensures IsSpace(s[i]) {
            if i > 0 {
              assert s[i] == s[1..][i - 1];
            }
          }
        }
      }
    } else {
      WordsFromEmpty(s[1..], cur + [s[0]]);
    }
  }

  lemma {:induction false} WordsFromWord(s: string, cur: string)
    requires |cur + s| > 0 && forall i :: 0 <= i < |s| ==> !IsSpace(s[i])
    ensures WordsFrom(s, cur) == [cur + s]
    decreases |s|
  {
    if |s| == 0 {
      assert cur + s == cur;
    } else {
      assert !IsSpace(s[0]);
      WordsFromWord(s[1..], cur + [s[0]]);
      assert cur + [s[0]] + s[1..] == cur + s;
    }
  }

  /** Text without whitespace is one word. */
  lemma WordsOfWord(s: string)
    requires |s| > 0 && forall i :: 0 <= i < |s| ==> !IsSpace(s[i])
    ensures Words(s) == [s]
  {
    WordsFromWord(s, "");
    assert "" + s == s;
  }

  /** `s.split()` is empty exactly for blank text. */
  lemma WordsEmptyIffBlank(s: string)
    ensures Words(s) == [] <==> AllSpace(s)
  {
    WordsFromEmpty(s, "");
  }

  function StripLeft(s: string): (r: string)
    ensures |r| <= |s|
    decreases |s|
  {
    if |s| > 0 && IsSpace(s[0]) then StripLeft(s[1..]) else s
  }

  function StripRight(s: string): (r: string)
    ensures |r| <= |s|
    decreases |s|
  {
    if |s| > 0 && IsSpace(s[|s| - 1]) then StripRight(s[..|s| - 1]) else s
  }

  /** Python's `s.strip()`. */
  function Strip(s: string): (r: string)
    ensures |r| <= |s|
  {
    StripRight(StripLeft(s))
  }

  /** Stripping on the left keeps a suffix. */
  lemma {:induction false} StripLeftIsSuffix(s: string)
    ensures StripLeft(s) == s[|s| - |StripLeft(s)|..]
    decreases |s|
  {
    if |s| > 0 && IsSpace(s[0]) {
      StripLeftIsSuffix(s[1..]);
    }
  }

  /** Text ending in whitespace gets strictly shorter when stripped. */
  lemma StripDropsTrailingSpace(s: string)
    requires |s| > 0 && IsSpace(s[|s| - 1])
    ensures |Strip(s)| < |s|
  {
    var l := StripLeft(s);
    StripLeftIsSuffix(s);
    if |l| > 0 {
      assert l[|l| - 1] == s[|s| - 1];
    }
  }

  // ---------------------------------------------------------------------
  // `str(n)` for naturals, and `s.replace(a, b)` for single characters
  // ---------------------------------------------------------------------

  function DigitChar(d: nat): (c: char)
    requires d < 10
    ensures IsDigit(c)
  {
    ('0' as int + d) as char
  }

  function NatToString(n: nat): (r: string)
    ensures |r| > 0 && AllDigits(r)
    decreases n
  {
    if n < 10 then [DigitChar(n)] else NatToString(n / 10) + [DigitChar(n % 10)]
  }

  /** Reads back a string of decimal digits. */
  function ParseDigits(s: string): nat
    requires AllDigits(s)
    decreases |s|
  {
    if |s| == 0 then 0
    else ParseDigits(s[..|s| - 1]) * 10 + (s[|s| - 1] as int - '0' as int)
  }

  lemma {:induction false} ParseNatToString(n: nat)
    ensures ParseDigits(NatToString(n)) == n
    decreases n
  {
    if n >= 10 {
      var s := NatToString(n);
      ParseNatToString(n / 10);
      assert s[..|s| - 1] == NatToString(n / 10);
    }
  }

  /** Distinct numbers print differently. */
  lemma NatToStringInjective(a: nat, b: nat)
    ensures NatToString(a) == NatToString(b) ==> a == b
  {
    ParseNatToString(a);
    ParseNatToString(b);
  }

  function ReplaceChar(s: string, from: char, to: char): (r: string)
    ensures |r| == |s|
  {
    seq(|s|, i requires 0 <= i < |s| => if s[i] == from then to else s[i])
  }
}

=== FILE: vector_search.dfy ===
/** The vector index of the catalog: how page text is cut into chunks, which
    pages and chunks are indexed under which identifiers, how they are
    handed to the store in batches, which collection a search goes to, and
    how program information is keyed. The store itself, the embedding model
    and the similarity search are outside the model: collections are maps
    from identifier to document, and what a similarity query returns is a
    parameter. */
module VectorSearch {
  import opened Common
  import opened Text

  const SentenceSeparator := ". "
  const MaxChunkSize: int := 1000
  const MinPageText: nat := 50
  const MinChunkText: nat := 100
  const BatchSize: nat := 100

  // ---------------------------------------------------------------------
  // _split_text_into_chunks
  // ---------------------------------------------------------------------

  /** The text a group of sentences accumulates: each sentence followed by
      the separator. */
  function Body(g: seq<string>): (r: string)
    ensures |r| == 0 <==> |g| == 0
    decreases |g|
  {
    if |g| == 0 then "" else Body(g[..|g| - 1]) + g[|g| - 1] + SentenceSeparator
  }

  lemma BodyAppend(g: seq<string>, s: string)
    ensures Body(g + [s]) == Body(g) + s + SentenceSeparator
  {
    assert (g + [s])[..|g|] == g;
  }

  function Flatten<T>(gs: seq<seq<T>>): seq<T>
    decreases |gs|
  {
    if |gs| == 0 then [] else Flatten(gs[..|gs| - 1]) + gs[|gs| - 1]
  }

  lemma FlattenAppend<T>(gs: seq<seq<T>>, g: seq<T>)
    ensures Flatten(gs + [g]) == Flatten(gs) + g
  {
    assert (gs + [g])[..|gs|] == gs;
  }

  /** The chunking loop's state: the closed groups and the open one. */
  datatype Grouping = Grouping(done: seq<seq<string>>, cur: seq<string>)

  /** One sentence: it joins the open group when the group's text plus the
      sentence stays under the limit; otherwise the open group, if any, is
      closed and the sentence opens a new one. */
  function Place(st: Grouping, s: string, maxSize: int): Grouping {
    if |Body(st.cur) + s| < maxSize then Grouping(st.done, st.cur + [s])
    else if |st.cur| > 0 then Grouping(st.done + [st.cur], [s])
    else Grouping(st.done, [s])
  }

  /** The state after the given sentences, in order. */
  function Fold(sentences: seq<string>, maxSize: int): Grouping
    decreases |sentences|
  {
    if |sentences| == 0 then Grouping([], [])
    else Place(Fold(sentences[..|sentences| - 1], maxSize), sentences[|sentences| - 1], maxSize)
  }

  /** A group of two or more sentences was grown under the limit, so its
      text exceeds the limit by at most one character. */
  ghost predicate Bounded(g: seq<string>, maxSize: int) {
    |g| >= 2 ==> |Body(g)| <= maxSize + 1
  }

  ghost predicate GroupingInv(st: Grouping, sentences: seq<string>, maxSize: int) {
    && Flatten(st.done) + st.cur == sentences
    && (forall k :: 0 <= k < |st.done| ==> |st.done[k]| > 0 && Bounded(st.done[k], maxSize))
    && Bounded(st.cur, maxSize)
    && (|sentences| > 0 ==> |st.cur| > 0)
    && |st.done| + |st.cur| <= |sentences|
  }

  lemma PlaceKeepsInv(st: Grouping, sentences: seq<string>, s: string, maxSize: int)
    requires GroupingInv(st, sentences, maxSize)
    ensures GroupingInv(Place(st, s, maxSize), sentences + [s], maxSize)
  {
    if |Body(st.cur) + s| < maxSize {
      BodyAppend(st.cur, s);
      assert Flatten(st.done) + (st.cur + [s]) == sentences + [s];
    } else if |st.cur| > 0 {
      FlattenAppend(st.done, st.cur);
      var done := st.done + [st.cur];
      forall k | 0 <= k < |done| ensures |done[k]| > 0 && Bounded(done[k], maxSize) {
        if k < |st.done| {
          assert done[k] == st.done[k];
        }
      }
    }
  }

  lemma {:induction false} FoldInv(sentences: seq<string>, maxSize: int)
    ensures GroupingInv(Fold(sentences, maxSize), sentences, maxSize)
    decreases |sentences|
  {
    if |sentences| > 0 {
      var init := sentences[..|sentences| - 1];
      FoldInv(init, maxSize);
      PlaceKeepsInv(Fold(init, maxSize), init, sentences[|sentences| - 1], maxSize);
      assert init + [sentences[|sentences| - 1]] == sentences;
    }
  }

  /** The groups of sentences that become chunks. */
  function Groups(sentences: seq<string>, maxSize: int): seq<seq<string>> {
    var st := Fold(sentences, maxSize);
    st.done + (if |st.cur| > 0 then [st.cur] else [])
  }

  /** The groups partition the sentences in order: concatenated they give
      the sentences back, none is empty, there is at least one and at most
      one per sentence, and a group of two or more sentences has text at
      most one character over the limit. */
  lemma GroupsPartition(sentences: seq<string>, maxSize: int)
    requires |sentences| > 0
    ensures var gs := Groups(sentences, maxSize);
            && Flatten(gs) == sentences
            && 1 <= |gs| <= |sentences|
            && forall k :: 0 <= k < |gs| ==> |gs[k]| > 0 && Bounded(gs[k], maxSize)
  {
    var st := Fold(sentences, maxSize);
    FoldInv(sentences, maxSize);
    FlattenAppend(st.done, st.cur);
    var gs := Groups(sentences, maxSize);
    assert gs == st.done + [st.cur];
    forall k | 0 <= k < |gs| ensures |gs[k]| > 0 && Bounded(gs[k], maxSize) {
      if k < |st.done| {
        assert gs[k] == st.done[k];
      }
    }
  }

  /** The stripped text of each group. */
  function ChunkTexts(gs: seq<seq<string>>): (r: seq<string>)
    ensures |r| == |gs|
    decreases |gs|
  {
    if |gs| == 0 then [] else ChunkTexts(gs[..|gs| - 1]) + [Strip(Body(gs[|gs| - 1]))]
  }

  lemma ChunkTextsAppend(gs: seq<seq<string>>, g: seq<string>)
    ensures ChunkTexts(gs + [g]) == ChunkTexts(gs) + [Strip(Body(g))]
  {
    assert (gs + [g])[..|gs|] == gs;
  }

  lemma {:induction false} ChunkTextsAt(gs: seq<seq<string>>, k: nat)
    requires k < |gs|
    ensures ChunkTexts(gs)[k] == Strip(Body(gs[k]))
    decreases |gs|
  {
    if k < |gs| - 1 {
      ChunkTextsAt(gs[..|gs| - 1], k);
    }
  }

  /** The chunks of a text: the stripped text of each group of its
      `". "`-separated sentences. */
  function Chunks(text: string, maxSize: int): seq<string> {
    ChunkTexts(Groups(Split(text, SentenceSeparator), maxSize))
  }

  /** There is always a chunk, never more chunks than sentences, and a
      chunk made of two or more sentences is at most one character over
      the limit. */
  lemma ChunksBounds(text: string, maxSize: int)
    ensures var sentences := Split(text, SentenceSeparator);
            var gs := Groups(sentences, maxSize);
            && 1 <= |Chunks(text, maxSize)| <= |sentences|
            && Flatten(gs) == sentences
            && forall k :: 0 <= k < |gs| ==>
                 |gs[k]| > 0 && Chunks(text, maxSize)[k] == Strip(Body(gs[k]))
                 && (|gs[k]| >= 2 ==> |Chunks(text, maxSize)[k]| <= maxSize + 1)
  {
    var sentences := Split(text, SentenceSeparator);
    var gs := Groups(sentences, maxSize);
    var cs := Chunks(text, maxSize);
    assert cs == ChunkTexts(gs);
    GroupsPartition(sentences, maxSize);
    forall k | 0 <= k < |gs|
      ensures |gs[k]| > 0 && cs[k] == Strip(Body(gs[k])) && (|gs[k]| >= 2 ==> |cs[k]| <= maxSize + 1)
    {
      ChunkTextsAt(gs, k);
      assert Bounded(gs[k], maxSize);
    }
  }

  /** What one sentence does to the accumulated text. */
  lemma PlaceText(st: Grouping, s: string, maxSize: int)
    ensures Body(Place(st, s, maxSize).cur)
            == (if |Body(st.cur) + s| < maxSize then Body(st.cur) + s + SentenceSeparator else s + SentenceSeparator)
  {
    if |Body(st.cur) + s| < maxSize {
      BodyAppend(st.cur, s);
    } else {
      assert [s][..0] == [];
      assert Body([s]) == s + SentenceSeparator;
    }
  }

  /** What one sentence does to the finished chunks. */
  lemma PlaceChunks(st: Grouping, s: string, maxSize: int)
    ensures ChunkTexts(Place(st, s, maxSize).done)
            == (if |Body(st.cur) + s| < maxSize || |st.cur| == 0 then ChunkTexts(st.done)
                else ChunkTexts(st.done) + [Strip(Body(st.cur))])
  {
    ChunkTextsAppend(st.done, st.cur);
  }

  /** Closing the open group after the last sentence. */
  lemma FinishStep(st: Grouping)
    ensures ChunkTexts(st.done + (if |st.cur| > 0 then [st.cur] else []))
         == ChunkTexts(st.done) + (if |st.cur| > 0 then [Strip(Body(st.cur))] else [])
  {
    if |st.cur| > 0 {
      ChunkTextsAppend(st.done, st.cur);
    } else {
      assert st.done + [] == st.done;
      assert ChunkTexts(st.done) + [] == ChunkTexts(st.done);
    }
  }

  /** `_split_text_into_chunks`. */
  method SplitTextIntoChunks(text: string, maxSize: int) returns (chunks: seq<string>)
    ensures chunks == Chunks(text, maxSize)
  {
    var sentences := Split(text, SentenceSeparator);
    chunks := [];
    var current := "";
    ghost var st := Grouping([], []);
    var i := 0;
    while i < |sentences|
      invariant 0 <= i <= |sentences|
      invariant st == Fold(sentences[..i], maxSize)
      invariant current == Body(st.cur)
      invariant chunks == ChunkTexts(st.done)
    {
      var s := sentences[i];
      assert sentences[..i + 1][..i] == sentences[..i];
      assert Fold(sentences[..i + 1], maxSize) == Place(st, s, maxSize);
      PlaceText(st, s, maxSize);
      PlaceChunks(st, s, maxSize);
      if |current + s| < maxSize {
        current := current + s + SentenceSeparator;
      } else {
        if |current| > 0 {
          chunks := chunks + [Strip(current)];
        }
        current := s + SentenceSeparator;
      }
      st := Place(st, s, maxSize);
      i := i + 1;
    }
    assert sentences[..i] == sentences;
    assert Groups(sentences, maxSize) == st.done + (if |st.cur| > 0 then [st.cur] else []);
    FinishStep(st);
    if |current| > 0 {
      chunks := chunks + [Strip(current)];
    }
  }

  // ---------------------------------------------------------------------
  // index_catalog_pdf: which pages and chunks are indexed, and under which id
  // ---------------------------------------------------------------------

  /** An indexed chunk with its metadata: the 1-based page, the position of
      the chunk among all chunks of its page, and its identifier. */
  datatype CatalogDoc = CatalogDoc(id: string, text: string, page: nat, chunkIndex: nat)

  function ChunkId(page: nat, chunkIndex: nat): string {
    "catalog_page_" + NatToString(page) + "_chunk_" + NatToString(chunkIndex)
  }

  /** The chunks of one page from position `i` on that are long enough,
      numbered by their position among all the page's chunks. */
  function ChunkDocs(chunks: seq<string>, page: nat, i: nat): seq<CatalogDoc>
    requires i <= |chunks|
    decreases |chunks| - i
  {
    if i == |chunks| then []
    else
      (if |Strip(chunks[i])| < MinChunkText then []
       else [CatalogDoc(ChunkId(page, i), chunks[i], page, i)])
      + ChunkDocs(chunks, page, i + 1)
  }

  /** The documents of one page; a page with little text contributes none. */
  function PageDocs(text: string, page: nat): seq<CatalogDoc> {
    if |Strip(text)| < MinPageText then [] else ChunkDocs(Chunks(text, MaxChunkSize), page, 0)
  }

  /** The documents of the pages from index `p` on (page number `p + 1`). */
  function IndexFrom(pages: seq<string>, p: nat): seq<CatalogDoc>
    requires p <= |pages|
    decreases |pages| - p
  {
    if p == |pages| then [] else PageDocs(pages[p], p + 1) + IndexFrom(pages, p + 1)
  }

  /** A kept chunk of one page: long enough, at its position among the
      page's chunks, under the identifier built from page and position. */
  ghost predicate KeptChunk(d: CatalogDoc, chunks: seq<string>, page: nat) {
    && d.page == page
    && d.chunkIndex < |chunks|
    && d.text == chunks[d.chunkIndex]
    && |Strip(d.text)| >= MinChunkText
    && d.id == ChunkId(page, d.chunkIndex)
  }

  /** What one document must be: a kept chunk of a long enough page. */
  ghost predicate WellFormed(d: CatalogDoc, pages: seq<string>) {
    && 1 <= d.page <= |pages|
    && |Strip(pages[d.page - 1])| >= MinPageText
    && KeptChunk(d, Chunks(pages[d.page - 1], MaxChunkSize), d.page)
  }

  /** One document comes before another in (page, position) order. */
  predicate Before(a: CatalogDoc, b: CatalogDoc) {
    a.page < b.page || (a.page == b.page && a.chunkIndex < b.chunkIndex)
  }

  lemma {:induction false} ChunkDocsKept(chunks: seq<string>, page: nat, i: nat)
    requires i <= |chunks|
    ensures forall d :: d in ChunkDocs(chunks, page, i) ==> i <= d.chunkIndex && KeptChunk(d, chunks, page)
    decreases |chunks| - i
  {
    if i < |chunks| {
      ChunkDocsKept(chunks, page, i + 1);
    }
  }

  /** The positions and page of a page's documents, without their text. */
  lemma {:induction false} ChunkDocsPositions(chunks: seq<string>, page: nat, i: nat)
    requires i <= |chunks|
    ensures forall d :: d in ChunkDocs(chunks, page, i) ==> i <= d.chunkIndex && d.page == page
    decreases |chunks| - i
  {
    if i < |chunks| {
      ChunkDocsPositions(chunks, page, i + 1);
    }
  }

  /** Documents in strictly increasing (page, position) order. */
  predicate Ordered(ds: seq<CatalogDoc>) {
    forall k, l :: 0 <= k < l < |ds| ==> Before(ds[k], ds[l])
  }

  lemma AppendOrdered(xs: seq<CatalogDoc>, ys: seq<CatalogDoc>)
    requires Ordered(xs) && Ordered(ys)
    requires forall x, y :: x in xs && y in ys ==> Before(x, y)
    ensures Ordered(xs + ys)
  {
    var all := xs + ys;
    forall k, l | 0 <= k < l < |all| ensures Before(all[k], all[l]) {
      if k >= |xs| {
        assert all[k] == ys[k - |xs|] && all[l] == ys[l - |xs|];
      } else if l >= |xs| {
        assert all[k] == xs[k] && xs[k] in xs;
        assert all[l] == ys[l - |xs|] && ys[l - |xs|] in ys;
      } else {
        assert all[k] == xs[k] && all[l] == xs[l];
      }
    }
  }

  lemma ConsOrdered(d: CatalogDoc, ds: seq<CatalogDoc>)
    requires Ordered(ds)
    requires forall e :: e in ds ==> Before(d, e)
    ensures Ordered([d] + ds)
  {
    var all := [d] + ds;
    forall k, l | 0 <= k < l < |all| ensures Before(all[k], all[l]) {
      assert all[l] == ds[l - 1] && ds[l - 1] in ds;
      if k > 0 {
        assert all[k] == ds[k - 1];
      }
    }
  }

  lemma {:induction false} ChunkDocsOrdered(chunks: seq<string>, page: nat, i: nat)
    requires i <= |chunks|
    ensures Ordered(ChunkDocs(chunks, page, i))
    decreases |chunks| - i
  {
    if i < |chunks| {
      ChunkDocsOrdered(chunks, page, i + 1);
      ChunkDocsPositions(chunks, page, i + 1);
      var rest := ChunkDocs(chunks, page, i + 1);
      if |Strip(chunks[i])| >= MinChunkText {
        var d := CatalogDoc(ChunkId(page, i), chunks[i], page, i);
        assert ChunkDocs(chunks, page, i) == [d] + rest;
        ConsOrdered(d, rest);
      } else {
        assert ChunkDocs(chunks, page, i) == rest;
      }
    }
  }

  lemma {:induction false} IndexFromWellFormed(pages: seq<string>, p: nat)
    requires p <= |pages|
    ensures forall d :: d in IndexFrom(pages, p) ==> WellFormed(d, pages)
    decreases |pages| - p
  {
    if p < |pages| {
      IndexFromWellFormed(pages, p + 1);
      if |Strip(pages[p])| >= MinPageText {
        ChunkDocsKept(Chunks(pages[p], MaxChunkSize), p + 1, 0);
      }
    }
  }

  lemma {:induction false} IndexFromPages(pages: seq<string>, p: nat)
    requires p <= |pages|
    ensures forall d :: d in IndexFrom(pages, p) ==> p + 1 <= d.page
    decreases |pages| - p
  {
    if p < |pages| {
      IndexFromPages(pages, p + 1);
      if |Strip(pages[p])| >= MinPageText {
        ChunkDocsPositions(Chunks(pages[p], MaxChunkSize), p + 1, 0);
      }
    }
  }

  lemma PageDocsOrdered(text: string, page: nat)
    ensures forall d :: d in PageDocs(text, page) ==> d.page == page
    ensures Ordered(PageDocs(text, page))
  {
    if |Strip(text)| >= MinPageText {
      ChunkDocsPositions(Chunks(text, MaxChunkSize), page, 0);
      ChunkDocsOrdered(Chunks(text, MaxChunkSize), page, 0);
    }
  }

  lemma {:induction false} IndexFromOrdered(pages: seq<string>, p: nat)
    requires p <= |pages|
    ensures Ordered(IndexFrom(pages, p))
    decreases |pages| - p
  {
    if p < |pages| {
      IndexFromOrdered(pages, p + 1);
      IndexFromPages(pages, p + 1);
      PageDocsOrdered(pages[p], p + 1);
      AppendOrdered(PageDocs(pages[p], p + 1), IndexFrom(pages, p + 1));
    }
  }

  /** A run of digits ends where the first non-digit begins. */
  lemma DigitsPrefix(a: string, x: string, b: string, y: string)
    requires AllDigits(a) && AllDigits(b) && a + x == b + y
    requires |x| > 0 && !IsDigit(x[0]) && |y| > 0 && !IsDigit(y[0])
    ensures a == b && x == y
  {
    var s := a + x;
    assert !IsDigit(s[|a|]) && !IsDigit(s[|b|]);
    assert forall i :: 0 <= i < |a| ==> IsDigit(s[i]);
    assert forall i :: 0 <= i < |b| ==> IsDigit(s[i]);
    assert |a| == |b|;
    assert a == s[..|a|] && b == s[..|b|];
    assert x == s[|a|..] && y == s[|b|..];
  }

  /** Distinct page and chunk positions give distinct identifiers. */
  lemma ChunkIdInjective(p: nat, i: nat, q: nat, j: nat)
    requires ChunkId(p, i) == ChunkId(q, j)
    ensures p == q && i == j
  {
    var pre := "catalog_page_";
    var mid := "_chunk_";
    var tp := NatToString(p) + (mid + NatToString(i));
    var tq := NatToString(q) + (mid + NatToString(j));
    assert ChunkId(p, i) == pre + tp;
    assert ChunkId(q, j) == pre + tq;
    assert tp == ChunkId(p, i)[|pre|..];
    assert tq == ChunkId(q, j)[|pre|..];
    DigitsPrefix(NatToString(p), mid + NatToString(i), NatToString(q), mid + NatToString(j));
    assert NatToString(i) == (mid + NatToString(i))[|mid|..];
    assert NatToString(j) == (mid + NatToString(j))[|mid|..];
    NatToStringInjective(p, q);
    NatToStringInjective(i, j);
  }

  /** The documents of the catalog, in page and chunk order. */
  function CatalogDocs(pages: seq<string>): seq<CatalogDoc> {
    IndexFrom(pages, 0)
  }

  /** Every indexed document is a long enough chunk of a long enough page,
      and no two documents share an identifier. */
  lemma CatalogDocsWellFormed(pages: seq<string>)
    ensures forall k :: 0 <= k < |CatalogDocs(pages)| ==> WellFormed(CatalogDocs(pages)[k], pages)
    ensures forall k, l :: 0 <= k < l < |CatalogDocs(pages)| ==> CatalogDocs(pages)[k].id != CatalogDocs(pages)[l].id
  {
    var docs := CatalogDocs(pages);
    IndexFromWellFormed(pages, 0);
    IndexFromOrdered(pages, 0);
    forall k | 0 <= k < |docs| ensures WellFormed(docs[k], pages) {
      assert docs[k] in docs;
    }
    forall k, l | 0 <= k < l < |docs| ensures docs[k].id != docs[l].id {
      if docs[k].id == docs[l].id {
        ChunkIdInjective(docs[k].page, docs[k].chunkIndex, docs[l].page, docs[l].chunkIndex);
      }
    }
  }

  /** Chunk `j` of page index `q` qualifies for the index: the page has at
      least 50 stripped characters and the chunk at least 100. */
  ghost predicate Qualifies(pages: seq<string>, q: nat, j: nat) {
    && q < |pages|
    && |Strip(pages[q])| >= MinPageText
    && j < |Chunks(pages[q], MaxChunkSize)|
    && |Strip(Chunks(pages[q], MaxChunkSize)[j])| >= MinChunkText
  }

  /** The document a qualifying chunk is indexed as. */
  function DocFor(pages: seq<string>, q: nat, j: nat): CatalogDoc
    requires q < |pages| && j < |Chunks(pages[q], MaxChunkSize)|
  {
    CatalogDoc(ChunkId(q + 1, j), Chunks(pages[q], MaxChunkSize)[j], q + 1, j)
  }

  lemma {:induction false} ChunkDocsComplete(chunks: seq<string>, page: nat, i: nat, j: nat)
    requires i <= j < |chunks| && |Strip(chunks[j])| >= MinChunkText
    ensures CatalogDoc(ChunkId(page, j), chunks[j], page, j) in ChunkDocs(chunks, page, i)
    decreases |chunks| - i
  {
    if i < j {
      ChunkDocsComplete(chunks, page, i + 1, j);
    }
  }

  lemma PageDocsComplete(text: string, page: nat, j: nat)
    requires |Strip(text)| >= MinPageText
    requires j < |Chunks(text, MaxChunkSize)| && |Strip(Chunks(text, MaxChunkSize)[j])| >= MinChunkText
    ensures CatalogDoc(ChunkId(page, j), Chunks(text, MaxChunkSize)[j], page, j) in PageDocs(text, page)
  {
    ChunkDocsComplete(Chunks(text, MaxChunkSize), page, 0, j);
  }

  lemma {:induction false} IndexFromComplete(pages: seq<string>, p: nat, q: nat, d: CatalogDoc)
    requires p <= q < |pages| && d in PageDocs(pages[q], q + 1)
    ensures d in IndexFrom(pages, p)
    decreases |pages| - p
  {
    IndexFromStep(pages, p);
    if p < q {
      IndexFromComplete(pages, p + 1, q, d);
    }
  }

  lemma IndexFromStep(pages: seq<string>, p: nat)
    requires p < |pages|
    ensures IndexFrom(pages, p) == PageDocs(pages[p], p + 1) + IndexFrom(pages, p + 1)
  {
  }

  /** Every qualifying chunk is indexed, under the id of its page and position. */
  lemma CatalogDocsComplete(pages: seq<string>)
    ensures forall q, j :: Qualifies(pages, q, j) ==> DocFor(pages, q, j) in CatalogDocs(pages)
  {
    forall q: nat, j: nat | Qualifies(pages, q, j) ensures DocFor(pages, q, j) in CatalogDocs(pages) {
      PageDocsComplete(pages[q], q + 1, j);
      IndexFromComplete(pages, 0, q, DocFor(pages, q, j));
    }
  }

  // ---------------------------------------------------------------------
  // index_catalog_pdf: batches
  // ---------------------------------------------------------------------

  /** Consecutive slices of `size` items; the last may be shorter. */
  function Batches<T>(xs: seq<T>, size: nat): (bs: seq<seq<T>>)
    requires size > 0
    ensures forall k :: 0 <= k < |bs| ==> 0 < |bs[k]| <= size
    ensures forall k :: 0 <= k < |bs| - 1 ==> |bs[k]| == size
    decreases |xs|
  {
    if |xs| == 0 then []
    else if |xs| <= size then [xs]
    else [xs[..size]] + Batches(xs[size..], size)
  }

  lemma {:induction false} FlattenCons<T>(g: seq<T>, gs: seq<seq<T>>)
    ensures Flatten([g] + gs) == g + Flatten(gs)
    decreases |gs|
  {
    if |gs| == 0 {
      assert [g][..0] == [];
    } else {
      var last := gs[|gs| - 1];
      assert [g] + gs == ([g] + gs[..|gs| - 1]) + [last];
      assert gs == gs[..|gs| - 1] + [last];
      FlattenAppend([g] + gs[..|gs| - 1], last);
      FlattenAppend(gs[..|gs| - 1], last);
      FlattenCons(g, gs[..|gs| - 1]);
    }
  }

  /** Sending the batches one after another sends every item once, in order. */
  lemma {:induction false} BatchesCover<T>(xs: seq<T>, size: nat)
    requires size > 0
    ensures Flatten(Batches(xs, size)) == xs
    decreases |xs|
  {
    if |xs| > size {
      BatchesCover(xs[size..], size);
      FlattenCons(xs[..size], Batches(xs[size..], size));
      assert xs[..size] + xs[size..] == xs;
    } else if |xs| > 0 {
      assert [xs][..0] == [];
    }
  }

  datatype IndexResult =
    | Indexed(docs: seq<CatalogDoc>, batches: seq<seq<CatalogDoc>>, totalPages: nat)
    | IndexFailed(message: string)

  const PdfNotFound := "PDF file not found"

  /** `index_catalog_pdf`: a missing file and an unreadable PDF are errors;
      otherwise every kept chunk is sent to the catalog collection in
      batches of 100, and the numbers of chunks and pages are reported. */
  function IndexCatalogPdf(fileExists: bool, pdf: Result<seq<string>, string>): (r: IndexResult)
    ensures !fileExists ==> r == IndexFailed(PdfNotFound)
    ensures fileExists && pdf.Err? ==> r == IndexFailed(pdf.error)
    ensures fileExists && pdf.Ok? ==>
              && r.Indexed?
              && r.totalPages == |pdf.value|
              && Flatten(r.batches) == r.docs
              && (forall k :: 0 <= k < |r.batches| ==> 0 < |r.batches[k]| <= BatchSize)
              && (forall k :: 0 <= k < |r.batches| - 1 ==> |r.batches[k]| == BatchSize)
              && (forall k :: 0 <= k < |r.docs| ==> WellFormed(r.docs[k], pdf.value))
              && (forall k, l :: 0 <= k < l < |r.docs| ==> r.docs[k].id != r.docs[l].id)
              && Ordered(r.docs)
              && (forall q, j :: Qualifies(pdf.value, q, j) ==> DocFor(pdf.value, q, j) in r.docs)
  {
    if !fileExists then IndexFailed(PdfNotFound)
    else if pdf.Err? then IndexFailed(pdf.error)
    else
      var docs := CatalogDocs(pdf.value);
      CatalogDocsWellFormed(pdf.value);
      IndexFromOrdered(pdf.value, 0);
      CatalogDocsComplete(pdf.value);
      BatchesCover(docs, BatchSize);
      Indexed(docs, Batches(docs, BatchSize), |pdf.value|)
  }

  // ---------------------------------------------------------------------
  // semantic_search: the collection lookup
  // ---------------------------------------------------------------------

  datatype CollectionName = CatalogCollection | CostsCollection | ProgramsCollection

  /** The collection a search names, or the error message for any other name. */
  function LookupCollection(name: string): (r: Result<CollectionName, string>)
    ensures r.Ok? <==> name == "catalog" || name == "costs" || name == "programs"
    ensures r.Err? ==> r.error == "Collection " + name + " not found"
  {
    if name == "catalog" then Ok(CatalogCollection)
    else if name == "costs" then Ok(CostsCollection)
    else if name == "programs" then Ok(ProgramsCollection)
    else Err("Collection " + name + " not found")
  }

  /** A passage a similarity query returned. */
  datatype Passage = Passage(content: string, id: Option<string>)

  datatype SemanticReply =
    | Found(query: string, collection: string, results: seq<Passage>, totalFound: nat)
    | SearchError(message: string)

  /** `semantic_search`: an unknown collection is an error whatever the
      store would answer; otherwise the store's passages, or its error. */
  function SemanticSearch(query: string, collectionName: string, answer: CollectionName -> Result<seq<Passage>, string>): (r: SemanticReply)
    ensures LookupCollection(collectionName).Err? ==> r == SearchError("Collection " + collectionName + " not found")
    ensures LookupCollection(collectionName).Ok? ==>
              var a := answer(LookupCollection(collectionName).value);
              && (a.Err? ==> r == SearchError(a.error))
              && (a.Ok? ==> r.Found? && r.results == a.value && r.totalFound == |a.value|
                            && r.collection == collectionName && r.query == query)
  {
    match LookupCollection(collectionName)
    case Err(e) => SearchError(e)
    case Ok(c) =>
      match answer(c)
      case Err(e) => SearchError(e)
      case Ok(results) => Found(query, collectionName, results, |results|)
  }

  // ---------------------------------------------------------------------
  // add_program_information
  // ---------------------------------------------------------------------

  /** A document kept under a program: its name, description and, for the
      costs collection, the cost details. */
  datatype ProgramDoc = ProgramDoc(programName: string, description: string, hasCostInfo: bool,
                                   costs: map<string, string>)

  datatype Stores = Stores(programs: map<string, ProgramDoc>, costs: map<string, ProgramDoc>)

  /** The program name lowercased, with spaces as underscores. */
  function IdSuffix(programName: string): string {
    ReplaceChar(Lower(programName), ' ', '_')
  }

  function ProgramId(programName: string): string { "program_" + IdSuffix(programName) }
  function CostId(programName: string): string { "cost_" + IdSuffix(programName) }

  /** Two program names share an identifier exactly when they agree after
      lowercasing and replacing spaces, so the later one overwrites. */
  lemma ProgramIdsCollide(a: string, b: string)
    ensures ProgramId(a) == ProgramId(b) <==> IdSuffix(a) == IdSuffix(b)
    ensures CostId(a) == CostId(b) <==> IdSuffix(a) == IdSuffix(b)
  {
    if ProgramId(a) == ProgramId(b) {
      assert IdSuffix(a) == ProgramId(a)[|"program_"|..];
      assert IdSuffix(b) == ProgramId(b)[|"program_"|..];
    }
    if CostId(a) == CostId(b) {
      assert IdSuffix(a) == CostId(a)[|"cost_"|..];
      assert IdSuffix(b) == CostId(b)[|"cost_"|..];
    }
  }

  /** "Web Development" and "web_development" are filed under one id. */
  lemma SpacesAndUnderscoresCollide()
    ensures ProgramId("Web Development") == ProgramId("web_development")
  {
    assert Lower("Web Development") == "web development";
    assert Lower("web_development") == "web_development";
    assert ReplaceChar("web development", ' ', '_') == "web_development";
    assert ReplaceChar("web_development", ' ', '_') == "web_development";
  }

  /** `add_program_information`: the program document is always upserted;
      the cost document only when cost details are given and non-empty. */
  function AddProgramInformation(st: Stores, programName: string, description: string,
                                 costInfo: Option<map<string, string>>): (r: Stores)
    ensures var given := costInfo.Some? && |costInfo.value| > 0;
            && ProgramId(programName) in r.programs
            && r.programs[ProgramId(programName)].programName == programName
            && r.programs[ProgramId(programName)].description == description
            && r.programs[ProgramId(programName)].hasCostInfo == given
            && (forall id :: id != ProgramId(programName) && id in st.programs ==>
                  id in r.programs && r.programs[id] == st.programs[id])
            && r.programs.Keys == st.programs.Keys + {ProgramId(programName)}
            && (given ==> CostId(programName) in r.costs
                          && r.costs[CostId(programName)].costs == costInfo.value
                          && r.costs.Keys == st.costs.Keys + {CostId(programName)})
            && (forall id :: id != CostId(programName) && id in st.costs ==>
                  id in r.costs && r.costs[id] == st.costs[id])
            && (!given ==> r.costs == st.costs)
  {
    var given := costInfo.Some? && |costInfo.value| > 0;
    var costs := if given then costInfo.value else map[];
    var doc := ProgramDoc(programName, description, given, map[]);
    var costStore :=
      if given then st.costs[CostId(programName) := ProgramDoc(programName, description, true, costs)]
      else st.costs;
    Stores(st.programs[ProgramId(programName) := doc], costStore)
  }
}
